=== FILE: README.md ===
# PATHFit accounts and the UID migration, in Dafny

This project models the server side of the PATHFit student accounts.
It does not model the Flutter client.

- **Callables and scheduled sweeps** (`functions/index.js`):
  - registration: a pending record under the normalised address, then verification by a six-digit code. As written, every well-formed verification fails with an internal error (see Findings). With its query and record write corrected, it creates the identity account and an active record under its uid;
  - code resends;
  - sign-in, with its lockout and daily streak;
  - self-service account deletion;
  - the sweeps of stale pending accounts and expired quizzes.
- **Maintenance scripts:**
  - `migrate_to_uid.js` rekeys student-id keyed records under the identity uid and rewrites the references;
  - `verify_migration.js` counts what is left;
  - `fix_remaining_issues.js` repairs what is left;
  - `update_to_uid_only.js` rewrites every record to the uid-only shape;
  - `create_uid_users.js` backfills accounts for the student ids found in progress documents;
  - `scripts/fix_uid_consistency.js` realigns the `uid` fields;
  - the three deletion scripts of `lib/core/scripts`.

The store is a map from collection name to a map from document key to a flat document (`Firestore.Store`).
The identity provider is a map from uid to address (`Firestore.Auth`).

Several things the real system decides are parameters of the model:
- the order of a snapshot;
- the match a `limit(1)` query returns;
- the code drawn;
- whether a mail went out;
- whether a call throws;
- the uids the provider mints.

Each of these is either a ghost choice (`Firestore.First`, `Firestore.Enumerate`, `Firestore.UidByEmail`) or an explicit argument.
A transaction's writes are discarded when its callback throws (`Firestore.Commit`).

The modules follow the source:

| module | file |
|---|---|
| `Values` | JavaScript values, truthiness, `trim`, `toLowerCase`, the address check, decimal text |
| `Firestore` | the store, queries, batches, the identity provider, errors |
| `Registration` | `createPendingUser`, `completeStudentRegistration`, the two resend callables |
| `Login` | `loginUser` |
| `Deletion` | `deleteUserAccount`, `deleteUserRelatedData`, the two sweeps |
| `Migration` | `migrate_to_uid.js` |
| `Verification` | `verify_migration.js` |
| `Fixer` | `fix_remaining_issues.js` |
| `UidOnly` | `update_to_uid_only.js` |
| `UidUsers` | `create_uid_users.js` |
| `AdminDelete` | `admin_delete_user.js`, `delete_multiple_users.js`, `delete_user_completely.js` |
| `UidConsistency` | `scripts/fix_uid_consistency.js` |

Some behaviours of the code that a reader might not expect:
- The sign-in streak grows only when the previous sign-in is on the previous calendar day *and* less than 24 hours ago (`Login.ConsecutiveDaysCanReset`).
- The resend counter is never reset (`Registration.FourthResendWithinHourRefused`).
- A registration does not consult the deletion blacklist (`Registration.CreatePendingIgnoresBlacklist`).
- An account activated by a verification code holds no password, so `loginUser` refuses it (`Login.ActivatedAccountCannotSignIn`).
- `resendVerificationCode` turns an active account back into a pending one (`Registration.ResendCodeDemotesActive`).
- The two deletion registries disagree on which field of `studentQuizzes` names the student (`Deletion.QuizProgressOutlivesAccountDeletion`, `Deletion.QuizProgressOutlivesRelatedPurge`).
- The migration rewrites `studentId` in `studentQuizzes`, but the verifier reads `userId` there (`Verification.RewrittenQuizStillFlagged`).

## Model

| member | source | states |
|---|---|---|
| Values.Utf16Length | functions/index.js:894 | `length` counts one code unit per character and two per character outside the Basic Multilingual Plane, so it lies between the character count and twice it |
| Values.Utf16LengthCountsChars | functions/index.js:894 | the length equals the character count exactly when no character lies outside the Basic Multilingual Plane |
| Values.Lower | functions/index.js:1127 | lower-casing keeps the length and maps each character on its own, so it is position-wise |
| Values.TrimStartShape | lib/core/scripts/delete_user_completely.js:26-30 | trimming the front removes exactly a white-space prefix: the result is a suffix of the input, does not start with white space, and everything cut was white space |
| Values.TrimEndShape | lib/core/scripts/delete_user_completely.js:26-30 | trimming the back removes exactly a white-space suffix, the mirror of the front |
| Values.NormalizeFormatted | functions/index.js:256-272 | an address that passes the format check has no white space, so normalising it only lower-cases it, and the result still passes the check |
| Values.NormalizeIdempotent | functions/index.js:953-955 | normalising a well-formed address twice gives the same key as once, so a stored key is found again by the same query |
| Values.DecimalRoundTrip | functions/index.js:948 | reading back the decimal text of a code gives the code, so distinct codes have distinct texts |
| Values.DecimalLength | functions/index.js:948 | a number between 10^k and 10^(k+1) has k+1 digits |
| Values.CodeIsSixDigits | functions/index.js:948 | every code the generator can draw is exactly six digits long |
| Firestore.Chunks | functions/index.js:1177-1232 | concatenating the batches gives back the listing, in order |
| Firestore.ChunksShape | functions/index.js:1177-1232 | every batch is non-empty and holds at most 400 documents; only the last may be short |
| Firestore.PlanBatches | functions/index.js:1177-1232 | the delete loop with its open batch and commit at 400 produces exactly the chunking of the listing, and its total is the number of documents listed |
| Firestore.CommitBatches | functions/index.js:1177-1232 | committing the batches deletes exactly the documents they list, in that collection only |
| Firestore.DeleteRefs | functions/index.js:1177-1232 | one registry entry's pass deletes exactly the documents its query matches and touches no other collection |
| Firestore.RewriteRefs | migrate_to_uid.js:177-197 | the batch update sets the field and a timestamp on exactly the matching documents; no document is added or removed, and the others are unchanged |
| Firestore.RewriteRemovesOld | migrate_to_uid.js:177-197 | after a rewrite no document still refers to the old value, and every document that did refers to the new one |
| Firestore.First | functions/index.js:269-281 | a `limit(1)` query returns a matching document, and returns nothing exactly when no document matches |
| Firestore.Enumerate | migrate_to_uid.js:31-35 | a snapshot lists every document of the set exactly once |
| Firestore.UidByEmail | lib/core/scripts/admin_delete_user.js:24-31 | the address lookup returns an account registered with exactly that address, and fails exactly when none is |
| Registration.CheckRequest | functions/index.js:876-916 | a registration is refused exactly when a check fails: missing fields, a bad address, a password shorter than six UTF-16 code units or a bad year are argument errors, and an absent year is an internal error |
| Registration.ThreeAstralCharactersAreLongEnough | functions/index.js:894 | a password of three characters outside the Basic Multilingual Plane is six code units long and passes the length check, so the request is refused only for another reason |
| Registration.CreatePendingUser | functions/index.js:857-1086 | a refused registration changes nothing; an accepted one adds or replaces only the record under the normalised address, and that record is a fresh pending one with a code, an expiry and zero attempts, carrying the request's profile fields, its trimmed names and year, and zero sign-in counters |
| Registration.PendingOutcome | functions/index.js:923-996 | an accepted registration passed every check and replies with the normalised key and whether the mail failed |
| Registration.PendingRecordShape | functions/index.js:947-996 | the pending record carries the normalised address, pending status, a six-digit code valid for 15 minutes, no uid, every profile field exactly as the request gave it, the cleaned names, the year, and zero attempts, streak and total sign-ins |
| Registration.CarriesParts | functions/index.js:954-990 | a record whose name, profile and state parts hold apart fields carries the request's profile, names, year and zero counters |
| Registration.NoUidField | functions/index.js:953-996 | none of the parts of a pending record has a `uid` field |
| Registration.CreatePendingDuplicates | functions/index.js:923-945 | with no record for the address, a registration goes through exactly when the profile is complete; records that are all active or pending stop it as a duplicate; a registration that goes through found no blocking record |
| Registration.CreatePendingIgnoresBlacklist | functions/index.js:923-945 | a blacklist entry for the address changes nothing about the outcome of a registration |
| Registration.CreateUserError | functions/index.js:700-743 | a taken address is reported as a duplicate; a rejected address or password as a bad argument; every other failure as internal; each in both directions |
| Registration.CheckVerifyArgs | functions/index.js:626-642 | verification's argument checks pass exactly when code and address are present and the address is well formed; a missing one is reported as such, and every refusal is a bad argument |
| Registration.ActiveRecord | functions/index.js:745-763 | in the corrected callable, activation keeps every profile field of the pending record other than the secrets and the fields it resets |
| Registration.ActiveRecordShape | functions/index.js:745-763 | in the corrected callable, an activated record is active and verified, carries the uid and the normalised address, and holds no code or password |
| Registration.VerifyOutcome | functions/index.js:628-683 | with the expiry compared against the current time, verification picks an unexpired pending record with the code for the address when no active account has it; it reports a bad argument when no such record exists and a duplicate when an active account exists |
| Registration.Activate | functions/index.js:765-772 | in the corrected callable, the transaction's writes remove the pending record, put the active one under the uid, and leave every other record and collection alone |
| Registration.CompleteStudentRegistration | functions/index.js:624-850 | the callable with its query and record write corrected: a failed verification leaves the store unchanged; a refused request also leaves the accounts unchanged; a successful one registers the new uid for the address and performs exactly the activation |
| Registration.CompleteRegistrationEffect | functions/index.js:645-772 | for the corrected callable, a verification that goes through found an unexpired pending record with the code and no active account, replaced it by an active record under the new uid, and kept every other record |
| Registration.TokenFailureOrphansIdentity | functions/index.js:685-849 | for the corrected callable, when the sign-in token fails after the identity account is created, the caller gets an internal error, the store is unchanged and the identity account remains without a record |
| Registration.CompleteStudentRegistrationAsWritten | functions/index.js:624-850 | as written, no call changes the store or the accounts: bad arguments are refused as such, and every well-formed call fails with the internal completion error |
| Registration.SentinelQueryBlocksRegistration | functions/index.js:648-656 | where the corrected callable registers the new uid, the callable as written fails and leaves store and accounts alone |
| Registration.CompleteWithSentinelSet | functions/index.js:685-849 | with only the query corrected, no call succeeds or changes the store; once the checks pass and the account is created, the caller gets the internal completion error and the account stays |
| Registration.SentinelSetOrphansIdentity | functions/index.js:745-772 | for a fresh uid, the write with the delete sentinel leaves an identity account without a record, where the corrected callable leaves an active record under that uid |
| Registration.ActivateKeepsOneActive | functions/index.js:669-772 | activating for an address with no active account keeps at most one active record per address |
| Registration.CompleteKeepsOneActive | functions/index.js:624-850 | verification preserves "at most one active record per address" |
| Registration.CreatePendingKeepsOneActive | functions/index.js:923-996 | registration preserves "at most one active record per address" |
| Registration.ResentShape | functions/index.js:455-470 | a resend counts itself, stamps its time, issues a six-digit code valid for 24 hours, and keeps the record's address and pending status |
| Registration.ResendTarget | functions/index.js:402-453 | a bad address is an argument error; no pending record means not found; a record whose quota is spent is never chosen; a chosen record is pending for the address with quota left |
| Registration.ResendVerificationEmail | functions/index.js:398-537 | a refused resend changes nothing; a successful one rewrites only the chosen pending record |
| Registration.ResendKeepsSingle | functions/index.js:423-470 | for the single pending record of an address, a resend goes through exactly when the quota allows; it keeps the record the only pending one and adds one to its count |
| Registration.FourthResendWithinHourRefused | functions/index.js:441-453 | on a record never resent, three resends within an hour go through and a fourth within the same hour is refused |
| Registration.Reissued | functions/index.js:577-588 | a reissued record is pending again, with the new code and a 10-minute expiry |
| Registration.CodeTarget | functions/index.js:543-572 | a uid selects the record under that key; without one, any record carrying the normalised address; neither given is an argument error; no record is not found |
| Registration.ResendVerificationCode | functions/index.js:540-617 | an unresolved request changes nothing and is not an internal error; a resolved one reissues that record even when the mail then fails, and succeeds exactly when the mail goes out |
| Registration.ResendCodeDemotesActive | functions/index.js:577-588 | asking for a code by uid turns an active account back into a pending one |
| Login.FailedAttemptShape | functions/index.js:316-330 | a recorded failure counts one more attempt and stamps it; address, status and password are unchanged |
| Login.FailedAttempt | functions/index.js:316-330 | a failed attempt adds one to the attempt counter and keeps every field other than the counter and the two timestamps |
| Login.NextStreak | functions/index.js:341-355 | a first sign-in starts the streak at 1, so does one more than 24 hours after the last, and the streak is left unchanged only on the same calendar day |
| Login.Rejection | functions/index.js:287-330 | a record is accepted exactly when it is active, not locked and the password matches; otherwise the first failing check, in the order status, lockout, password, gives the error code |
| Login.Lookup | functions/index.js:248-281 | once the arguments pass, the lookup fails exactly when no record carries the normalised address; a record it picks carries it |
| Login.SignInOn | functions/index.js:283-360 | on the chosen record a rejection is returned as is; an accepted record succeeds exactly when a token can be minted; success writes the sign-in update and every failure leaves the store |
| Login.SignIn | functions/index.js:267-360 | a failed lookup is returned as is and changes nothing; a success adds no record; the accounts never change |
| Login.LoginUser | functions/index.js:244-392 | as written, every error leaves the store unchanged, missing or malformed arguments give their own errors, and a success adds no record |
| Login.LoginUserCommitsFailures | functions/index.js:316-330 | with the failed attempt committed, only wrong-password errors change the store |
| Login.LoginSuccessEffect | functions/index.js:332-360 | a successful sign-in found an active, unlocked record for the address with a matching password and a uid, and wrote exactly that record's sign-in update |
| Login.SingleRecordOutcome | functions/index.js:269-360 | with one record for the address, the outcome is the record's first failing check, or success exactly when a token can be minted |
| Login.UnknownAddressDistinguishable | functions/index.js:269-330 | an unknown address and a wrong password share the message but not the error code |
| Login.SignedInBelowLockout | functions/index.js:332-339 | a sign-in resets the attempt counter, so it keeps every record below the threshold |
| Login.LockoutUnreachable | functions/index.js:301-330 | as written, from records below the threshold no call ever reports the lockout, and the records stay below it |
| Login.FailedAttemptsDiscarded | functions/index.js:316-330 | as written, any run of failed sign-ins leaves the store exactly as it was |
| Login.SixthFailureNotLocked | functions/index.js:301-330 | as written, five wrong passwords on an active account are followed by a sixth plain refusal, not the lockout |
| Login.CountedFailureStep | functions/index.js:316-330 | with failures committed, one wrong password counts one attempt and stamps it |
| Login.CountedAttempts | functions/index.js:316-330 | with failures committed, a run of wrong passwords below the threshold counts every one and stamps the last |
| Login.FifthFailureLocks | functions/index.js:301-314 | with failures committed, after five wrong passwords a call inside the window is refused as locked, whatever password it carries |
| Login.StreakRule | functions/index.js:341-355 | a same-day sign-in keeps the streak, one two or more days later resets it to 1, and the streak grows only on the next calendar day |
| Login.SameDaySignInsKeepStreak | functions/index.js:332-355 | two sign-ins on one day keep the streak, count two sign-ins and leave the counter at zero |
| Login.NextDaySignInGrowsStreak | functions/index.js:341-355 | a sign-in on the next calendar day, within 24 hours, grows the streak by one |
| Login.ConsecutiveDaysCanReset | functions/index.js:341-355 | consecutive calendar days more than 24 hours apart reset the streak to 1 |
| Login.ActivatedAccountCannotSignIn | functions/index.js:745-763 | a record activated by a code holds no password, so sign-in refuses it as bad credentials |
| Login.ReissuedCannotSignIn | functions/index.js:577-588 | a record whose code was reissued is refused as unverified |
| Deletion.PurgeRefs | functions/index.js:1177-1232 | a reference purge only deletes documents |
| Deletion.PurgeOk | functions/index.js:1482-1525 | a purge completes exactly when it carries on past failures or meets no failing collection |
| Deletion.PurgeClears | functions/index.js:1177-1232 | after a completed purge, no entry whose collection did not fail still matches the account |
| Deletion.PurgeKeeps | functions/index.js:1177-1232 | a document no entry of its collection matches survives the purge |
| Deletion.DeleteUserRelatedData | functions/index.js:1456-1526 | the related-data purge only deletes |
| Deletion.RelatedDataCleared | functions/index.js:1456-1526 | every related-data entry whose collection did not fail is cleared of the account |
| Deletion.RemoveRecord | functions/index.js:1113-1141 | when the record exists, it and the BMI document are deleted and a tombstone is written under the lower-cased address; an address that is not a string throws; a missing record changes nothing |
| Deletion.DeleteUserAccount | functions/index.js:1093-1248 | an anonymous caller is refused; the deletion succeeds exactly when the record step passes, no registry collection fails and the identity exists; success removes the identity and the record, and a failure keeps the identity |
| Deletion.DeleteAccountClears | functions/index.js:1147-1232 | after a successful deletion no registry entry still matches the account |
| Deletion.DeleteAccountLeavesTombstone | functions/index.js:1113-1232 | once the record with a string address is reached, the deletion leaves the tombstone with the former uid and the time under the lower-cased address, whatever its outcome |
| Deletion.QuizProgressOutlivesAccountDeletion | functions/index.js:1147-1175 | a quiz-progress document naming the student only by `studentId` outlives the account deletion |
| Deletion.QuizProgressOutlivesRelatedPurge | functions/index.js:1460-1479 | a quiz-progress document naming the student only by `userId` outlives the related-data purge |
| Deletion.RemoveAccount | functions/index.js:1367-1386 | in the modelled collections, removing a swept account only deletes documents; it deletes the record under the uid and drops the identity |
| Deletion.Visit | functions/index.js:1358-1395 | in the modelled collections, visiting a selected record only deletes, and deleting by key removes the record |
| Deletion.SweepRecords | functions/index.js:1358-1404 | every selected record is counted once, as deleted or as an error, with one audit per deletion; a record without an address is never counted as deleted; deleting by key counts no error when every selected record has an address |
| Deletion.SweepWithoutEmailCountsError | functions/index.js:1367-1402 | a swept record without an address loses its record and its account, yet the audit write throws, so it counts as an error and leaves no audit |
| Deletion.SweepOnlyDeletes | functions/index.js:1358-1404 | in the modelled collections, a sweep only deletes documents |
| Deletion.Selected | functions/index.js:1343-1351 | a run selects distinct matching records, as many as match up to 100 |
| Deletion.AutoDeleteUnverifiedAccounts | functions/index.js:1336-1413 | as written, deletions plus errors equal the number selected, at most 100 |
| Deletion.AutoDeleteUnverifiedByKey | functions/index.js:1358-1404 | deleting by key counts each selected record once, and deletes every one without an error when each has an address |
| Deletion.SweepSkipsRecordsWithoutUid | functions/index.js:1360-1379 | as written, records without a uid field are never deleted: each counts an error and nothing changes |
| Deletion.SweepLeavesPendingRecords | functions/index.js:1343-1386 | when no matching record has a uid field, as none a registration writes does, the sweep deletes nothing and reports every selected record as an error |
| Deletion.SweepByKeyRemoves | functions/index.js:1358-1386 | deleting by key removes every selected record |
| Deletion.SweepByKeyEmptiesQuery | functions/index.js:1343-1404 | with at most 100 stale pending records, one corrected run leaves none |
| Deletion.AutoDeleteExpiredQuizzes | functions/index.js:1427-1450 | a committed sweep leaves no expired quiz, keeps every other quiz and collection, and adds nothing; a failed commit changes nothing |
| Deletion.ExpiredSweepSubsumed | functions/index.js:1427-1450 | a sweep followed by a later one is the later one alone |
| Migration.MigrationRefsWellFormed | migrate_to_uid.js:159-169 | the rewritten fields lie outside the account records, none is the timestamp, and no entry is listed twice |
| Migration.RekeyRefs | migrate_to_uid.js:156-205 | the reference rewrite records one error per entry whose collection fails |
| Migration.RewriteKeepsOtherField | migrate_to_uid.js:177-197 | rewriting one field never makes another field match a value it did not match |
| Migration.RekeyKeepsAbsent | migrate_to_uid.js:156-205 | a run that never names a field never makes a document match on that field |
| Migration.RekeyClears | migrate_to_uid.js:156-205 | after the run, no document of an entry whose collection did not fail still refers to the old key |
| Migration.RekeyKeeps | migrate_to_uid.js:156-205 | a document that refers to the old key in none of the run's fields is left exactly as it was |
| Migration.RekeyUsersUntouched | migrate_to_uid.js:156-171 | the reference rewrite never touches the account records |
| Migration.ResolveAuth | migrate_to_uid.js:56-74 | a record resolves only to an existing account, by address first and then by uid |
| Migration.MigrateUser | migrate_to_uid.js:48-126 | with no account the record is skipped and nothing changes; a record already under its uid changes no other collection and no other record, is left exactly as it was or gains only `uid` set to its key, and is logged correct or, if gone, not at all; otherwise it moves to its uid, the old key goes, and one error is logged per failed collection |
| Migration.Move | migrate_to_uid.js:128-150 | the rekeying writes the record under the uid, deletes the old key, and is logged as migrated |
| Migration.MigrateUserClearsRefs | migrate_to_uid.js:110-116 | after a record is rekeyed, no reference to its old key remains in a collection whose rewrite went through |
| Migration.SecondPassRekeysNothing | migrate_to_uid.js:86-107 | migration is idempotent: the record a migration wrote takes the already-correct branch and nothing is written |
| Migration.MigrateRecords | migrate_to_uid.js:31-41 | every record of the snapshot either logs one entry or records one error |
| Migration.MigrateAllUsers | migrate_to_uid.js:25-46 | log entries plus record errors equal the number of account records |
| Migration.StatusCountsPartition | migrate_to_uid.js:213-220 | the migrated, already-correct and skipped counts partition the log |
| Migration.SummaryAddsUp | migrate_to_uid.js:213-220 | the summary's three counts add up to its total, and the total plus the record errors is the number of records |
| Migration.Summarize | migrate_to_uid.js:214-224 | the summary's migrated, already-correct and skipped counts add up to its total, which is the length of the log |
| Verification.UserCountsPartition | verify_migration.js:55-86 | every record is counted once, as uid based or student-id based; there is no student-id based record exactly when every record is keyed by its own uid |
| Verification.MigratedRecordIsUidBased | verify_migration.js:62-72 | a record the migration rekeyed is counted as uid based, and its old key is gone |
| Verification.StaleUidFieldSurvivesMigration | verify_migration.js:62-80 | a record under its account's key whose uid field names something else is reported correct by the migration, left unchanged, and still counted as student-id based |
| Verification.FirstUnreadable | verify_migration.js:108-130 | the position of the first document that makes the scan throw, with every earlier one readable |
| Verification.Classify | verify_migration.js:108-125 | a document is unreadable exactly when its truthy `userId` is not a string, has no reference exactly when it has neither field, and is a uid reference only for a string `userId` not starting with `S` |
| Verification.CountsPartition | verify_migration.js:108-130 | the four kinds of reference partition any run of documents |
| Verification.ScanCounts | verify_migration.js:101-137 | a collection's scan counts each document before the first unreadable one in exactly one bucket, and throws exactly when an unreadable one exists |
| Verification.Scan | verify_migration.js:108-125 | a scan counts no more documents than it reads, and every one when it does not throw |
| Verification.RewrittenQuizStillFlagged | verify_migration.js:111-122 | a quiz-progress document the migration rewrote still counts as a student-id reference |
| Verification.ScanIssuesMeaning | verify_migration.js:88-137 | no reference issue is counted exactly when no readable collection flags a reference |
| Verification.ScanErrorsMeaning | verify_migration.js:88-137 | no error is recorded exactly when every collection is read to its end |
| Verification.ScanCollections | verify_migration.js:101-136 | at most one error per collection; when every collection fails to be read, no issue is counted and each records an error |
| Verification.OrphanBalance | verify_migration.js:139-172 | orphaned records plus matched keys equal the records, missing records plus matched keys equal the accounts, and both are empty exactly when record keys and account uids coincide |
| Verification.SyncIssuesOf | verify_migration.js:181-205 | one account contributes at most two issues |
| Verification.SyncIssuesMeaning | verify_migration.js:174-211 | no synchronisation issue is counted exactly when every listed account has a record in step with it; there are at most two issues per account; a missing record is always an issue |
| Verification.SuccessRateBounds | verify_migration.js:222-230 | the rate is a percentage: 100 for a complete migration and 0 for none |
| Verification.SuccessRate | verify_migration.js:226-228 | the rate is the percentage of uid based records rounded half up, or 0 with no records |
| Verification.HundredPercentIsNotComplete | verify_migration.js:222-286 | rounding can show 100 percent while the verdict still asks for attention |
| Verification.VerdictMeaning | verify_migration.js:281-286 | the success verdict holds exactly when every read succeeds, every record is uid based and no reference is unreadable |
| Verification.VerdictIgnoresReferences | verify_migration.js:281-286 | the success verdict can stand while reference issues are counted |
| Verification.VerifyMigration | verify_migration.js:37-53 | uid based and student-id based records add up to the total; a failed record read counts nothing and logs two errors; a failed account listing counts no orphan or missing record and logs two errors; otherwise orphans and missing records are both zero exactly when the record keys are the account uids |
| Fixer.AccountOf | fix_remaining_issues.js:61-66 | a moved record's account exists and has exactly the record's address |
| Fixer.MoveOne | fix_remaining_issues.js:61-82 | a move changes no collection other than the account records |
| Fixer.MoveRecords | fix_remaining_issues.js:50-92 | the loop counts at most one move per snapshot entry; over distinct keys its count is exactly the number of listed records that have a student id, no uid and an address some account holds; it touches no other collection |
| Fixer.MovableSplit | fix_remaining_issues.js:50-92 | over a distinct listing, the moved keys are the head's share plus the tail's |
| Fixer.FixStudentIdBasedUsers | fix_remaining_issues.js:50-92 | as written, the phase counts exactly the records that have a student id, no uid and an address some account holds, so never more than the number of records |
| Fixer.FixStudentIdBasedUsersKeepingSelf | fix_remaining_issues.js:50-92 | the corrected phase counts exactly the same records as the phase as written |
| Fixer.SelfKeyedRecordLost | fix_remaining_issues.js:61-82 | as written, a record already under its account's uid is written and then deleted, so it is gone yet counted as moved |
| Fixer.MoveKeepsRecord | fix_remaining_issues.js:61-82 | with the self-delete skipped, the record ends under the account's uid and marked with it; the old key is gone exactly when it differs; nothing else changes |
| Fixer.UnmovedRecordsKept | fix_remaining_issues.js:50-92 | records the phase neither moves nor overwrites are left exactly as they were |
| Fixer.RecordWithStudentId | fix_remaining_issues.js:117-122 | the query returns a record with that student id, and nothing exactly when none has it |
| Fixer.RefFixOf | fix_remaining_issues.js:112-157 | a document throws exactly when the verifier counts it unreadable, and only documents the verifier counts as student-id references are repointed |
| Fixer.RepointedNamesRecord | fix_remaining_issues.js:115-152 | a repaired reference names an account record whose student id is the value it referred by, and keeps that value |
| Fixer.RepointedClassified | fix_remaining_issues.js:127-152 | a repaired reference counts as a uid reference afterwards unless the record it names is keyed by a student id |
| Fixer.RepairDocs | fix_remaining_issues.js:107-160 | the collection's loop updates at most one document each, adds or removes none, and touches no other collection |
| Fixer.KeptRefUnchanged | fix_remaining_issues.js:112-157 | a document the loop keeps is left exactly as it was |
| Fixer.RepairedRefsRepointed | fix_remaining_issues.js:112-157 | when no document throws, every document the loop repoints ends pointing at its account record |
| Fixer.RepointedStays | fix_remaining_issues.js:107-160 | a document outside the loop's listing is untouched |
| Fixer.RepairOne | fix_remaining_issues.js:107-164 | repairing a collection never touches the account records |
| Fixer.RepairCollections | fix_remaining_issues.js:94-166 | the reference repair records at most one error per collection, never touches the account records, and counts no update of a collection whose loop threw; with every collection failing it counts only errors |
| Fixer.RepairOneCounted | fix_remaining_issues.js:107-164 | a collection's writes stay whatever happens; it counts an error exactly when it throws, and its updates only when its loop finishes |
| Fixer.Cleaned | fix_remaining_issues.js:179-197 | the phase deletes only orphaned records |
| Fixer.CleanOrphans | fix_remaining_issues.js:168-206 | the count is the number of cleanable records, and no other collection is touched |
| Fixer.CleanOrphansCount | fix_remaining_issues.js:168-206 | deleting orphans takes exactly the cleaned ones off the orphan count |
| Fixer.CleanOrphansKeeps | fix_remaining_issues.js:179-197 | records of accounts, records without an address, and records whose address has an account all stay |
| Fixer.CreateMissing | fix_remaining_issues.js:208-241 | the loop counts at most one record per listed account and touches no other collection |
| Fixer.CreateMissingCovers | fix_remaining_issues.js:214-233 | existing records are untouched, and every listed account ends with a record |
| Fixer.CreateMissingCounts | fix_remaining_issues.js:214-233 | the loop counts the listed accounts that had no record when it started |
| Fixer.CreateMissingCount | fix_remaining_issues.js:214-233 | on a listing without repeats, the count is the number of listed accounts lacking a record |
| Fixer.CreateMissingStubs | fix_remaining_issues.js:217-233 | each listed account that had no record gets its stub |
| Fixer.StubInSync | fix_remaining_issues.js:217-233 | a stub is in step with its account, as the verifier checks |
| Fixer.ListingCovers | fix_remaining_issues.js:208-241 | a listing of every account leaves none without a record |
| Fixer.FixMissingAuthUsers | fix_remaining_issues.js:208-241 | afterwards no account lacks a record, and the count is the number that did |
| Fixer.FixRemainingIssues | fix_remaining_issues.js:34-48 | as written, with the as-written first phase: when the snapshot and the account listing succeed, the run leaves no account without a record; when the snapshot fails, nothing is migrated or cleaned and two errors are logged |
| Fixer.FixRemainingIssuesKeepingSelf | fix_remaining_issues.js:34-48 | the run with the corrected first phase keeps the same guarantees |
| UidOnly.KeyPrefix | update_to_uid_only.js:33 | the default last name is a prefix of the key, at most eight characters |
| UidOnly.Profile | update_to_uid_only.js:32-38 | the profile holds exactly the seven profile fields |
| UidOnly.UidOnlyRecord | update_to_uid_only.js:26-43 | a record can be rewritten exactly when it has an address |
| UidOnly.IdentityFieldsApart | update_to_uid_only.js:26-40 | the uid-only fields are the profile fields plus uid, address and timestamp, and the three are not profile fields |
| UidOnly.UidOnlyShape | update_to_uid_only.js:26-43 | a rewritten record has exactly the uid-only fields, its key as uid, the old address and no student id; each truthy profile field is kept and each falsy one defaulted |
| UidOnly.UidOnlyIdempotent | update_to_uid_only.js:26-43 | rewriting a rewritten record again changes at most its timestamp |
| UidOnly.RewriteRecords | update_to_uid_only.js:21-50 | every record is counted once, as updated or as an error, and no other collection is touched |
| UidOnly.UpdateToUidOnly | update_to_uid_only.js:10-50 | updated plus errors equals the number of records |
| UidOnly.RewriteRecordsEffect | update_to_uid_only.js:21-50 | the loop replaces each record with an address by its uid-only form, leaves the others, and adds or removes none |
| UidOnly.UpdateToUidOnlyEffect | update_to_uid_only.js:10-50 | after the run every record with an address is in uid-only form, every record without one is as it was, and the set of keys is unchanged |
| UidUsers.IdsOf | create_uid_users.js:15-31 | every collected id is truthy |
| UidUsers.StudentIdsMeaning | create_uid_users.js:15-31 | a value is collected exactly when some quiz or module document holds it as a truthy student id |
| UidUsers.SyntheticEmail | create_uid_users.js:43 | the address is the prefix, the id text and the domain |
| UidUsers.SyntheticEmailInjective | create_uid_users.js:43 | distinct id texts give distinct addresses |
| UidUsers.NumericIdSharesAddress | create_uid_users.js:43 | an id stored as a number and the same digits stored as a string share one address |
| UidUsers.Acquire | create_uid_users.js:46-62 | a lookup failure other than "not found" gives no account; otherwise the account is the existing one with the address, or a new one when none has it |
| UidUsers.UserRecordShape | create_uid_users.js:65-80 | the record is keyed by its own uid, carries the address, keeps the id as student id and last name, has the student role and is active |
| UidUsers.CreateAccounts | create_uid_users.js:40-93 | every id yields one created account or one error |
| UidUsers.MadeAccountsExist | create_uid_users.js:40-93 | each account reported as made exists afterwards with the address built from its id |
| UidUsers.AuthKept | create_uid_users.js:40-93 | the loop never removes an account or changes its address |
| UidUsers.MadeFromIds | create_uid_users.js:40-93 | each account made comes from one of the ids |
| UidUsers.PutRecordFor | create_uid_users.js:65-80 | writing an id's record gives its uid a record holding that uid and the address, and keeps every other uid's record |
| UidUsers.RecordKept | create_uid_users.js:40-93 | with fresh uids, a record holding an account's uid and address keeps both for the rest of the loop |
| UidUsers.MadeRecordsWritten | create_uid_users.js:40-93 | with fresh uids, each account reported as made ends with a user record under its uid holding that uid and its address |
| UidUsers.RewriteOne | create_uid_users.js:118-147 | an id's batch touches only the two progress collections |
| UidUsers.RewriteOneClears | create_uid_users.js:118-147 | after an id's batch no progress document refers to the id, and each that did refers to the uid |
| UidUsers.RewriteAll | create_uid_users.js:118-152 | the batches touch only the two progress collections |
| UidUsers.RewriteAllKeeps | create_uid_users.js:118-152 | a document holding no made id keeps its contents through every batch |
| UidUsers.CreateUidUsers | create_uid_users.js:10-170 | accounts made plus errors equals the number of distinct ids |
| UidUsers.CreateUidUsersAccounts | create_uid_users.js:10-93 | with a fresh uid per id, every account the run reports comes from a collected id and exists with its address |
| UidUsers.CreateUidUsersRecords | create_uid_users.js:10-152 | with a fresh uid per id, every account the run reports ends with a user record under its uid holding that uid and the account's address (the one built from its id, by UidUsers.CreateUidUsersAccounts), keyed by its uid whenever the uid is non-empty |
| AdminDelete.WithField | lib/core/scripts/admin_delete_user.js:53-72 | the query returns exactly the records whose field equals the value |
| AdminDelete.PurgeAccount | lib/core/scripts/admin_delete_user.js:24-72 | a failed lookup changes nothing; otherwise the account found is the one with the address, no account changes nothing, and only account records are touched |
| AdminDelete.PurgeWithoutAccount | lib/core/scripts/admin_delete_user.js:33-34 | with no account at the address, nothing is deleted whatever records hold it, and the run succeeds |
| AdminDelete.PurgeOrder | lib/core/scripts/admin_delete_user.js:39-81 | the store changes only after the account is gone, and the run succeeds exactly when every step did |
| AdminDelete.PurgeEffect | lib/core/scripts/admin_delete_user.js:39-72 | a completed purge removes the account, `users/uid` and every record holding the address, and keeps every other record and account |
| AdminDelete.PurgeShrinks | lib/core/scripts/admin_delete_user.js:24-81 | the purge only deletes, documents and accounts alike |
| AdminDelete.DeleteUserByEmail | lib/core/scripts/delete_multiple_users.js:28-101 | the run succeeds exactly when the purge did and the blacklist delete did not throw |
| AdminDelete.DeleteUserByEmailShrinks | lib/core/scripts/delete_multiple_users.js:28-101 | the run only deletes |
| AdminDelete.DeleteUserByEmailEffect | lib/core/scripts/delete_multiple_users.js:28-101 | a run that throws nowhere leaves no account with the address and no blacklist entry; records holding the address are gone when an account had it and untouched otherwise |
| AdminDelete.DeleteMultipleUsers | lib/core/scripts/delete_multiple_users.js:103-129 | each address counts once, as succeeded or failed |
| AdminDelete.DeleteMultipleShrinks | lib/core/scripts/delete_multiple_users.js:103-129 | the whole run only deletes |
| AdminDelete.DeleteMultipleClears | lib/core/scripts/delete_multiple_users.js:103-129 | every address whose run threw nowhere ends with no account and no blacklist entry, however later addresses fare |
| AdminDelete.CleanOne | lib/core/scripts/delete_user_completely.js:111-155 | one related collection loses exactly its doomed documents, or nothing if its query throws; no other collection is touched |
| AdminDelete.CleanRelated | lib/core/scripts/delete_user_completely.js:111-155 | collections outside the list are untouched |
| AdminDelete.CleanRelatedEffect | lib/core/scripts/delete_user_completely.js:111-155 | each listed collection loses exactly its doomed documents, unless its query threw, in which case it is untouched |
| AdminDelete.CleanRelatedRemoves | lib/core/scripts/delete_user_completely.js:111-155 | the clean-up only deletes |
| AdminDelete.RelatedCollectionsWellFormed | lib/core/scripts/delete_user_completely.js:100-109 | the script's list names neither the records nor the blacklist, and no collection twice |
| AdminDelete.CompleteDeletionEffect | lib/core/scripts/delete_user_completely.js:26-167 | a run that throws nowhere removes the blacklist entry; with no account it leaves users and accounts alone; each related collection whose query did not throw loses its doomed documents, so none holds the address |
| AdminDelete.CompleteDeletionShrinks | lib/core/scripts/delete_user_completely.js:26-167 | the script only deletes, and a throw before the related collections leaves them as they were |
| AdminDelete.CompleteDeletion | lib/core/scripts/delete_user_completely.js:26-167 | the account found is the one with the address unless the lookup throws; a run without faults completes; a lookup or blacklist failure ends it; a completed run leaves no blacklist entry; an ended run touches only account records |
| AdminDelete.DeleteUserCompletelyEffect | lib/core/scripts/delete_user_completely.js:26-167 | on the script's own list, a run that throws nowhere removes the blacklist entry and each non-failing related collection's doomed documents |
| AdminDelete.DeleteUserCompletely | lib/core/scripts/delete_user_completely.js:26-167 | a run without faults completes, and a completed run leaves no blacklist entry for the address |
| UidConsistency.AuthUidOf | scripts/fix_uid_consistency.js:36-37 | a lookup succeeds only for a record with a string address held by an existing account, and fails exactly when the lookup is down, the address is missing or no account has it |
| UidConsistency.Check | scripts/fix_uid_consistency.js:36-78 | a record's entry, if any, is keyed by that record |
| UidConsistency.Scan | scripts/fix_uid_consistency.js:24-79 | the pass lists at most one entry per record |
| UidConsistency.ScanMeaning | scripts/fix_uid_consistency.js:24-79 | a record is listed for a fix exactly when its lookup succeeds and it disagrees with the account, and as a conflict exactly when its lookup fails |
| UidConsistency.ScanMisses | scripts/fix_uid_consistency.js:24-79 | a record the loop does not visit is in neither list |
| UidConsistency.ConflictsAreLookupFailures | scripts/fix_uid_consistency.js:45-78 | every conflict is an account-not-found entry, so no record is ever sent to manual review |
| UidConsistency.FixOne | scripts/fix_uid_consistency.js:92-94 | a fix sets `uid` to the record's key on that record only; a failing update changes nothing |
| UidConsistency.ApplyFixes | scripts/fix_uid_consistency.js:86-101 | the fix loop adds or removes no record and touches no other collection |
| UidConsistency.ApplyFixesEffect | scripts/fix_uid_consistency.js:86-101 | a listed record that did not fail ends with its key as `uid` and is otherwise as it was; every other record is untouched |
| UidConsistency.FixUidConsistency | scripts/fix_uid_consistency.js:18-101 | the pass lists at most one entry per record |
| UidConsistency.FixedConsistentIff | scripts/fix_uid_consistency.js:42-94 | a fixed record agrees with its account exactly when its key already was the account's uid |
| UidConsistency.FixUidConsistencyEffect | scripts/fix_uid_consistency.js:18-101 | a record whose lookup succeeds ends with its key as `uid` and agrees with its account exactly when its key is the account's uid; a record whose lookup fails is untouched |

## Left out

- Mail delivery, its templates and the mail transport are not modelled; a boolean `mailSent` stands for the outcome.
- The internals of custom tokens are not modelled; a boolean `tokenOk` stands for the outcome.
- Retries are not modelled.
- Audit and log records are not modelled, except the sweep's audit count. This includes the report files the scripts write and console output.
- Messages are a datatype, not text.
- Time is integer milliseconds. `serverTimestamp()` reads as the call's `now`, and a calendar day is a UTC day.
- Verification.SuccessRate: the rate is computed exactly, rounding half up, instead of in floating point; 57 uid based records of 200 give 29 here, where the script's floating point gives 28.
- Lower-casing covers the ASCII letters only.
- Fields are assumed to hold the types the code writes. A field of another type reads as absent, except where the model names the throw (a non-string address, a non-string `userId`).
- The identity provider's account holds only its address. Display names, passwords, photos and the verified flag are not modelled.
- `getUserByEmail` is an exact match on the stored address.
- The listing of accounts (`listUsers`) is taken as all accounts at once, with no pagination.
- The uids the provider mints are a parameter (`mint`).
- Store failures are modelled only for the registry collections, the snapshot reads and the steps the admin scripts name (`AdminDelete.Fault`).
- A batch fails as a whole or not at all. The 500-write limit of a batch is not modelled.
- Deletion.PurgeRefs: whether an entry's query or delete throws is chosen per collection, so the two `messages` entries and the two `bmi_records` entries of a registry fail or succeed together; a run of Deletion.DeleteUserAccount or Deletion.DeleteUserRelatedData where only one entry of such a pair throws is not modelled.
- Migration.RekeyRefs: whether an entry's rewrite throws is chosen per collection, so the two `messages` entries (sender and recipient) fail or succeed together; a run where only one of them throws is not modelled.
- Migration.RekeyRefs: each collection's references are rewritten in one batch with no split, which the store refuses beyond 500 writes; the model lets such a batch commit, so its results hold only for at most 500 matching documents per collection.
- Registration.CompleteStudentRegistration: models the callable with both defects of the Findings corrected. As written, the query compares `verificationExpiry` with the server-timestamp sentinel, which the SDK refuses in a filter, and the record `set` without merge carries the field-delete sentinel, which the SDK refuses too; `Registration.CompleteStudentRegistrationAsWritten` and `Registration.CompleteWithSentinelSet` model those.
- Registration.ActiveRecordShape: describes the record the corrected callable writes; the code as written never writes it.
- Registration.Activate: describes the writes of the corrected callable; the code as written never reaches them.
- Registration.CompleteRegistrationEffect: a success path of the corrected callable only; the code as written never succeeds.
- Registration.TokenFailureOrphansIdentity: a failure of the corrected callable; as written the `set` already throws after `createUser`, with the same result (`Registration.SentinelSetOrphansIdentity`).
- Deletion.AutoDeleteUnverifiedByKey: no longer promises zero errors for every selection, since a selected record without an address makes the audit write throw after its deletions.
- Fixer.Moved: the script stamps `migrationDate` and `updatedAt` with ISO date strings; the model writes them as times. The same holds for `Fixer.Repointed` and `Fixer.Stub`.
- The other scripts of `lib/core/scripts` and `scripts/` (bulk deletion of all users, storage purge, listing) are not part of this model.
- `sync` and `createUserInFirestore` are not part of this model.
- The test scripts are not part of this model.
- Fixer.FixRemainingIssues: the record queries of the reference repair are taken to succeed; only the collection snapshot can fail.
- UidUsers.CreateUidUsers: a failing reference batch is not modelled; every batch commits.
- UidUsers.IdText: a timestamp id is rendered by its milliseconds, not by JavaScript's text for a timestamp object.
- AdminDelete.CompleteDeletion: a related collection whose query throws is skipped as a whole. A failure after that collection's `userId` batch has committed is not modelled.
- UidConsistency.FixUidConsistency: a failure of the outer snapshot read is not modelled.
- Verification.VerifyMigration: the synchronisation issues it counts are only logged by the script and do not enter the verdict, as in the source.

## Findings

| source | as written | input that shows it | evidently intended | confidence | as-written member | corrected member |
|---|---|---|---|---|---|---|
| functions/index.js:316-330 | a wrong password queues the failed-attempt update inside the transaction, then throws, which discards the update | an active record with 0 attempts and five wrong passwords: the sixth call is refused as bad credentials, not locked | the failure counter is committed, so the fifth failure locks the account for 15 minutes | not executed | Login.LoginUser (Login.SixthFailureNotLocked, Login.LockoutUnreachable) | Login.LoginUserCommitsFailures (Login.FifthFailureLocks) |
| functions/index.js:1358-1386 | the sweep addresses each stale pending record by its `uid` field, which no pending record has | a pending record created 11 minutes ago with no `uid` field: `getUser(undefined)` throws, an error is counted and the record stays | the record is deleted under its own key | not executed | Deletion.AutoDeleteUnverifiedAccounts (Deletion.SweepLeavesPendingRecords) | Deletion.AutoDeleteUnverifiedByKey (Deletion.SweepByKeyEmptiesQuery) |
| functions/index.js:648-656 | the pending-record query filters `verificationExpiry > FieldValue.serverTimestamp()`, and the server SDK refuses a sentinel as a filter value | `{email: "a@b.co", code: "123456"}` with a matching unexpired pending record: building the query throws, and the caller gets the internal "failed to complete registration" error | compare the expiry with the current time | not executed | Registration.CompleteStudentRegistrationAsWritten (Registration.SentinelQueryBlocksRegistration) | Registration.CompleteStudentRegistration (Registration.CompleteRegistrationEffect) |
| functions/index.js:745-772 | the active record is written by `transaction.set` without merge, with `FieldValue.delete()` for the code, expiry and password, which the SDK refuses there; this happens after `createUser` | the same call with the query corrected: `createUser` makes account `U`, the `set` throws, the transaction is discarded, and `U` stays with no record | leave the three fields out of the written record | not executed | Registration.CompleteWithSentinelSet (Registration.SentinelSetOrphansIdentity) | Registration.CompleteStudentRegistration (Registration.SentinelSetOrphansIdentity) |
| fix_remaining_issues.js:61-82 | the record is written under the account's uid, then its old key is deleted unconditionally | `users/U = {studentId: "S1", email: e}` with an account `U` at `e`: the record is set under `U`, then `U` is deleted | skip the delete when the old key is the uid | not executed | Fixer.FixStudentIdBasedUsers (Fixer.SelfKeyedRecordLost) | Fixer.FixStudentIdBasedUsersKeepingSelf (Fixer.MoveKeepsRecord) |

=== FILE: admin.dfy ===
/** The administrator's deletion scripts: one account by a fixed address
    (`deleteUser`), a list of addresses (`deleteMultipleUsers`), and one
    address typed at the prompt together with the user's related data
    (`deleteUserCompletely`). None of them runs in a transaction: each
    step is its own write, so a step that throws leaves the earlier steps
    done. */
module AdminDelete {
  import opened Values
  import opened Firestore
  import Deletion

  /** The step at which a run throws, if any. */
  datatype Fault =
    | NoFault
    | LookupFault        // `getUserByEmail` fails with anything but "not found"
    | AuthDeleteFault    // `deleteUser`
    | RecordDeleteFault  // reading or deleting `users/uid`
    | EmailQueryFault    // the `email` query on users, or its batch
    | BlacklistFault     // reading or deleting the `deletedAccounts` entry

  /** The keys of `c` whose field `f` equals `v`: `where(f, '==', v)`. */
  function WithField(c: Coll, f: string, v: Value): (r: set<Key>)
    ensures forall k :: k in r <==> k in c && f in c[k] && c[k][f] == v
  {
    var r := Select(c, [Eq(f, v)]);
    assert forall k :: k in c ==> (Matches(c[k], [Eq(f, v)]) <==> Holds(c[k], Eq(f, v))) by {
      forall k | k in c { MatchesOne(c[k], Eq(f, v)); }
    }
    r
  }

  // ---------------------------------------------------------------------
  // The account and its records

  datatype Purge = Purge(store: Store, auth: Auth, found: Option<Uid>, ok: bool)

  /** The steps the three scripts share: look the address up; when an
      account has it, delete the account, then `users/uid`, then every
      other record holding exactly that address. */
  ghost function PurgeAccount(s: Store, a: Auth, email: string, fault: Fault): (r: Purge)
    ensures fault == LookupFault ==> r == Purge(s, a, None, false)
    ensures fault != LookupFault ==> r.found == UidByEmail(a, email)
    ensures r.found.None? ==> r.store == s && r.auth == a
    ensures forall c :: c != Users ==> Docs(r.store, c) == Docs(s, c)
  {
    if fault == LookupFault then Purge(s, a, None, false)
    else match UidByEmail(a, email)
      case None => Purge(s, a, None, true)
      case Some(uid) =>
        if fault == AuthDeleteFault then Purge(s, a, Some(uid), false)
        else
          var a1 := a - {uid};
          if fault == RecordDeleteFault then Purge(s, a1, Some(uid), false)
          else
            var s1 := Remove(s, Users, uid);
            if fault == EmailQueryFault then Purge(s1, a1, Some(uid), false)
            else Purge(RemoveAll(s1, Users, WithField(Docs(s1, Users), "email", Str(email))), a1, Some(uid), true)
  }

  /** With no account at the address nothing is deleted, whatever records
      hold it, and the run goes on. */
  lemma PurgeWithoutAccount(s: Store, a: Auth, email: string, fault: Fault)
    requires fault != LookupFault
    requires forall u :: u in a ==> a[u] != email
    ensures PurgeAccount(s, a, email, fault) == Purge(s, a, None, true)
  {
  }

  /** The account goes before its record: whatever step throws, the store
      has changed only if the account is already gone, and the run
      succeeds only if every step did. */
  lemma PurgeOrder(s: Store, a: Auth, email: string, fault: Fault)
    ensures var r := PurgeAccount(s, a, email, fault);
      && (r.store != s ==> r.found.Some? && r.found.value !in r.auth)
      && (r.ok <==> fault != LookupFault && (r.found.None? || fault in {NoFault, BlacklistFault}))
  {
  }

  /** A completed purge of an existing account: the account is gone, as
      are `users/uid` and every record holding the address; every other
      record and account is kept. */
  lemma PurgeEffect(s: Store, a: Auth, email: string, fault: Fault)
    requires fault == NoFault || fault == BlacklistFault
    requires UidByEmail(a, email).Some?
    ensures var r, uid := PurgeAccount(s, a, email, fault), UidByEmail(a, email).value;
      && r.ok && r.found == Some(uid)
      && r.auth == a - {uid}
      && Docs(r.store, Users) == Docs(s, Users) - ({uid} + WithField(Docs(s, Users), "email", Str(email)))
      && WithField(Docs(r.store, Users), "email", Str(email)) == {}
  {
  }

  /** The purge only deletes, documents and accounts alike. */
  lemma PurgeShrinks(s: Store, a: Auth, email: string, fault: Fault)
    ensures var r := PurgeAccount(s, a, email, fault);
      && Removed(s, r.store)
      && r.auth.Keys <= a.Keys && forall u :: u in r.auth ==> r.auth[u] == a[u]
  {
    var r := PurgeAccount(s, a, email, fault);
    if r.found.Some? && fault !in {LookupFault, AuthDeleteFault, RecordDeleteFault} {
      var s1 := Remove(s, Users, r.found.value);
      RemoveRemoved(s, Users, r.found.value);
      if fault != EmailQueryFault {
        RemoveAllRemoved(s1, Users, WithField(Docs(s1, Users), "email", Str(email)));
        RemovedTrans(s, s1, r.store);
      }
    }
  }

  // ---------------------------------------------------------------------
  // A list of addresses

  /** At most one account per address, as the identity provider keeps it. */
  ghost predicate OneAccountPerEmail(a: Auth) {
    forall u, v :: u in a && v in a && a[u] == a[v] ==> u == v
  }

  datatype Deleted = Deleted(store: Store, auth: Auth, ok: bool)

  /** `deleteUserByEmail`: the purge, then the blacklist entry under the
      lower-cased address, present or not. Any throw makes it return
      false. */
  ghost function DeleteUserByEmail(s: Store, a: Auth, email: string, fault: Fault): (r: Deleted)
    ensures r.ok <==> PurgeAccount(s, a, email, fault).ok && fault != BlacklistFault
  {
    var p := PurgeAccount(s, a, email, fault);
    if !p.ok || fault == BlacklistFault then Deleted(p.store, p.auth, false)
    else Deleted(Remove(p.store, Deletion.DeletedAccounts, Lower(email)), p.auth, true)
  }

  /** The run only deletes, documents and accounts alike. */
  lemma DeleteUserByEmailShrinks(s: Store, a: Auth, email: string, fault: Fault)
    ensures var r := DeleteUserByEmail(s, a, email, fault);
      && Removed(s, r.store)
      && r.auth.Keys <= a.Keys && forall u :: u in r.auth ==> r.auth[u] == a[u]
  {
    var p := PurgeAccount(s, a, email, fault);
    PurgeShrinks(s, a, email, fault);
    RemoveRemoved(p.store, Deletion.DeletedAccounts, Lower(email));
    if p.ok && fault != BlacklistFault {
      RemovedTrans(s, p.store, Remove(p.store, Deletion.DeletedAccounts, Lower(email)));
    }
  }

  /** A run that throws nowhere leaves no account with the address and no
      blacklist entry for it; records holding the address are gone exactly
      when an account had it. */
  lemma DeleteUserByEmailEffect(s: Store, a: Auth, email: string)
    requires OneAccountPerEmail(a)
    ensures var r := DeleteUserByEmail(s, a, email, NoFault);
      && r.ok
      && (forall u :: u in r.auth ==> r.auth[u] != email)
      && Lower(email) !in Docs(r.store, Deletion.DeletedAccounts)
      && (UidByEmail(a, email).Some? ==> WithField(Docs(r.store, Users), "email", Str(email)) == {})
      && (UidByEmail(a, email).None? ==> Docs(r.store, Users) == Docs(s, Users))
  {
    if UidByEmail(a, email).Some? {
      PurgeEffect(s, a, email, NoFault);
    }
  }

  datatype Tally = Tally(store: Store, auth: Auth, succeeded: nat, failed: nat)

  /** `deleteMultipleUsers`: the addresses one after the other, in list
      order, each with the step at which it throws. */
  ghost function DeleteMultipleUsers(s: Store, a: Auth, emails: seq<string>, faults: seq<Fault>): (r: Tally)
    requires |faults| == |emails|
    ensures r.succeeded + r.failed == |emails|
    decreases |emails|
  {
    if emails == [] then Tally(s, a, 0, 0)
    else
      var d := DeleteUserByEmail(s, a, emails[0], faults[0]);
      var rest := DeleteMultipleUsers(d.store, d.auth, emails[1..], faults[1..]);
      if d.ok then rest.(succeeded := rest.succeeded + 1) else rest.(failed := rest.failed + 1)
  }

  /** The whole run only deletes. */
  lemma {:induction false} DeleteMultipleShrinks(s: Store, a: Auth, emails: seq<string>, faults: seq<Fault>)
    requires |faults| == |emails|
    ensures var r := DeleteMultipleUsers(s, a, emails, faults);
      && Removed(s, r.store)
      && r.auth.Keys <= a.Keys && forall u :: u in r.auth ==> r.auth[u] == a[u]
    decreases |emails|
  {
    if emails != [] {
      var d := DeleteUserByEmail(s, a, emails[0], faults[0]);
      DeleteUserByEmailShrinks(s, a, emails[0], faults[0]);
      DeleteMultipleShrinks(d.store, d.auth, emails[1..], faults[1..]);
      RemovedTrans(s, d.store, DeleteMultipleUsers(s, a, emails, faults).store);
    }
  }

  /** Every address whose run threw nowhere ends with no account and no
      blacklist entry, however the later addresses fare. */
  lemma {:induction false} DeleteMultipleClears(s: Store, a: Auth, emails: seq<string>, faults: seq<Fault>, i: int)
    requires |faults| == |emails| && OneAccountPerEmail(a)
    requires 0 <= i < |emails| && faults[i] == NoFault
    ensures var r := DeleteMultipleUsers(s, a, emails, faults);
      && (forall u :: u in r.auth ==> r.auth[u] != emails[i])
      && Lower(emails[i]) !in Docs(r.store, Deletion.DeletedAccounts)
    decreases |emails|
  {
    var d := DeleteUserByEmail(s, a, emails[0], faults[0]);
    var r := DeleteMultipleUsers(s, a, emails, faults);
    assert r == DeleteMultipleUsers(d.store, d.auth, emails[1..], faults[1..]).(succeeded := r.succeeded, failed := r.failed);
    DeleteUserByEmailShrinks(s, a, emails[0], faults[0]);
    if i == 0 {
      DeleteUserByEmailEffect(s, a, emails[0]);
      DeleteMultipleShrinks(d.store, d.auth, emails[1..], faults[1..]);
    } else {
      assert emails[1..][i - 1] == emails[i] && faults[1..][i - 1] == faults[i];
      DeleteMultipleClears(d.store, d.auth, emails[1..], faults[1..], i - 1);
    }
  }

  // ---------------------------------------------------------------------
  // One address and its related data

  /** The collections searched for the user's data, by `userId` and by
      `email`. */
  const RelatedCollections: seq<string> :=
    ["userAchievements", "studentQuizzes", "studentModules", "messages", "notifications", "userProgress", "userSettings"]

  /** The documents of one related collection the clean-up deletes: those
      holding the address, and, when an account was found, those naming
      its uid. */
  function Doomed(c: Coll, found: Option<Uid>, email: string): set<Key> {
    set k | k in c && (("email" in c[k] && c[k]["email"] == Str(email))
                       || (found.Some? && "userId" in c[k] && c[k]["userId"] == Str(found.value)))
  }

  /** One related collection: the `userId` query when an account was
      found, then the `email` query; a throw skips the collection. */
  function CleanOne(s: Store, c: string, found: Option<Uid>, email: string, failing: set<string>): (r: Store)
    ensures Docs(r, c) == if c in failing then Docs(s, c) else Docs(s, c) - Doomed(Docs(s, c), found, email)
    ensures forall c' :: c' != c ==> Docs(r, c') == Docs(s, c')
  {
    if c in failing then s
    else
      var s1 := if found.Some? then RemoveAll(s, c, WithField(Docs(s, c), "userId", Str(found.value))) else s;
      RemoveAll(s1, c, WithField(Docs(s1, c), "email", Str(email)))
  }

  /** The clean-up of the related collections in order; a collection whose
      query throws is skipped and the loop goes on. */
  function CleanRelated(s: Store, colls: seq<string>, found: Option<Uid>, email: string, failing: set<string>): (r: Store)
    ensures forall c :: c !in colls ==> Docs(r, c) == Docs(s, c)
    decreases |colls|
  {
    if colls == [] then s
    else CleanRelated(CleanOne(s, colls[0], found, email, failing), colls[1..], found, email, failing)
  }

  /** Each listed collection loses exactly its doomed documents, unless its
      query threw, in which case it is untouched. */
  lemma {:induction false} CleanRelatedEffect(s: Store, colls: seq<string>, found: Option<Uid>, email: string,
                                              failing: set<string>, c: string)
    requires forall i, j :: 0 <= i < j < |colls| ==> colls[i] != colls[j]
    requires c in colls
    ensures var after := Docs(CleanRelated(s, colls, found, email, failing), c);
      after == if c in failing then Docs(s, c) else Docs(s, c) - Doomed(Docs(s, c), found, email)
    decreases |colls|
  {
    var tail := colls[1..];
    assert forall i :: 0 <= i < |tail| ==> tail[i] == colls[i + 1];
    var s2 := CleanOne(s, colls[0], found, email, failing);
    if c == colls[0] {
      assert c !in tail;
    } else {
      CleanRelatedEffect(s2, tail, found, email, failing, c);
    }
  }

  /** A list of collections the clean-up may search: neither the records
      nor the blacklist, and no collection twice. */
  predicate CleanupRegistry(colls: seq<string>) {
    && Users !in colls && Deletion.DeletedAccounts !in colls
    && forall i, j :: 0 <= i < j < |colls| ==> colls[i] != colls[j]
  }

  lemma RelatedCollectionsWellFormed()
    ensures CleanupRegistry(RelatedCollections)
  {
  }

  datatype Completion = Completion(store: Store, auth: Auth, found: Option<Uid>, ok: bool)

  /** The script over a given list of related collections: the purge and
      the blacklist entry (a throw in either ends the run), then the
      related collections. */
  ghost function CompleteDeletion(s: Store, a: Auth, input: string, fault: Fault, colls: seq<string>,
                                  failing: set<string>): (r: Completion)
    ensures r.found == (if fault == LookupFault then None else UidByEmail(a, Trim(input)))
    ensures fault == NoFault ==> r.ok
    ensures fault in {LookupFault, BlacklistFault} ==> !r.ok
    ensures r.ok ==> Lower(Trim(input)) !in Docs(r.store, Deletion.DeletedAccounts)
    ensures !r.ok ==> forall c :: c != Users ==> Docs(r.store, c) == Docs(s, c)
  {
    var email := Trim(input);
    var p := PurgeAccount(s, a, email, fault);
    if !p.ok || fault == BlacklistFault then Completion(p.store, p.auth, p.found, false)
    else
      var s1 := Remove(p.store, Deletion.DeletedAccounts, Lower(email));
      CleanRelatedRemoves(s1, colls, p.found, email, failing);
      Completion(CleanRelated(s1, colls, p.found, email, failing), p.auth, p.found, true)
  }

  /** `deleteUserCompletely` on the typed input. */
  ghost function DeleteUserCompletely(s: Store, a: Auth, input: string, fault: Fault, failing: set<string>): (r: Completion)
    ensures fault == NoFault ==> r.ok
    ensures r.ok ==> Lower(Trim(input)) !in Docs(r.store, Deletion.DeletedAccounts)
  {
    CompleteDeletion(s, a, input, fault, RelatedCollections, failing)
  }

  /** The clean-up only deletes. */
  lemma {:induction false} CleanRelatedRemoves(s: Store, colls: seq<string>, found: Option<Uid>, email: string, failing: set<string>)
    ensures Removed(s, CleanRelated(s, colls, found, email, failing))
    decreases |colls|
  {
    if colls != [] {
      var c := colls[0];
      var s2 := CleanOne(s, c, found, email, failing);
      assert Removed(s, s2);
      CleanRelatedRemoves(s2, colls[1..], found, email, failing);
      RemovedTrans(s, s2, CleanRelated(s, colls, found, email, failing));
    }
  }

  /** A run that throws nowhere: the blacklist entry is gone whether or not
      an account had the address; without an account the users and the
      accounts are untouched; and every related collection whose query
      did not throw has lost exactly its doomed documents, so none holds
      the address any more. */
  lemma CompleteDeletionEffect(s: Store, a: Auth, input: string, colls: seq<string>, failing: set<string>, c: string)
    requires CleanupRegistry(colls)
    requires c in colls && c !in failing
    ensures var email, r := Trim(input), CompleteDeletion(s, a, input, NoFault, colls, failing);
      && r.ok && r.found == UidByEmail(a, email)
      && Lower(email) !in Docs(r.store, Deletion.DeletedAccounts)
      && (r.found.None? ==> Docs(r.store, Users) == Docs(s, Users) && r.auth == a)
      && Docs(r.store, c) == Docs(s, c) - Doomed(Docs(s, c), r.found, email)
      && WithField(Docs(r.store, c), "email", Str(email)) == {}
  {
    var email := Trim(input);
    var p := PurgeAccount(s, a, email, NoFault);
    var s1 := Remove(p.store, Deletion.DeletedAccounts, Lower(email));
    CleanRelatedEffect(s1, colls, p.found, email, failing, c);
  }

  /** The script only deletes, and a throw before the related collections
      leaves them as they were. */
  lemma CompleteDeletionShrinks(s: Store, a: Auth, input: string, fault: Fault, colls: seq<string>, failing: set<string>)
    ensures var r := CompleteDeletion(s, a, input, fault, colls, failing);
      && Removed(s, r.store)
      && (!r.ok ==> forall c :: c != Users ==> Docs(r.store, c) == Docs(s, c))
  {
    var email := Trim(input);
    var p := PurgeAccount(s, a, email, fault);
    PurgeShrinks(s, a, email, fault);
    if p.ok && fault != BlacklistFault {
      var s1 := Remove(p.store, Deletion.DeletedAccounts, Lower(email));
      RemoveRemoved(p.store, Deletion.DeletedAccounts, Lower(email));
      RemovedTrans(s, p.store, s1);
      CleanRelatedRemoves(s1, colls, p.found, email, failing);
      RemovedTrans(s, s1, CleanRelated(s1, colls, p.found, email, failing));
    }
  }

  /** The script's own list satisfies the clean-up's assumptions, so
      `CompleteDeletionEffect` applies to every collection on it. */
  lemma DeleteUserCompletelyEffect(s: Store, a: Auth, input: string, failing: set<string>, c: string)
    requires c in RelatedCollections && c !in failing
    ensures var email, r := Trim(input), DeleteUserCompletely(s, a, input, NoFault, failing);
      && r.ok
      && Lower(email) !in Docs(r.store, Deletion.DeletedAccounts)
      && Docs(r.store, c) == Docs(s, c) - Doomed(Docs(s, c), r.found, email)
  {
    RelatedCollectionsWellFormed();
    CompleteDeletionEffect(s, a, input, RelatedCollections, failing, c);
  }
}

=== FILE: deletion.dfy ===
/** Account deletion: the callable `deleteUserAccount`, the helper that
    purges an account's related documents, and the scheduled sweeps of
    unverified accounts and expired quizzes. */
module Deletion {
  import opened Values
  import opened Firestore

  const DeletedAccounts: string := "deletedAccounts"
  const BmiRecords: string := "bmi_records"
  const StudentQuizzes: string := "studentQuizzes"
  const CourseQuizzes: string := "courseQuizzes"

  /** The references `deleteUserAccount` deletes, in order. */
  const AccountRefs: Registry := [
    Ref("userAchievements", "userId"),
    Ref(StudentQuizzes, "userId"),
    Ref("studentModules", "userId"),
    Ref(BmiRecords, "userId"),
    Ref(BmiRecords, "uid"),
    Ref("messages", "senderId"),
    Ref("messages", "recipientId"),
    Member("conversations", "participants"),
    Ref("assignmentSubmissions", "userId"),
    Ref("enrollments", "userId"),
    Ref("userPreferences", "userId"),
    Ref("userActivity", "userId"),
    Ref("workouts", "userId"),
    Ref("goals", "userId"),
    Ref("healthMetrics", "userId"),
    Ref("achievements", "userId"),
    Ref("notifications", "userId")]

  /** The references `deleteUserRelatedData` deletes, in order. */
  const RelatedRefs: Registry := [
    Ref("userAchievements", "userId"),
    Ref(StudentQuizzes, "studentId"),
    Ref("studentModules", "studentId"),
    Ref(BmiRecords, "userId"),
    Ref(BmiRecords, "uid"),
    Ref("messages", "senderId"),
    Ref("messages", "recipientId"),
    Ref("assignmentSubmissions", "studentId"),
    Ref("enrollments", "userId"),
    Ref("userPreferences", "userId"),
    Ref("userActivity", "userId"),
    Ref("workouts", "userId"),
    Ref("goals", "userId"),
    Ref("healthMetrics", "userId"),
    Ref("achievements", "userId"),
    Ref("notifications", "userId"),
    Ref("pendingUsers", "uid"),
    Ref("verificationCodes", "email")]

  // ---------------------------------------------------------------------
  // Registry passes

  /** The store after a run over a registry, and whether the run completed. */
  datatype Sweep = Sweep(store: Store, ok: bool)

  /** Deletes the references of `reg` for `uid`, entry by entry. A pass over
      a collection in `failing` throws: with `stopOnError` the run ends
      there, otherwise the failure is logged and the run goes on. */
  ghost function PurgeRefs(s: Store, reg: Registry, uid: Uid, failing: set<string>, stopOnError: bool): (r: Sweep)
    ensures Removed(s, r.store)
    decreases |reg|
  {
    if reg == [] then Sweep(s, true)
    else if reg[0].coll in failing then
      if stopOnError then Sweep(s, false) else PurgeRefs(s, reg[1..], uid, failing, stopOnError)
    else
      PurgeRefs(DeleteRefs(s, reg[0], uid), reg[1..], uid, failing, stopOnError)
  }

  /** A run completes exactly when it meets no failing collection or
      carries on past failures. */
  lemma {:induction false} PurgeOk(s: Store, reg: Registry, uid: Uid, failing: set<string>, stopOnError: bool)
    ensures PurgeRefs(s, reg, uid, failing, stopOnError).ok <==>
      (!stopOnError || forall i :: 0 <= i < |reg| ==> reg[i].coll !in failing)
    decreases |reg|
  {
    if reg != [] {
      if reg[0].coll in failing {
        PurgeOk(s, reg[1..], uid, failing, stopOnError);
      } else {
        PurgeOk(DeleteRefs(s, reg[0], uid), reg[1..], uid, failing, stopOnError);
        assert forall i :: 1 <= i < |reg| ==> reg[i] == reg[1..][i - 1];
      }
    }
  }

  /** When a run completes, every entry whose collection did not fail is
      cleared: no document of it still refers to the account. */
  lemma {:induction false} PurgeClears(s: Store, reg: Registry, uid: Uid, failing: set<string>,
                                       stopOnError: bool, i: int)
    requires 0 <= i < |reg| && reg[i].coll !in failing
    requires PurgeRefs(s, reg, uid, failing, stopOnError).ok
    ensures Select(Docs(PurgeRefs(s, reg, uid, failing, stopOnError).store, reg[i].coll), RefQuery(reg[i], uid)) == {}
    decreases |reg|
  {
    var r := PurgeRefs(s, reg, uid, failing, stopOnError);
    if i == 0 {
      var s1 := DeleteRefs(s, reg[0], uid);
      assert Select(Docs(s1, reg[0].coll), RefQuery(reg[0], uid)) == {};
      RemovedSelect(s1, r.store, reg[0].coll, RefQuery(reg[0], uid));
    } else {
      assert reg[1..][i - 1] == reg[i];
      if reg[0].coll in failing {
        PurgeClears(s, reg[1..], uid, failing, stopOnError, i - 1);
      } else {
        PurgeClears(DeleteRefs(s, reg[0], uid), reg[1..], uid, failing, stopOnError, i - 1);
      }
    }
  }

  /** A document that no entry for its collection matches survives the run. */
  lemma {:induction false} PurgeKeeps(s: Store, reg: Registry, uid: Uid, failing: set<string>,
                                      stopOnError: bool, c: string, k: Key)
    requires k in Docs(s, c)
    requires forall i :: 0 <= i < |reg| && reg[i].coll == c ==> !Matches(Docs(s, c)[k], RefQuery(reg[i], uid))
    ensures k in Docs(PurgeRefs(s, reg, uid, failing, stopOnError).store, c)
    decreases |reg|
  {
    if reg != [] {
      assert forall i :: 0 <= i < |reg[1..]| ==> reg[1..][i] == reg[i + 1];
      if reg[0].coll in failing {
        PurgeKeeps(s, reg[1..], uid, failing, stopOnError, c, k);
      } else {
        var s1 := DeleteRefs(s, reg[0], uid);
        if reg[0].coll == c {
          assert k !in Select(Docs(s, c), RefQuery(reg[0], uid));
        }
        assert k in Docs(s1, c) && Docs(s1, c)[k] == Docs(s, c)[k];
        PurgeKeeps(s1, reg[1..], uid, failing, stopOnError, c, k);
      }
    }
  }

  /** `deleteUserRelatedData`: every entry is tried; a failing one is logged
      and skipped. */
  ghost function DeleteUserRelatedData(s: Store, uid: Uid, failing: set<string>): (r: Store)
    ensures Removed(s, r)
  {
    PurgeRefs(s, RelatedRefs, uid, failing, false).store
  }

  /** Every related-data entry whose collection did not fail is cleared. */
  lemma RelatedDataCleared(s: Store, uid: Uid, failing: set<string>, i: int)
    requires 0 <= i < |RelatedRefs| && RelatedRefs[i].coll !in failing
    ensures Select(Docs(DeleteUserRelatedData(s, uid, failing), RelatedRefs[i].coll), RefQuery(RelatedRefs[i], uid)) == {}
  {
    PurgeOk(s, RelatedRefs, uid, failing, false);
    PurgeClears(s, RelatedRefs, uid, failing, false, i);
  }

  // ---------------------------------------------------------------------
  // deleteUserAccount

  /** The record kept under the lower-cased address of a deleted account. */
  function Tombstone(uid: Uid, now: int): Doc {
    map["deletedAt" := Time(now), "formerUid" := Str(uid)]
  }

  /** The writes made by key before the registry pass: when the account
      record exists, a tombstone for its address (if it has one), then the
      record and the BMI document keyed by the uid are deleted. None when
      the address is a non-string, which makes lower-casing it throw. */
  function RemoveRecord(s: Store, uid: Uid, now: int): (r: Option<Store>)
    ensures uid !in Docs(s, Users) ==> r == Some(s)
    ensures (r.Some? && uid in Docs(s, Users)) ==>
      uid !in Docs(r.value, Users) && uid !in Docs(r.value, BmiRecords)
    ensures (uid in Docs(s, Users) && Has(Docs(s, Users)[uid], "email")) ==>
      (r.Some? <==> Docs(s, Users)[uid]["email"].Str?)
      && (r.Some? ==> Docs(r.value, DeletedAccounts)
                      == Docs(s, DeletedAccounts)[Lower(Docs(s, Users)[uid]["email"].s) := Tombstone(uid, now)])
    ensures (uid in Docs(s, Users) && !Has(Docs(s, Users)[uid], "email")) ==>
      r.Some? && Docs(r.value, DeletedAccounts) == Docs(s, DeletedAccounts)
    ensures r.Some? ==> forall c :: c != Users && c != BmiRecords && c != DeletedAccounts ==> Docs(r.value, c) == Docs(s, c)
  {
    var users := Docs(s, Users);
    if uid !in users then Some(s)
    else
      var d := users[uid];
      if Has(d, "email") && !d["email"].Str? then None
      else
        var s0 := if Has(d, "email") then Put(s, DeletedAccounts, Lower(d["email"].s), Tombstone(uid, now)) else s;
        Some(Remove(Remove(s0, Users, uid), BmiRecords, uid))
  }

  /** `deleteUserAccount` for the signed-in caller `caller`. The account's
      documents go first and the identity-provider account last, so any
      failure leaves the identity in place; store writes made before the
      failure stay. */
  ghost function DeleteUserAccount(s: Store, a: Auth, caller: Option<Uid>, now: int,
                                   failing: set<string>): (o: Step<Uid>)
    ensures caller.None? ==> o == Fail(s, a, Unauthenticated, NotAuthenticated)
    ensures caller.Some? ==> o.res.Err? ==> o.res.error == Error(Internal, DeletionFailed)
    ensures o.res.Err? ==> o.auth == a
    ensures o.res.Ok? <==>
      && caller.Some? && RemoveRecord(s, caller.value, now).Some?
      && (forall i :: 0 <= i < |AccountRefs| ==> AccountRefs[i].coll !in failing)
      && caller.value in a
    ensures o.res.Ok? ==>
      && o.res.value == caller.value && o.auth == a - {caller.value}
      && caller.value !in Docs(o.store, Users)
  {
    if caller.None? then Fail(s, a, Unauthenticated, NotAuthenticated)
    else
      var uid := caller.value;
      match RemoveRecord(s, uid, now)
      case None => Fail(s, a, Internal, DeletionFailed)
      case Some(s1) =>
        var p := PurgeRefs(s1, AccountRefs, uid, failing, true);
        PurgeOk(s1, AccountRefs, uid, failing, true);
        if !p.ok || uid !in a then Step(p.store, a, Err(Error(Internal, DeletionFailed)))
        else Step(p.store, a - {uid}, Ok(uid))
  }

  /** After a successful deletion no entry of the registry still refers to
      the account. */
  lemma DeleteAccountClears(s: Store, a: Auth, uid: Uid, now: int, failing: set<string>, i: int)
    requires 0 <= i < |AccountRefs|
    ensures var o := DeleteUserAccount(s, a, Some(uid), now, failing);
      o.res.Ok? ==> Select(Docs(o.store, AccountRefs[i].coll), RefQuery(AccountRefs[i], uid)) == {}
  {
    var o := DeleteUserAccount(s, a, Some(uid), now, failing);
    if o.res.Ok? {
      var s1 := RemoveRecord(s, uid, now).value;
      PurgeOk(s1, AccountRefs, uid, failing, true);
      PurgeClears(s1, AccountRefs, uid, failing, true, i);
    }
  }

  /** A deletion that reaches the record of an account with a string
      address leaves the tombstone under the lower-cased address, whatever
      its outcome: the registry names no document of `deletedAccounts`. */
  lemma DeleteAccountLeavesTombstone(s: Store, a: Auth, uid: Uid, now: int, failing: set<string>)
    requires uid in Docs(s, Users) && Has(Docs(s, Users)[uid], "email") && Docs(s, Users)[uid]["email"].Str?
    ensures var o := DeleteUserAccount(s, a, Some(uid), now, failing);
      var key := Lower(Docs(s, Users)[uid]["email"].s);
      key in Docs(o.store, DeletedAccounts) && Docs(o.store, DeletedAccounts)[key] == Tombstone(uid, now)
  {
    var key := Lower(Docs(s, Users)[uid]["email"].s);
    var s1 := RemoveRecord(s, uid, now).value;
    assert key in Docs(s1, DeletedAccounts) && Docs(s1, DeletedAccounts)[key] == Tombstone(uid, now);
    PurgeKeeps(s1, AccountRefs, uid, failing, true, DeletedAccounts, key);
  }

  /** The two registries disagree on the quiz-progress collection: the
      callable looks for `userId` there and the related-data helper for
      `studentId`. So a quiz-progress document that names the student only
      by `studentId` outlives the account deletion, whatever its outcome. */
  lemma QuizProgressOutlivesAccountDeletion(s: Store, a: Auth, uid: Uid, now: int, failing: set<string>, k: Key)
    requires k in Docs(s, StudentQuizzes)
    requires "userId" !in Docs(s, StudentQuizzes)[k]
    ensures k in Docs(DeleteUserAccount(s, a, Some(uid), now, failing).store, StudentQuizzes)
  {
    match RemoveRecord(s, uid, now)
    case None =>
    case Some(s1) =>
      var d := Docs(s1, StudentQuizzes)[k];
      forall i | 0 <= i < |AccountRefs| && AccountRefs[i].coll == StudentQuizzes
        ensures !Matches(d, RefQuery(AccountRefs[i], uid))
      {
        assert i == 1;
        MatchesOne(d, Eq("userId", Str(uid)));
      }
      PurgeKeeps(s1, AccountRefs, uid, failing, true, StudentQuizzes, k);
  }

  /** And one that names the student only by `userId` outlives the
      related-data purge. */
  lemma QuizProgressOutlivesRelatedPurge(s: Store, uid: Uid, failing: set<string>, k: Key)
    requires k in Docs(s, StudentQuizzes)
    requires "studentId" !in Docs(s, StudentQuizzes)[k]
    ensures k in Docs(DeleteUserRelatedData(s, uid, failing), StudentQuizzes)
  {
    var d := Docs(s, StudentQuizzes)[k];
    forall i | 0 <= i < |RelatedRefs| && RelatedRefs[i].coll == StudentQuizzes
      ensures !Matches(d, RefQuery(RelatedRefs[i], uid))
    {
      assert i == 1;
      MatchesOne(d, Eq("studentId", Str(uid)));
    }
    PurgeKeeps(s, RelatedRefs, uid, failing, false, StudentQuizzes, k);
  }

  // ---------------------------------------------------------------------
  // autoDeleteUnverifiedAccounts

  /** Age after which an unverified account is swept, and the number of
      records one run handles. */
  const SweepAge: int := 10 * Minute
  const SweepLimit: nat := 100

  /** The sweep's query: unverified, pending, created at least `SweepAge`
      before `now`. */
  function UnverifiedQuery(now: int): Query {
    [Eq("emailVerified", Bool(false)), NotAfter("createdAt", now - SweepAge), Eq("accountStatus", Str("pending"))]
  }

  function Take<T>(xs: seq<T>, n: nat): (r: seq<T>)
    ensures |r| == if |xs| <= n then |xs| else n
    ensures forall i :: 0 <= i < |r| ==> r[i] == xs[i]
  {
    if |xs| <= n then xs else xs[..n]
  }

  /** The audit record written for each account the sweep deletes. */
  function AuditRecord(uid: Uid, email: Value, now: int): Doc {
    map["uid" := Str(uid), "email" := email, "deletedAt" := Time(now)]
  }

  /** What a sweep run leaves: the store, the identity provider, its two
      counters, and the audit records it added, in order. */
  datatype Tally = Tally(store: Store, auth: Auth, deleted: nat, errors: nat, audits: seq<Doc>)

  /** The removal of one swept account whose uid the identity provider
      accepts: its identity if there is one, the record keyed by the uid,
      and its related data. */
  ghost function RemoveAccount(s: Store, a: Auth, uid: Uid, failing: set<string>): (r: (Store, Auth))
    ensures Removed(s, r.0) && uid !in Docs(r.0, Users)
    ensures r.1 == a - {uid}
  {
    var s1 := Remove(s, Users, uid);
    (DeleteUserRelatedData(s1, uid, failing), a - {uid})
  }

  /** The deletions for one selected record `k` whose uid field holds
      `uid`. */
  ghost function Visit(s: Store, a: Auth, k: Key, uid: Value, failing: set<string>, byKey: bool): (r: (Store, Auth))
    ensures Removed(s, r.0)
    ensures byKey ==> k !in Docs(r.0, Users)
  {
    var s1 := if byKey then Remove(s, Users, k) else s;
    assert Removed(s, s1);
    if IsUid(uid) then
      var r := RemoveAccount(s1, a, uid.s, failing);
      RemovedTrans(s, s1, r.0);
      r
    else (s1, a)
  }

  /** Every listed record has an address. */
  ghost predicate AllAddressed(snap: Coll, keys: seq<Key>)
    requires forall i :: 0 <= i < |keys| ==> keys[i] in snap
  {
    forall i :: 0 <= i < |keys| ==> "email" in snap[keys[i]]
  }

  /** No listed record has an address. */
  ghost predicate NoneAddressed(snap: Coll, keys: seq<Key>)
    requires forall i :: 0 <= i < |keys| ==> keys[i] in snap
  {
    forall i :: 0 <= i < |keys| ==> "email" !in snap[keys[i]]
  }

  /** Both address conditions split into the head's and the tail's. */
  lemma AddressedTail(snap: Coll, keys: seq<Key>)
    requires keys != [] && forall i :: 0 <= i < |keys| ==> keys[i] in snap
    ensures forall i :: 0 <= i < |keys[1..]| ==> keys[1..][i] in snap
    ensures AllAddressed(snap, keys) <==> "email" in snap[keys[0]] && AllAddressed(snap, keys[1..])
    ensures NoneAddressed(snap, keys) <==> "email" !in snap[keys[0]] && NoneAddressed(snap, keys[1..])
  {
    assert forall i :: 0 <= i < |keys[1..]| ==> keys[1..][i] == keys[i + 1];
  }

  /** The deletions the sweep makes for record `k` holding `d`: none when
      the record is addressed by a uid it lacks. */
  ghost function SweepVisit(d: Doc, k: Key, s: Store, a: Auth, failing: set<string>, byKey: bool): (r: (Store, Auth))
    ensures Removed(s, r.0)
    ensures byKey ==> k !in Docs(r.0, Users)
  {
    var uid := if "uid" in d then d["uid"] else Null;
    if !byKey && !IsUid(uid) then (s, a) else Visit(s, a, k, uid, failing, byKey)
  }

  /** The sweep's loop over the selected records, read from the snapshot
      `snap`. As written (`byKey` false) each record is addressed by its
      `uid` field; a record without a uid the identity provider accepts
      makes `getUser` throw, which counts an error and leaves the record.
      With `byKey` the record is deleted under its own key, and an account
      named by a uid field is removed as well. The audit record copies the
      record's `email` field; when the record has none the write is
      rejected, so the deletions stay but the record counts as an error. */
  ghost function SweepRecords(snap: Coll, keys: seq<Key>, s: Store, a: Auth, now: int,
                              failing: set<string>, byKey: bool): (t: Tally)
    requires forall i :: 0 <= i < |keys| ==> keys[i] in snap
    ensures t.deleted + t.errors == |keys|
    ensures |t.audits| == t.deleted
    ensures byKey && AllAddressed(snap, keys) ==> t.errors == 0
    ensures NoneAddressed(snap, keys) ==> t.deleted == 0 && t.audits == []
    decreases |keys|
  {
    if keys == [] then Tally(s, a, 0, 0, [])
    else
      AddressedTail(snap, keys);
      var d := snap[keys[0]];
      var uid := if "uid" in d then d["uid"] else Null;
      var skipped := !byKey && !IsUid(uid);
      var r := SweepVisit(d, keys[0], s, a, failing, byKey);
      var t := SweepRecords(snap, keys[1..], r.0, r.1, now, failing, byKey);
      if skipped || "email" !in d then t.(errors := t.errors + 1)
      else
        var audit := AuditRecord(if IsUid(uid) then uid.s else keys[0], d["email"], now);
        t.(deleted := t.deleted + 1, audits := [audit] + t.audits)
  }

  /** A swept record without an address loses its record and its account,
      yet counts as an error and leaves no audit record. */
  lemma SweepWithoutEmailCountsError(snap: Coll, k: Key, s: Store, a: Auth, now: int,
                                     failing: set<string>, byKey: bool)
    requires k in snap && "email" !in snap[k]
    requires byKey || ("uid" in snap[k] && IsUid(snap[k]["uid"]))
    ensures var t := SweepRecords(snap, [k], s, a, now, failing, byKey);
      && t.deleted == 0 && t.errors == 1 && t.audits == []
      && (byKey ==> k !in Docs(t.store, Users))
      && ("uid" in snap[k] && IsUid(snap[k]["uid"]) ==>
            snap[k]["uid"].s !in Docs(t.store, Users) && t.auth == a - {snap[k]["uid"].s})
  {
    assert [k][1..] == [];
  }

  /** A sweep only deletes documents. */
  lemma {:induction false} SweepOnlyDeletes(snap: Coll, keys: seq<Key>, s: Store, a: Auth, now: int,
                                            failing: set<string>, byKey: bool)
    requires forall i :: 0 <= i < |keys| ==> keys[i] in snap
    ensures Removed(s, SweepRecords(snap, keys, s, a, now, failing, byKey).store)
    decreases |keys|
  {
    if keys != [] {
      var t := SweepRecords(snap, keys, s, a, now, failing, byKey);
      var r := SweepVisit(snap[keys[0]], keys[0], s, a, failing, byKey);
      assert t.store == SweepRecords(snap, keys[1..], r.0, r.1, now, failing, byKey).store;
      SweepOnlyDeletes(snap, keys[1..], r.0, r.1, now, failing, byKey);
      RemovedTrans(s, r.0, t.store);
    }
  }

  /** The records one run of the sweep selects: at most `SweepLimit` of the
      matching ones, in an unspecified order. */
  ghost function Selected(users: Coll, now: int): (keys: seq<Key>)
    ensures |keys| == if |Select(users, UnverifiedQuery(now))| <= SweepLimit
                      then |Select(users, UnverifiedQuery(now))| else SweepLimit
    ensures forall i :: 0 <= i < |keys| ==> keys[i] in Select(users, UnverifiedQuery(now))
    ensures forall i, j :: 0 <= i < j < |keys| ==> keys[i] != keys[j]
  {
    Take(Enumerate(Select(users, UnverifiedQuery(now))), SweepLimit)
  }

  /** `autoDeleteUnverifiedAccounts` as written. */
  ghost function AutoDeleteUnverifiedAccounts(s: Store, a: Auth, now: int, failing: set<string>): (t: Tally)
    ensures t.deleted + t.errors == |Selected(Docs(s, Users), now)| <= SweepLimit
  {
    SweepRecords(Docs(s, Users), Selected(Docs(s, Users), now), s, a, now, failing, false)
  }

  /** The sweep with each selected record deleted under its own key. */
  ghost function AutoDeleteUnverifiedByKey(s: Store, a: Auth, now: int, failing: set<string>): (t: Tally)
    ensures t.deleted + t.errors == |Selected(Docs(s, Users), now)|
    ensures (forall k :: k in Select(Docs(s, Users), UnverifiedQuery(now)) ==> "email" in Docs(s, Users)[k]) ==>
      t.deleted == |Selected(Docs(s, Users), now)| && t.errors == 0
  {
    SweepRecords(Docs(s, Users), Selected(Docs(s, Users), now), s, a, now, failing, true)
  }

  /** As written, records without a uid field are never deleted: each one
      counts an error and the run changes nothing. */
  lemma {:induction false} SweepSkipsRecordsWithoutUid(snap: Coll, keys: seq<Key>, s: Store, a: Auth, now: int,
                                                       failing: set<string>)
    requires forall i :: 0 <= i < |keys| ==> keys[i] in snap && "uid" !in snap[keys[i]]
    ensures var t := SweepRecords(snap, keys, s, a, now, failing, false);
      t.store == s && t.auth == a && t.deleted == 0 && t.errors == |keys|
    decreases |keys|
  {
    if keys != [] {
      SweepSkipsRecordsWithoutUid(snap, keys[1..], s, a, now, failing);
    }
  }

  /** So when no matching record carries a uid field, as no record
      `createPendingUser` writes does, the sweep deletes nothing and reports
      every selected record as an error. */
  lemma SweepLeavesPendingRecords(s: Store, a: Auth, now: int, failing: set<string>)
    requires forall k :: k in Select(Docs(s, Users), UnverifiedQuery(now)) ==> "uid" !in Docs(s, Users)[k]
    ensures var t := AutoDeleteUnverifiedAccounts(s, a, now, failing);
      && t.store == s && t.auth == a && t.deleted == 0
      && t.errors == |Selected(Docs(s, Users), now)|
  {
    SweepSkipsRecordsWithoutUid(Docs(s, Users), Selected(Docs(s, Users), now), s, a, now, failing);
  }

  /** Deleting by key removes every selected record. */
  lemma {:induction false} SweepByKeyRemoves(snap: Coll, keys: seq<Key>, s: Store, a: Auth, now: int,
                                             failing: set<string>)
    requires forall i :: 0 <= i < |keys| ==> keys[i] in snap
    ensures var t := SweepRecords(snap, keys, s, a, now, failing, true);
      forall i :: 0 <= i < |keys| ==> keys[i] !in Docs(t.store, Users)
    decreases |keys|
  {
    if keys != [] {
      var tail := keys[1..];
      AddressedTail(snap, keys);
      var r := SweepVisit(snap[keys[0]], keys[0], s, a, failing, true);
      var after := SweepRecords(snap, tail, r.0, r.1, now, failing, true).store;
      assert SweepRecords(snap, keys, s, a, now, failing, true).store == after;
      SweepByKeyRemoves(snap, tail, r.0, r.1, now, failing);
      SweepOnlyDeletes(snap, tail, r.0, r.1, now, failing, true);
      assert keys[0] !in Docs(after, Users);
      assert forall i :: 0 < i < |keys| ==> keys[i] == tail[i - 1];
    }
  }

  /** With at most `SweepLimit` matching records, one run of the corrected
      sweep leaves none. */
  lemma SweepByKeyEmptiesQuery(s: Store, a: Auth, now: int, failing: set<string>)
    requires |Select(Docs(s, Users), UnverifiedQuery(now))| <= SweepLimit
    ensures Select(Docs(AutoDeleteUnverifiedByKey(s, a, now, failing).store, Users), UnverifiedQuery(now)) == {}
  {
    var users := Docs(s, Users);
    var q := UnverifiedQuery(now);
    var keys := Selected(users, now);
    var t := AutoDeleteUnverifiedByKey(s, a, now, failing);
    SweepByKeyRemoves(users, keys, s, a, now, failing);
    SweepOnlyDeletes(users, keys, s, a, now, failing, true);
    forall k | k in Select(users, q) ensures k in keys {
      DistinctCover(keys, Select(users, q), k);
    }
    RemovedSelect(s, t.store, Users, q);
  }

  /** A duplicate-free listing drawn from a set and as long as the set
      covers it. */
  lemma DistinctCover(keys: seq<Key>, ks: set<Key>, k: Key)
    requires forall i :: 0 <= i < |keys| ==> keys[i] in ks
    requires forall i, j :: 0 <= i < j < |keys| ==> keys[i] != keys[j]
    requires |keys| == |ks| && k in ks
    ensures k in keys
  {
    if k !in keys {
      var listed := Elems(keys);
      assert listed <= ks - {k};
      DistinctCard(keys);
      SubsetCard(listed, ks - {k});
    }
  }

  lemma {:induction false} SubsetCard<T>(a: set<T>, b: set<T>)
    requires a <= b
    ensures |a| <= |b|
    decreases |a|
  {
    if a != {} {
      var x :| x in a;
      SubsetCard(a - {x}, b - {x});
    }
  }

  lemma {:induction false} DistinctCard<T>(xs: seq<T>)
    requires forall i, j :: 0 <= i < j < |xs| ==> xs[i] != xs[j]
    ensures |Elems(xs)| == |xs|
  {
    if xs != [] {
      var rest := xs[1..];
      DistinctCard(rest);
      assert Elems(xs) == {xs[0]} + Elems(rest);
      assert xs[0] !in Elems(rest);
    }
  }

  // ---------------------------------------------------------------------
  // autoDeleteExpiredQuizzes

  function ExpiredQuery(now: int): Query {
    [NotAfter("availableUntil", now)]
  }

  /** `autoDeleteExpiredQuizzes`: one batch deleting every quiz whose
      availability ended by `now`; a failed commit is logged and
      swallowed. */
  function AutoDeleteExpiredQuizzes(s: Store, now: int, commitOk: bool): (r: Store)
    ensures commitOk ==> Select(Docs(r, CourseQuizzes), ExpiredQuery(now)) == {}
    ensures !commitOk ==> r == s
    ensures forall c :: c != CourseQuizzes ==> Docs(r, c) == Docs(s, c)
    ensures forall k :: k in Docs(s, CourseQuizzes) && !Matches(Docs(s, CourseQuizzes)[k], ExpiredQuery(now)) ==>
      k in Docs(r, CourseQuizzes) && Docs(r, CourseQuizzes)[k] == Docs(s, CourseQuizzes)[k]
    ensures Docs(r, CourseQuizzes).Keys <= Docs(s, CourseQuizzes).Keys
  {
    if commitOk then RemoveAll(s, CourseQuizzes, Select(Docs(s, CourseQuizzes), ExpiredQuery(now))) else s
  }

  /** A later run subsumes an earlier one: sweeping at `t1` and then at
      `t2 >= t1` is sweeping at `t2` once. */
  lemma ExpiredSweepSubsumed(s: Store, t1: int, t2: int)
    requires t1 <= t2
    ensures AutoDeleteExpiredQuizzes(AutoDeleteExpiredQuizzes(s, t1, true), t2, true)
         == AutoDeleteExpiredQuizzes(s, t2, true)
  {
    var quizzes := Docs(s, CourseQuizzes);
    forall k | k in quizzes && Matches(quizzes[k], ExpiredQuery(t1))
      ensures Matches(quizzes[k], ExpiredQuery(t2))
    {
      MatchesOne(quizzes[k], NotAfter("availableUntil", t1));
      MatchesOne(quizzes[k], NotAfter("availableUntil", t2));
    }
    var once := AutoDeleteExpiredQuizzes(s, t2, true);
    var twice := AutoDeleteExpiredQuizzes(AutoDeleteExpiredQuizzes(s, t1, true), t2, true);
    assert Docs(once, CourseQuizzes) == Docs(twice, CourseQuizzes);
  }
}

=== FILE: firestore.dfy ===
/** The document store and identity provider the account code runs against,
    reduced to what that code relies on: keyed documents per collection,
    equality and timestamp queries, batched deletes, atomic transactions,
    and an identity table from uid to e-mail address. */
module Firestore {
  import opened Values

  type Key = string
  type Uid = string

  /** One collection: document key to document. */
  type Coll = map<Key, Doc>

  /** The whole database: collection name to collection. */
  type Store = map<string, Coll>

  /** The identity provider's accounts: uid to e-mail address. */
  type Auth = map<Uid, string>

  function Docs(s: Store, c: string): Coll {
    if c in s then s[c] else map[]
  }

  /** `collection(c).doc(k).set(d)`. */
  function Put(s: Store, c: string, k: Key, d: Doc): (r: Store)
    ensures Docs(r, c) == Docs(s, c)[k := d]
    ensures forall c' :: c' != c ==> Docs(r, c') == Docs(s, c')
  {
    s[c := Docs(s, c)[k := d]]
  }

  /** `collection(c).doc(k).delete()`; deleting a missing document is not an error. */
  function Remove(s: Store, c: string, k: Key): (r: Store)
    ensures Docs(r, c) == Docs(s, c) - {k}
    ensures forall c' :: c' != c ==> Docs(r, c') == Docs(s, c')
  {
    s[c := Docs(s, c) - {k}]
  }

  /** A committed batch of deletes in collection `c`. */
  function RemoveAll(s: Store, c: string, ks: set<Key>): (r: Store)
    ensures Docs(r, c) == Docs(s, c) - ks
    ensures forall c' :: c' != c ==> Docs(r, c') == Docs(s, c')
  {
    s[c := Docs(s, c) - ks]
  }

  /** `collection(c).doc(k).update(fields)` on an existing document. */
  function Patch(s: Store, c: string, k: Key, fields: Doc): (r: Store)
    requires k in Docs(s, c)
    ensures Docs(r, c) == Docs(s, c)[k := Docs(s, c)[k] + fields]
    ensures forall c' :: c' != c ==> Docs(r, c') == Docs(s, c')
  {
    Put(s, c, k, Docs(s, c)[k] + fields)
  }

  // ---------------------------------------------------------------------
  // Queries

  /** One `where` clause. Ordering comparisons only match timestamp values,
      as in the store; `Present(f)` is `where(f, '!=', null)`. */
  datatype Cond =
    | Eq(field: string, v: Value)
    | After(field: string, t: int)
    | NotAfter(field: string, t: int)
    | Present(field: string)

  type Query = seq<Cond>

  predicate Holds(d: Doc, c: Cond) {
    match c
    case Eq(f, v) => f in d && d[f] == v
    case After(f, t) => f in d && d[f].Time? && d[f].ms > t
    case NotAfter(f, t) => f in d && d[f].Time? && d[f].ms <= t
    case Present(f) => f in d && d[f] != Null
  }

  predicate Matches(d: Doc, q: Query) {
    forall i :: 0 <= i < |q| ==> Holds(d, q[i])
  }

  lemma MatchesOne(d: Doc, c: Cond)
    ensures Matches(d, [c]) <==> Holds(d, c)
  {
    assert [c][0] == c;
  }

  lemma MatchesTwo(d: Doc, c1: Cond, c2: Cond)
    ensures Matches(d, [c1, c2]) <==> Holds(d, c1) && Holds(d, c2)
  {
    assert [c1, c2][0] == c1 && [c1, c2][1] == c2;
  }

  /** The keys a query returns. */
  function Select(c: Coll, q: Query): (r: set<Key>)
    ensures r <= c.Keys
  {
    set k | k in c && Matches(c[k], q)
  }

  /** Writing one document changes only that document's membership in a
      query's answer. */
  lemma SelectPut(c: Coll, k: Key, d: Doc, q: Query)
    ensures Matches(d, q) ==> Select(c[k := d], q) == Select(c, q) + {k}
    ensures !Matches(d, q) ==> Select(c[k := d], q) == Select(c, q) - {k}
  {
  }

  /** The document a `limit(1)` query returns. Which of several matching
      documents comes first is left unspecified. */
  ghost function First(c: Coll, q: Query): (r: Option<Key>)
    ensures r.Some? ==> r.value in c && Matches(c[r.value], q)
    ensures r.None? <==> Select(c, q) == {}
  {
    if Select(c, q) == {} then None
    else
      var k :| k in Select(c, q);
      Some(k)
  }

  /** The order in which a snapshot lists a set of documents, left
      unspecified: any duplicate-free listing of the set. */
  ghost function Enumerate<T>(s: set<T>): (r: seq<T>)
    ensures |r| == |s|
    ensures forall i :: 0 <= i < |r| ==> r[i] in s
    ensures forall x :: x in s ==> x in r
    ensures forall i, j :: 0 <= i < j < |r| ==> r[i] != r[j]
    decreases s
  {
    if s == {} then []
    else
      var x :| x in s;
      [x] + Enumerate(s - {x})
  }

  /** The longest uid the identity provider accepts. */
  const MaxUidLength: int := 128

  /** A value the identity provider accepts as a uid: a non-empty string of
      at most `MaxUidLength` characters. Anything else, `undefined`
      included, makes `getUser`, `deleteUser` and `createCustomToken`
      throw. */
  predicate IsUid(v: Value) {
    v.Str? && 0 < |v.s| <= MaxUidLength
  }

  /** `getUserByEmail`: the account registered with exactly this address. */
  ghost function UidByEmail(a: Auth, email: string): (r: Option<Uid>)
    ensures r.Some? ==> r.value in a && a[r.value] == email
    ensures r.None? <==> forall u :: u in a ==> a[u] != email
  {
    if exists u :: u in a && a[u] == email then
      var u :| u in a && a[u] == email;
      Some(u)
    else None
  }

  // ---------------------------------------------------------------------
  // Callable results

  /** The error kinds of a callable function. */
  datatype Code =
    | InvalidArgument | NotFound | AlreadyExists | FailedPrecondition
    | ResourceExhausted | Unauthenticated | Internal

  /** The messages the callables attach to their errors, one constructor per
      distinct text. Where two failures share a constructor they share the
      text, so a caller cannot tell them apart by the message. */
  datatype Message =
    // request checks
    | MissingRegistrationFields | MissingCodeOrEmail | EmailRequired | UidOrEmailRequired
    | CredentialsRequired | InvalidEmailFormat | ShortPassword | InvalidYear
    // registration and verification
    | ActiveAccountExists | RegistrationInProgress | InvalidOrExpiredCode
    | EmailAlreadyRegistered | PasswordTooWeak | AuthConfigurationCheck | AuthConfiguration
    | AccountCreationFailed | RegistrationFailed | CompletionFailed
    // resending codes
    | NoPendingRegistration | TooManyResends | NoUserWithUid | NoUserWithEmail | CodeResendFailed
    // signing in
    | BadCredentials | NotVerified | NotActive | TemporarilyLocked | LoginFailed
    // account deletion
    | NotAuthenticated | DeletionFailed

  datatype Error = Error(code: Code, message: Message)

  datatype Result<+T> = Ok(value: T) | Err(error: Error)

  /** What one callable invocation leaves behind: the database, the
      identity provider, and the reply or error the caller sees. */
  datatype Step<+T> = Step(store: Store, auth: Auth, res: Result<T>)

  function Fail<T>(s: Store, a: Auth, code: Code, message: Message): (r: Step<T>)
    ensures r.store == s && r.auth == a && r.res == Err(Error(code, message))
  {
    Step(s, a, Err(Error(code, message)))
  }

  /** The collection of account records. */
  const Users: string := "users"

  /** The query for documents carrying an address. */
  function ByEmail(key: string): Query {
    [Eq("email", Str(key))]
  }

  /** `accountStatus === st`. */
  predicate StatusIs(d: Doc, st: string) {
    "accountStatus" in d && d["accountStatus"] == Str(st)
  }

  /** A transaction callback's writes take effect only when it returns
      normally; a thrown error discards every write it queued. */
  function Commit<T>(before: Store, queued: Store, res: Result<T>): (r: Store)
    ensures res.Ok? ==> r == queued
    ensures res.Err? ==> r == before
  {
    if res.Ok? then queued else before
  }

  // ---------------------------------------------------------------------
  // Batched deletes

  /** Documents per committed batch, kept below the store's per-batch limit. */
  const BatchLimit: nat := 400

  function Flatten<T>(bs: seq<seq<T>>): seq<T> {
    if bs == [] then [] else bs[0] + Flatten(bs[1..])
  }

  lemma {:induction false} FlattenAppend<T>(bs: seq<seq<T>>, b: seq<T>)
    ensures Flatten(bs + [b]) == Flatten(bs) + b
  {
    if bs != [] {
      assert (bs + [b])[1..] == bs[1..] + [b];
      FlattenAppend(bs[1..], b);
    } else {
      assert [b][1..] == [];
    }
  }

  /** Cutting a listing into consecutive batches of `n`, the last possibly
      shorter. */
  function Chunks<T>(xs: seq<T>, n: nat): (r: seq<seq<T>>)
    requires n > 0
    ensures Flatten(r) == xs
    decreases |xs|
  {
    if |xs| <= n then (if xs == [] then [] else [xs])
    else
      var rest := Chunks(xs[n..], n);
      assert ([xs[..n]] + rest)[1..] == rest;
      assert xs[..n] + xs[n..] == xs;
      [xs[..n]] + rest
  }

  /** Every batch is non-empty and at most `n` long, and only the last may
      be shorter than `n`. */
  lemma {:induction false} ChunksShape<T>(xs: seq<T>, n: nat)
    requires n > 0
    ensures forall i :: 0 <= i < |Chunks(xs, n)| ==> 0 < |Chunks(xs, n)[i]| <= n
    ensures forall i :: 0 <= i < |Chunks(xs, n)| - 1 ==> |Chunks(xs, n)[i]| == n
    decreases |xs|
  {
    if |xs| > n {
      ChunksShape(xs[n..], n);
      assert Chunks(xs, n) == [xs[..n]] + Chunks(xs[n..], n);
    }
  }

  lemma ChunksCut<T>(xs: seq<T>, start: nat, n: nat)
    requires 0 < n && start + n <= |xs|
    ensures Chunks(xs[start..], n) == [xs[start..start + n]] + Chunks(xs[start + n..], n)
  {
    var ys := xs[start..];
    assert ys[..n] == xs[start..start + n];
    assert ys[n..] == xs[start + n..];
    if |ys| == n {
      assert ys[..n] == ys;
    }
  }

  lemma ChunksLast<T>(xs: seq<T>, n: nat)
    requires 0 < |xs| <= n
    ensures Chunks(xs, n) == [xs]
  {
  }

  /** Committing a full batch keeps the committed batches a prefix of the
      chunking. */
  lemma ChunksStep<T>(docs: seq<T>, batches: seq<seq<T>>, start: nat)
    requires start + BatchLimit <= |docs|
    requires Chunks(docs, BatchLimit) == batches + Chunks(docs[start..], BatchLimit)
    ensures Chunks(docs, BatchLimit)
         == (batches + [docs[start..start + BatchLimit]]) + Chunks(docs[start + BatchLimit..], BatchLimit)
  {
    ChunksCut(docs, start, BatchLimit);
    var rest := Chunks(docs[start + BatchLimit..], BatchLimit);
    assert batches + ([docs[start..start + BatchLimit]] + rest) == (batches + [docs[start..start + BatchLimit]]) + rest;
  }

  /** The delete loop of the account cleanup: add each document to the open
      batch, commit it when it holds `BatchLimit` documents, and commit the
      remainder at the end. */
  method PlanBatches<T>(docs: seq<T>) returns (batches: seq<seq<T>>, totalDeleted: nat)
    ensures batches == Chunks(docs, BatchLimit)
    ensures totalDeleted == |docs|
  {
    batches := [];
    totalDeleted := 0;
    // the open batch holds docs[totalDeleted..i]
    var batchCount := 0;
    var i := 0;
    while i < |docs|
      invariant totalDeleted + batchCount == i <= |docs|
      invariant batchCount < BatchLimit
      invariant Chunks(docs, BatchLimit) == batches + Chunks(docs[totalDeleted..], BatchLimit)
    {
      batchCount := batchCount + 1;
      i := i + 1;
      if batchCount >= BatchLimit {
        ChunksStep(docs, batches, totalDeleted);
        batches := batches + [docs[totalDeleted..i]];
        totalDeleted := totalDeleted + batchCount;
        batchCount := 0;
      }
    }
    if batchCount > 0 {
      ChunksLast(docs[totalDeleted..], BatchLimit);
      batches := batches + [docs[totalDeleted..]];
      totalDeleted := totalDeleted + batchCount;
    } else {
      assert docs[totalDeleted..] == [];
    }
  }

  // ---------------------------------------------------------------------
  // Registries of references to an account

  /** Where an account id may be stored: a field of a collection holding
      the id, or a map field of a collection keyed by the id. */
  datatype Ref =
    | Ref(coll: string, field: string)
    | Member(coll: string, mapField: string)

  type Registry = seq<Ref>

  /** The query a registry entry runs for account `uid`: `field == uid`, or
      `mapField.uid != null`. */
  function RefQuery(r: Ref, uid: Uid): Query {
    match r
    case Ref(_, f) => [Eq(f, Str(uid))]
    case Member(_, m) => [Present(m + "." + uid)]
  }

  function Elems<T>(xs: seq<T>): set<T> {
    set x | x in xs
  }

  /** Committing delete batches one after another in collection `c`. */
  function CommitBatches(s: Store, c: string, batches: seq<seq<Key>>): (r: Store)
    ensures Docs(r, c) == Docs(s, c) - Elems(Flatten(batches))
    ensures forall c' :: c' != c ==> Docs(r, c') == Docs(s, c')
    decreases |batches|
  {
    if batches == [] then s
    else
      assert Elems(Flatten(batches)) == Elems(batches[0]) + Elems(Flatten(batches[1..]));
      CommitBatches(RemoveAll(s, c, Elems(batches[0])), c, batches[1..])
  }

  /** One registry entry's pass: list the matching documents, then delete
      them in batches of `BatchLimit`. */
  ghost function DeleteRefs(s: Store, r: Ref, uid: Uid): (res: Store)
    ensures Docs(res, r.coll) == Docs(s, r.coll) - Select(Docs(s, r.coll), RefQuery(r, uid))
    ensures forall c :: c != r.coll ==> Docs(res, c) == Docs(s, c)
  {
    var listing := Enumerate(Select(Docs(s, r.coll), RefQuery(r, uid)));
    assert Elems(listing) == Select(Docs(s, r.coll), RefQuery(r, uid));
    CommitBatches(s, r.coll, Chunks(listing, BatchLimit))
  }

  /** `t` is `s` with some documents deleted and none written. */
  ghost predicate Removed(s: Store, t: Store) {
    forall c, k :: k in Docs(t, c) ==> k in Docs(s, c) && Docs(t, c)[k] == Docs(s, c)[k]
  }

  lemma RemovedTrans(s: Store, t: Store, u: Store)
    requires Removed(s, t) && Removed(t, u)
    ensures Removed(s, u)
  {
  }

  /** A batch of deletes only deletes. */
  lemma RemoveAllRemoved(s: Store, c: string, ks: set<Key>)
    ensures Removed(s, RemoveAll(s, c, ks))
  {
  }

  lemma RemoveRemoved(s: Store, c: string, k: Key)
    ensures Removed(s, Remove(s, c, k))
  {
  }

  /** Deleting never brings a document into a query's answer. */
  lemma RemovedSelect(s: Store, t: Store, c: string, q: Query)
    requires Removed(s, t)
    ensures Select(Docs(t, c), q) <= Select(Docs(s, c), q)
  {
  }

  /** The field update `{[field]: to, updatedAt: now}` applied to every
      document of `c` whose `field` equals `from`. */
  function RewriteRefs(s: Store, c: string, field: string, from: Value, to: Value, now: int): (r: Store)
    ensures Docs(r, c).Keys == Docs(s, c).Keys
    ensures forall k :: k in Docs(s, c) && Holds(Docs(s, c)[k], Eq(field, from)) ==>
      Docs(r, c)[k] == Docs(s, c)[k][field := to]["updatedAt" := Time(now)]
    ensures forall k :: k in Docs(s, c) && !Holds(Docs(s, c)[k], Eq(field, from)) ==>
      Docs(r, c)[k] == Docs(s, c)[k]
    ensures forall c' :: c' != c ==> Docs(r, c') == Docs(s, c')
  {
    var docs := Docs(s, c);
    s[c := map k | k in docs ::
      if Holds(docs[k], Eq(field, from)) then docs[k][field := to]["updatedAt" := Time(now)] else docs[k]]
  }

  /** After a rewrite no document of the collection still refers to the from
      value, and every document that did now refers to the to one. */
  lemma RewriteRemovesOld(s: Store, c: string, field: string, from: Value, to: Value, now: int)
    requires from != to && field != "updatedAt"
    ensures Select(Docs(RewriteRefs(s, c, field, from, to, now), c), [Eq(field, from)]) == {}
    ensures Select(Docs(s, c), [Eq(field, from)]) <= Select(Docs(RewriteRefs(s, c, field, from, to, now), c), [Eq(field, to)])
  {
    var r := Docs(RewriteRefs(s, c, field, from, to, now), c);
    forall k | k in r ensures !Matches(r[k], [Eq(field, from)]) {
      if Holds(Docs(s, c)[k], Eq(field, from)) {
        assert r[k][field] == to;
      }
      MatchesOne(r[k], Eq(field, from));
    }
    forall k | k in Select(Docs(s, c), [Eq(field, from)])
      ensures k in Select(r, [Eq(field, to)])
    {
      MatchesOne(Docs(s, c)[k], Eq(field, from));
      MatchesOne(r[k], Eq(field, to));
      assert r[k][field] == to;
    }
  }
}

=== FILE: fixer.dfy ===
/** The follow-up repair run after the uid migration (`UIDFixer`): move the
    remaining student-id keyed records, point references at account
    records, remove orphaned records and create missing ones. */
module Fixer {
  import opened Values
  import opened Firestore
  import Verification

  // ---------------------------------------------------------------------
  // Student-id keyed records (`fixStudentIdBasedUsers`)

  /** The records this phase moves: a truthy student id and no uid. */
  predicate NeedsMove(d: Doc) {
    Has(d, "studentId") && !Has(d, "uid")
  }

  /** `getUserByEmail(data.email)`; it throws, and the record is skipped,
      unless the address is a string some account is registered with. */
  ghost function AccountOf(d: Doc, a: Auth): (r: Option<Uid>)
    ensures r.Some? ==> r.value in a && "email" in d && d["email"] == Str(a[r.value])
  {
    if "email" in d && d["email"].Str? then UidByEmail(a, d["email"].s) else None
  }

  /** A record the phase moves: it needs moving and its address finds an
      account. */
  ghost predicate Movable(d: Doc, a: Auth) {
    NeedsMove(d) && AccountOf(d, a).Some?
  }

  /** The keys of the snapshot records the phase moves. */
  ghost function MovableKeys(snap: Coll, a: Auth): (r: set<Key>)
    ensures r <= snap.Keys
  {
    set k | k in snap && Movable(snap[k], a)
  }

  /** The record written under the account's uid. */
  function Moved(d: Doc, uid: Uid, now: int): Doc {
    d + map["uid" := Str(uid), "migrated" := Bool(true), "migrationDate" := Time(now)]
  }

  /** One move: write the record under `uid`, then delete key `k`. With
      `keepSelf` the delete is skipped when the two keys coincide. */
  function MoveOne(s: Store, k: Key, d: Doc, uid: Uid, now: int, keepSelf: bool): (r: Store)
    ensures forall c :: c != Users ==> Docs(r, c) == Docs(s, c)
  {
    var s1 := Put(s, Users, uid, Moved(d, uid, now));
    if keepSelf && k == uid then s1 else Remove(s1, Users, k)
  }

  /** The loop over the snapshot `snap` in order `keys`, counting moves. */
  ghost function MoveRecords(snap: Coll, keys: seq<Key>, s: Store, a: Auth, now: int, keepSelf: bool): (r: (Store, nat))
    requires forall i :: 0 <= i < |keys| ==> keys[i] in snap
    ensures r.1 <= |keys|
    ensures (forall i, j :: 0 <= i < j < |keys| ==> keys[i] != keys[j]) ==> r.1 == |MovableKeys(snap, a) * Elems(keys)|
    ensures forall c :: c != Users ==> Docs(r.0, c) == Docs(s, c)
    decreases |keys|
  {
    if keys == [] then
      assert MovableKeys(snap, a) * Elems(keys) == {};
      (s, 0)
    else
      MovableSplit(snap, keys, a);
      var k, d := keys[0], snap[keys[0]];
      if Movable(d, a) then
        var rest := MoveRecords(snap, keys[1..], MoveOne(s, k, d, AccountOf(d, a).value, now, keepSelf), a, now, keepSelf);
        (rest.0, rest.1 + 1)
      else MoveRecords(snap, keys[1..], s, a, now, keepSelf)
  }

  /** `fixStudentIdBasedUsers` as written: set, then delete the old key
      unconditionally. */
  ghost function FixStudentIdBasedUsers(s: Store, a: Auth, now: int): (r: (Store, nat))
    ensures r.1 == |MovableKeys(Docs(s, Users), a)| <= |Docs(s, Users)|
  {
    var snap := Docs(s, Users);
    var keys := Enumerate(snap.Keys);
    assert Elems(keys) == snap.Keys;
    assert MovableKeys(snap, a) * Elems(keys) == MovableKeys(snap, a);
    MoveRecords(snap, keys, s, a, now, false)
  }

  /** The phase with the delete skipped when the record already sits under
      its account's uid. */
  ghost function FixStudentIdBasedUsersKeepingSelf(s: Store, a: Auth, now: int): (r: (Store, nat))
    ensures r.1 == |MovableKeys(Docs(s, Users), a)| <= |Docs(s, Users)|
  {
    var snap := Docs(s, Users);
    var keys := Enumerate(snap.Keys);
    assert Elems(keys) == snap.Keys;
    assert MovableKeys(snap, a) * Elems(keys) == MovableKeys(snap, a);
    MoveRecords(snap, keys, s, a, now, true)
  }

  /** The moved keys among a distinct listing: the head's share plus the
      tail's. */
  lemma MovableSplit(snap: Coll, keys: seq<Key>, a: Auth)
    requires keys != [] && keys[0] in snap
    ensures (forall i, j :: 0 <= i < j < |keys| ==> keys[i] != keys[j]) ==>
      && |MovableKeys(snap, a) * Elems(keys)|
         == (if Movable(snap[keys[0]], a) then 1 else 0) + |MovableKeys(snap, a) * Elems(keys[1..])|
      && forall i, j :: 0 <= i < j < |keys[1..]| ==> keys[1..][i] != keys[1..][j]
  {
    if forall i, j :: 0 <= i < j < |keys| ==> keys[i] != keys[j] {
      var m, k := MovableKeys(snap, a), keys[0];
      ElemsCons(keys);
      if Movable(snap[k], a) {
        assert m * Elems(keys) == {k} + m * Elems(keys[1..]);
      } else {
        assert m * Elems(keys) == m * Elems(keys[1..]);
      }
    }
  }

  /** As written, a record that already sits under its account's uid is
      written and then deleted: it is gone, yet counted as migrated. */
  lemma SelfKeyedRecordLost(s: Store, a: Auth, k: Key, now: int)
    requires k in Docs(s, Users)
    requires NeedsMove(Docs(s, Users)[k]) && AccountOf(Docs(s, Users)[k], a) == Some(k)
    ensures var r := MoveRecords(Docs(s, Users), [k], s, a, now, false);
      k !in Docs(r.0, Users) && r.1 == 1
  {
  }

  /** With the delete skipped for a record under its own uid, every move
      leaves the record under the account's uid, marked with it, and the
      old key gone exactly when it differs. */
  lemma MoveKeepsRecord(s: Store, k: Key, d: Doc, uid: Uid, now: int)
    requires uid != ""
    ensures var users := Docs(MoveOne(s, k, d, uid, now, true), Users);
      && uid in users && users[uid] == Moved(d, uid, now)
      && Verification.UidKeyed(uid, users[uid])
      && (k in users <==> k == uid)
      && forall j :: j != k && j != uid ==> (j in users <==> j in Docs(s, Users))
  {
  }

  /** Records the phase does not move are left exactly as they were. */
  lemma {:induction false} UnmovedRecordsKept(snap: Coll, keys: seq<Key>, s: Store, a: Auth, now: int,
                                              keepSelf: bool, j: Key)
    requires forall i :: 0 <= i < |keys| ==> keys[i] in snap
    requires j in Docs(s, Users)
    requires forall i :: 0 <= i < |keys| && NeedsMove(snap[keys[i]]) && AccountOf(snap[keys[i]], a).Some? ==>
      keys[i] != j && AccountOf(snap[keys[i]], a).value != j
    ensures var users := Docs(MoveRecords(snap, keys, s, a, now, keepSelf).0, Users);
      j in users && users[j] == Docs(s, Users)[j]
    decreases |keys|
  {
    if keys != [] {
      assert forall i :: 0 <= i < |keys[1..]| ==> keys[1..][i] == keys[i + 1];
      var d := snap[keys[0]];
      if NeedsMove(d) && AccountOf(d, a).Some? {
        var s1 := MoveOne(s, keys[0], d, AccountOf(d, a).value, now, keepSelf);
        assert Docs(s1, Users)[j] == Docs(s, Users)[j];
        UnmovedRecordsKept(snap, keys[1..], s1, a, now, keepSelf, j);
      } else {
        UnmovedRecordsKept(snap, keys[1..], s, a, now, keepSelf, j);
      }
    }
  }

  // ---------------------------------------------------------------------
  // References (`fixRelatedCollections`)

  /** The collections whose references are repaired, in order. */
  const FixedCollections: seq<string> := Verification.RelatedCollections

  /** What the loop does with one referring document. */
  datatype RefFix = Keep | SetUser(uid: Key) | Throws

  /** The account record whose student id is `v` (`limit(1)`). */
  ghost function RecordWithStudentId(users: Coll, v: Value): (r: Option<Key>)
    ensures r.Some? ==> r.value in users && "studentId" in users[r.value] && users[r.value]["studentId"] == v
    ensures r.None? <==> forall k :: k in users ==> !("studentId" in users[k] && users[k]["studentId"] == v)
  {
    var r := First(users, [Eq("studentId", v)]);
    if r.Some? then
      MatchesOne(users[r.value], Eq("studentId", v));
      r
    else
      forall k | k in users ensures !("studentId" in users[k] && users[k]["studentId"] == v) {
        assert k !in Select(users, [Eq("studentId", v)]);
        MatchesOne(users[k], Eq("studentId", v));
      }
      None
  }

  /** The decision for one document: a student id with no `userId`, or a
      `userId` starting with `S`, is looked up among the account records by
      student id. A truthy `userId` that is not a string throws. */
  ghost function RefFixOf(users: Coll, d: Doc): (r: RefFix)
    ensures r.Throws? <==> Verification.Classify(d) == Verification.Unreadable
    ensures r.SetUser? ==> Verification.Classify(d) == Verification.StudentIdRef
  {
    if Has(d, "studentId") && !Has(d, "userId") then
      match RecordWithStudentId(users, d["studentId"])
      case None => Keep
      case Some(u) => SetUser(u)
    else if Has(d, "userId") then
      if !d["userId"].Str? then Throws
      else if StartsWithS(d["userId"].s) then
        match RecordWithStudentId(users, d["userId"])
        case None => Keep
        case Some(u) => SetUser(u)
      else Keep
    else Keep
  }

  /** The update applied to a document pointed at account `u`. The
      student id the first branch writes back is the one already there. */
  function Repointed(d: Doc, u: Key, now: int): Doc {
    d + map["userId" := Str(u), "updatedAt" := Time(now)]
  }

  /** A repaired reference names an account record whose student id is the
      value the document referred by, and keeps that value. */
  lemma RepointedNamesRecord(users: Coll, d: Doc, now: int)
    requires RefFixOf(users, d).SetUser?
    ensures var u := RefFixOf(users, d).uid;
      && u in users
      && (!Has(d, "userId") ==> users[u]["studentId"] == d["studentId"])
      && (Has(d, "userId") ==> users[u]["studentId"] == d["userId"])
      && Repointed(d, u, now)["userId"] == Str(u)
      && ("studentId" in d ==> Repointed(d, u, now)["studentId"] == d["studentId"])
  {
  }

  /** A repaired reference is counted as a uid reference afterwards unless
      the account record it names is itself keyed by a student id. */
  lemma RepointedClassified(users: Coll, d: Doc, u: Key, now: int)
    requires u != ""
    ensures Verification.Classify(Repointed(d, u, now)) ==
      if StartsWithS(u) then Verification.StudentIdRef else Verification.UidRef
  {
  }

  /** The loop over one collection's documents in order `keys`: the store,
      the number of updates, and whether a document threw. */
  ghost function RepairDocs(s: Store, c: string, keys: seq<Key>, now: int): (r: (Store, nat, bool))
    requires c != Users
    requires forall i :: 0 <= i < |keys| ==> keys[i] in Docs(s, c)
    ensures r.1 <= |keys|
    ensures Docs(r.0, c).Keys == Docs(s, c).Keys
    ensures forall c' :: c' != c ==> Docs(r.0, c') == Docs(s, c')
    decreases |keys|
  {
    if keys == [] then (s, 0, false)
    else
      var k := keys[0];
      match RefFixOf(Docs(s, Users), Docs(s, c)[k])
      case Throws => (s, 0, true)
      case Keep => RepairDocs(s, c, keys[1..], now)
      case SetUser(u) =>
        var s1 := Patch(s, c, k, map["userId" := Str(u), "updatedAt" := Time(now)]);
        var rest := RepairDocs(s1, c, keys[1..], now);
        (rest.0, rest.1 + 1, rest.2)
  }

  /** A document the loop keeps is left exactly as it was. */
  lemma {:induction false} KeptRefUnchanged(s: Store, c: string, keys: seq<Key>, now: int, j: Key)
    requires c != Users
    requires forall i :: 0 <= i < |keys| ==> keys[i] in Docs(s, c)
    requires forall i, i' :: 0 <= i < i' < |keys| ==> keys[i] != keys[i']
    requires j in Docs(s, c) && RefFixOf(Docs(s, Users), Docs(s, c)[j]).Keep?
    ensures Docs(RepairDocs(s, c, keys, now).0, c)[j] == Docs(s, c)[j]
    decreases |keys|
  {
    if keys != [] {
      assert forall i :: 0 <= i < |keys[1..]| ==> keys[1..][i] == keys[i + 1];
      match RefFixOf(Docs(s, Users), Docs(s, c)[keys[0]])
      case Throws =>
      case Keep =>
        KeptRefUnchanged(s, c, keys[1..], now, j);
      case SetUser(u) =>
        var s1 := Patch(s, c, keys[0], map["userId" := Str(u), "updatedAt" := Time(now)]);
        assert Docs(s1, c)[j] == Docs(s, c)[j];
        assert Docs(s1, Users) == Docs(s, Users);
        forall i | 0 <= i < |keys[1..]| ensures keys[1..][i] in Docs(s1, c) { }
        KeptRefUnchanged(s1, c, keys[1..], now, j);
    }
  }

  /** When no document throws, every document the loop repoints ends up
      pointing at its account record. */
  lemma {:induction false} RepairedRefsRepointed(s: Store, c: string, keys: seq<Key>, now: int, i: int)
    requires c != Users
    requires forall i :: 0 <= i < |keys| ==> keys[i] in Docs(s, c)
    requires forall i, i' :: 0 <= i < i' < |keys| ==> keys[i] != keys[i']
    requires 0 <= i < |keys| && !RepairDocs(s, c, keys, now).2
    requires RefFixOf(Docs(s, Users), Docs(s, c)[keys[i]]).SetUser?
    ensures var u := RefFixOf(Docs(s, Users), Docs(s, c)[keys[i]]).uid;
      Docs(RepairDocs(s, c, keys, now).0, c)[keys[i]] == Repointed(Docs(s, c)[keys[i]], u, now)
    decreases |keys|
  {
    assert forall i :: 0 <= i < |keys[1..]| ==> keys[1..][i] == keys[i + 1];
    match RefFixOf(Docs(s, Users), Docs(s, c)[keys[0]])
    case Keep =>
      RepairedRefsRepointed(s, c, keys[1..], now, i - 1);
    case SetUser(u) =>
      var s1 := Patch(s, c, keys[0], map["userId" := Str(u), "updatedAt" := Time(now)]);
      assert Docs(s1, Users) == Docs(s, Users);
      forall i | 0 <= i < |keys[1..]| ensures keys[1..][i] in Docs(s1, c) { }
      if i == 0 {
        assert Docs(s1, c)[keys[0]] == Repointed(Docs(s, c)[keys[0]], u, now);
        RepointedStays(s1, c, keys[1..], now, keys[0]);
      } else {
        assert Docs(s1, c)[keys[i]] == Docs(s, c)[keys[i]];
        RepairedRefsRepointed(s1, c, keys[1..], now, i - 1);
      }
  }

  /** A document not among `keys` is not touched by the loop over them. */
  lemma {:induction false} RepointedStays(s: Store, c: string, keys: seq<Key>, now: int, j: Key)
    requires c != Users
    requires forall i :: 0 <= i < |keys| ==> keys[i] in Docs(s, c)
    requires j in Docs(s, c) && forall i :: 0 <= i < |keys| ==> keys[i] != j
    ensures Docs(RepairDocs(s, c, keys, now).0, c)[j] == Docs(s, c)[j]
    decreases |keys|
  {
    if keys != [] {
      assert forall i :: 0 <= i < |keys[1..]| ==> keys[1..][i] == keys[i + 1];
      match RefFixOf(Docs(s, Users), Docs(s, c)[keys[0]])
      case Throws =>
      case Keep =>
        RepointedStays(s, c, keys[1..], now, j);
      case SetUser(u) =>
        var s1 := Patch(s, c, keys[0], map["userId" := Str(u), "updatedAt" := Time(now)]);
        assert Docs(s1, Users) == Docs(s, Users);
        forall i | 0 <= i < |keys[1..]| ensures keys[1..][i] in Docs(s1, c) { }
        RepointedStays(s1, c, keys[1..], now, j);
    }
  }

  /** One collection of `fixRelatedCollections`, or an error when it
      cannot be read. */
  ghost function RepairOne(s: Store, c: string, now: int, failing: set<string>): (r: (Store, nat, bool))
    requires c != Users
    ensures Docs(r.0, Users) == Docs(s, Users)
  {
    if c in failing then (s, 0, true) else RepairDocs(s, c, Enumerate(Docs(s, c).Keys), now)
  }

  /** `fixRelatedCollections`: each collection that can be read is
      repaired; a collection that cannot be read or whose loop throws
      records an error and adds nothing to the count of updated documents,
      while the updates made before the throw stay. */
  ghost function RepairCollections(s: Store, colls: seq<string>, now: int, failing: set<string>): (r: (Store, nat, nat))
    requires forall i :: 0 <= i < |colls| ==> colls[i] != Users
    ensures r.2 <= |colls|
    ensures Docs(r.0, Users) == Docs(s, Users)
    ensures (forall i :: 0 <= i < |colls| ==> colls[i] in failing) ==> r == (s, 0, |colls|)
    decreases |colls|
  {
    if colls == [] then (s, 0, 0)
    else
      var step := RepairOne(s, colls[0], now, failing);
      assert forall i :: 0 <= i < |colls[1..]| ==> colls[1..][i] == colls[i + 1];
      var rest := RepairCollections(step.0, colls[1..], now, failing);
      (rest.0, (if step.2 then 0 else step.1) + rest.1, rest.2 + (if step.2 then 1 else 0))
  }

  /** For one collection: its writes stay whatever happens, it counts an
      error exactly when it throws, and its updates are counted only when
      its loop finishes. */
  lemma RepairOneCounted(s: Store, c: string, now: int, failing: set<string>)
    requires c != Users
    ensures var one := RepairCollections(s, [c], now, failing);
      var step := RepairOne(s, c, now, failing);
      && one.0 == step.0
      && (one.2 == 1 <==> step.2)
      && one.1 == (if step.2 then 0 else step.1)
  {
    assert [c][1..] == [];
  }

  // ---------------------------------------------------------------------
  // Orphans (`fixOrphanedDocuments`)

  /** A record the phase deletes: its key is no account, it has an address,
      and looking that address up throws (no account has it, or it is not
      a string). */
  ghost predicate Cleanable(users: Coll, a: Auth, k: Key)
    requires k in users
  {
    k !in a && Has(users[k], "email")
    && (users[k]["email"].Str? ==> UidByEmail(a, users[k]["email"].s).None?)
  }

  ghost function Cleaned(users: Coll, a: Auth): (r: set<Key>)
    ensures r <= Verification.Orphaned(users, a)
  {
    set k | k in users && Cleanable(users, a, k)
  }

  /** `fixOrphanedDocuments`: every cleanable record is deleted and
      counted. The deletes are independent of each other, so the loop's
      order does not matter. */
  ghost function CleanOrphans(s: Store, a: Auth): (r: (Store, nat))
    ensures r.1 == |Cleaned(Docs(s, Users), a)|
    ensures forall c :: c != Users ==> Docs(r.0, c) == Docs(s, c)
  {
    var gone := Cleaned(Docs(s, Users), a);
    (RemoveAll(s, Users, gone), |gone|)
  }

  /** Deleting orphans takes exactly the cleaned ones off the orphan
      count. */
  lemma CleanOrphansCount(s: Store, a: Auth)
    ensures |Verification.Orphaned(Docs(CleanOrphans(s, a).0, Users), a)| + CleanOrphans(s, a).1
      == |Verification.Orphaned(Docs(s, Users), a)|
  {
    var users := Docs(s, Users);
    var gone := Cleaned(users, a);
    assert Docs(CleanOrphans(s, a).0, Users).Keys == users.Keys - gone;
    RemoveOrphans(users.Keys, a.Keys, gone);
  }

  lemma RemoveOrphans<T>(keys: set<T>, accounts: set<T>, gone: set<T>)
    requires gone <= keys - accounts
    ensures |(keys - gone) - accounts| + |gone| == |keys - accounts|
  {
    assert (keys - gone) - accounts == (keys - accounts) - gone;
    Verification.SplitCard(keys - accounts, gone);
    assert (keys - accounts) * gone == gone;
  }

  /** Records of accounts, records without an address and records whose
      address has an account all stay as they were. */
  lemma CleanOrphansKeeps(s: Store, a: Auth, k: Key)
    requires k in Docs(s, Users)
    requires var d := Docs(s, Users)[k];
      || k in a
      || !Has(d, "email")
      || ("email" in d && d["email"].Str? && UidByEmail(a, d["email"].s).Some?)
    ensures var after := Docs(CleanOrphans(s, a).0, Users);
      k in after && after[k] == Docs(s, Users)[k]
  {
    assert k !in Cleaned(Docs(s, Users), a);
  }

  // ---------------------------------------------------------------------
  // Missing records (`fixMissingAuthUsers`)

  /** The record created for an account that has none. The identity model
      holds only the address, so display name and photo take their
      fallback `''`. */
  function Stub(u: Uid, email: string, now: int): Doc {
    map["uid" := Str(u), "email" := Str(email), "displayName" := Str(""), "photoURL" := Str(""),
        "createdAt" := Time(now), "updatedAt" := Time(now), "isActive" := Bool(true), "autoCreated" := Bool(true)]
  }

  /** The loop over the listed accounts: a record is created for each one
      without, and counted. */
  function CreateMissing(s: Store, a: Auth, listing: seq<Uid>, now: int): (r: (Store, nat))
    requires forall i :: 0 <= i < |listing| ==> listing[i] in a
    ensures r.1 <= |listing|
    ensures forall c :: c != Users ==> Docs(r.0, c) == Docs(s, c)
    decreases |listing|
  {
    if listing == [] then (s, 0)
    else
      var u := listing[0];
      if u in Docs(s, Users) then CreateMissing(s, a, listing[1..], now)
      else
        var rest := CreateMissing(Put(s, Users, u, Stub(u, a[u], now)), a, listing[1..], now);
        (rest.0, rest.1 + 1)
  }

  /** Existing records are untouched and every listed account ends with a
      record. */
  lemma {:induction false} CreateMissingCovers(s: Store, a: Auth, listing: seq<Uid>, now: int)
    requires forall i :: 0 <= i < |listing| ==> listing[i] in a
    ensures var after := Docs(CreateMissing(s, a, listing, now).0, Users);
      && (forall k :: k in Docs(s, Users) ==> k in after && after[k] == Docs(s, Users)[k])
      && (forall i :: 0 <= i < |listing| ==> listing[i] in after)
    decreases |listing|
  {
    if listing != [] {
      var u, tail := listing[0], listing[1..];
      assert forall i :: 0 <= i < |tail| ==> tail[i] == listing[i + 1];
      var s1 := if u in Docs(s, Users) then s else Put(s, Users, u, Stub(u, a[u], now));
      assert CreateMissing(s, a, listing, now).0 == CreateMissing(s1, a, tail, now).0;
      CreateMissingCovers(s1, a, tail, now);
      forall i | 0 <= i < |listing| ensures listing[i] in Docs(CreateMissing(s1, a, tail, now).0, Users) {
        if i > 0 {
          assert listing[i] == tail[i - 1];
        }
      }
    }
  }

  /** The listed accounts outside `have`, counted along the listing. */
  function CountMissing(have: set<Uid>, listing: seq<Uid>): (n: nat)
    ensures n <= |listing|
  {
    if listing == [] then 0
    else (if listing[0] in have then 0 else 1) + CountMissing(have, listing[1..])
  }

  lemma {:induction false} CountMissingIgnores(have: set<Uid>, u: Uid, listing: seq<Uid>)
    requires forall i :: 0 <= i < |listing| ==> listing[i] != u
    ensures CountMissing(have + {u}, listing) == CountMissing(have, listing)
  {
    if listing != [] {
      assert forall i :: 0 <= i < |listing[1..]| ==> listing[1..][i] == listing[i + 1];
      CountMissingIgnores(have, u, listing[1..]);
    }
  }

  /** On a duplicate-free listing the count is the size of the difference. */
  lemma {:induction false} CountMissingCard(have: set<Uid>, listing: seq<Uid>)
    requires forall i, j :: 0 <= i < j < |listing| ==> listing[i] != listing[j]
    ensures CountMissing(have, listing) == |Elems(listing) - have|
  {
    if listing != [] {
      var u, tail := listing[0], listing[1..];
      ElemsCons(listing);
      CountMissingCard(have, tail);
      if u in have {
        assert Elems(listing) - have == Elems(tail) - have;
      } else {
        assert Elems(listing) - have == (Elems(tail) - have) + {u};
      }
    }
  }

  /** The loop counts the listed accounts that had no record when it
      started. */
  lemma {:induction false} CreateMissingCounts(s: Store, a: Auth, listing: seq<Uid>, now: int)
    requires forall i :: 0 <= i < |listing| ==> listing[i] in a
    requires forall i, j :: 0 <= i < j < |listing| ==> listing[i] != listing[j]
    ensures CreateMissing(s, a, listing, now).1 == CountMissing(Docs(s, Users).Keys, listing)
    decreases |listing|
  {
    if listing != [] {
      var u, tail := listing[0], listing[1..];
      assert forall i :: 0 <= i < |tail| ==> tail[i] == listing[i + 1];
      if u in Docs(s, Users) {
        CreateMissingCounts(s, a, tail, now);
      } else {
        var s1 := Put(s, Users, u, Stub(u, a[u], now));
        CreateMissingCounts(s1, a, tail, now);
        assert Docs(s1, Users).Keys == Docs(s, Users).Keys + {u};
        CountMissingIgnores(Docs(s, Users).Keys, u, tail);
      }
    }
  }

  /** The count is the number of listed accounts that had no record. */
  lemma CreateMissingCount(s: Store, a: Auth, listing: seq<Uid>, now: int)
    requires forall i :: 0 <= i < |listing| ==> listing[i] in a
    requires forall i, j :: 0 <= i < j < |listing| ==> listing[i] != listing[j]
    ensures CreateMissing(s, a, listing, now).1 == |Elems(listing) - Docs(s, Users).Keys|
  {
    CreateMissingCounts(s, a, listing, now);
    CountMissingCard(Docs(s, Users).Keys, listing);
  }

  /** A duplicate-free listing is its head and the distinct rest. */
  lemma ElemsCons<T>(xs: seq<T>)
    requires xs != []
    requires forall i, j :: 0 <= i < j < |xs| ==> xs[i] != xs[j]
    ensures Elems(xs) == {xs[0]} + Elems(xs[1..])
    ensures xs[0] !in Elems(xs[1..])
    ensures forall i, j :: 0 <= i < j < |xs[1..]| ==> xs[1..][i] != xs[1..][j]
  {
    assert forall i :: 0 <= i < |xs[1..]| ==> xs[1..][i] == xs[i + 1];
  }

  /** Each listed account that had no record gets its stub. */
  lemma {:induction false} CreateMissingStubs(s: Store, a: Auth, listing: seq<Uid>, now: int, i: int)
    requires forall i :: 0 <= i < |listing| ==> listing[i] in a
    requires forall i, j :: 0 <= i < j < |listing| ==> listing[i] != listing[j]
    requires 0 <= i < |listing| && listing[i] !in Docs(s, Users)
    ensures var after := Docs(CreateMissing(s, a, listing, now).0, Users);
      listing[i] in after && after[listing[i]] == Stub(listing[i], a[listing[i]], now)
    decreases |listing|
  {
    var u, tail := listing[0], listing[1..];
    assert forall i :: 0 <= i < |tail| ==> tail[i] == listing[i + 1];
    if u in Docs(s, Users) {
      assert CreateMissing(s, a, listing, now).0 == CreateMissing(s, a, tail, now).0;
      CreateMissingStubs(s, a, tail, now, i - 1);
    } else {
      var s1 := Put(s, Users, u, Stub(u, a[u], now));
      assert CreateMissing(s, a, listing, now).0 == CreateMissing(s1, a, tail, now).0;
      if i > 0 {
        assert listing[i] != u;
        CreateMissingStubs(s1, a, tail, now, i - 1);
      } else {
        CreateMissingCovers(s1, a, tail, now);
      }
    }
  }

  /** A stub is in step with its account. */
  lemma StubInSync(users: Coll, u: Uid, email: string, now: int)
    requires u in users && users[u] == Stub(u, email, now)
    ensures Verification.InSync(users, u, email)
  {
  }

  lemma EnumerateElems<T>(xs: set<T>)
    ensures Elems(Enumerate(xs)) == xs
  {
  }

  /** A listing of every account leaves none without a record. */
  lemma ListingCovers(s: Store, a: Auth, listing: seq<Uid>, now: int)
    requires forall i :: 0 <= i < |listing| ==> listing[i] in a
    requires forall u :: u in a ==> u in listing
    ensures Verification.MissingRecords(Docs(CreateMissing(s, a, listing, now).0, Users), a) == {}
  {
    CreateMissingCovers(s, a, listing, now);
  }

  /** `fixMissingAuthUsers` over every account: afterwards no account
      lacks a record, and none that existed changed. */
  ghost function FixMissingAuthUsers(s: Store, a: Auth, now: int): (r: (Store, nat))
    ensures Verification.MissingRecords(Docs(r.0, Users), a) == {}
    ensures r.1 == |Verification.MissingRecords(Docs(s, Users), a)|
  {
    var listing := Enumerate(a.Keys);
    CreateMissingCount(s, a, listing, now);
    EnumerateElems(a.Keys);
    ListingCovers(s, a, listing, now);
    CreateMissing(s, a, listing, now)
  }

  // ---------------------------------------------------------------------
  // The whole run

  datatype Fixes = Fixes(store: Store, migratedUsers: nat, updatedCollections: nat, cleanedOrphaned: nat,
                         createdMissing: nat, errors: nat)

  /** The four phases in order, the first one as written or, with
      `keepSelf`, keeping records already under their uid. `failing` names
      the collections whose snapshot read fails; `authDown` makes the
      account listing fail. */
  ghost function FixRun(s: Store, a: Auth, now: int, failing: set<string>, authDown: bool, keepSelf: bool): (r: Fixes)
    ensures Users !in failing && !authDown ==> Verification.MissingRecords(Docs(r.store, Users), a) == {}
  {
    var usersOk := Users !in failing;
    var p1 := if !usersOk then (s, 0)
              else if keepSelf then FixStudentIdBasedUsersKeepingSelf(s, a, now)
              else FixStudentIdBasedUsers(s, a, now);
    var p2 := RepairCollections(p1.0, FixedCollections, now, failing);
    var p3 := if usersOk && !authDown then CleanOrphans(p2.0, a) else (p2.0, 0);
    var p4 := if !authDown then FixMissingAuthUsers(p3.0, a, now) else (p3.0, 0);
    Fixes(p4.0, p1.1, p2.1, p3.1, p4.1,
          (if usersOk then 0 else 1) + p2.2 + (if usersOk && !authDown then 0 else 1) + (if authDown then 1 else 0))
  }

  /** `fixRemainingIssues` as written. */
  ghost function FixRemainingIssues(s: Store, a: Auth, now: int, failing: set<string>, authDown: bool): (r: Fixes)
    ensures Users !in failing && !authDown ==> Verification.MissingRecords(Docs(r.store, Users), a) == {}
    ensures Users in failing ==> r.migratedUsers == 0 && r.cleanedOrphaned == 0 && r.errors >= 2
  {
    FixRun(s, a, now, failing, authDown, false)
  }

  /** The run with the corrected first phase. */
  ghost function FixRemainingIssuesKeepingSelf(s: Store, a: Auth, now: int, failing: set<string>, authDown: bool): (r: Fixes)
    ensures Users !in failing && !authDown ==> Verification.MissingRecords(Docs(r.store, Users), a) == {}
    ensures Users in failing ==> r.migratedUsers == 0 && r.cleanedOrphaned == 0 && r.errors >= 2
  {
    FixRun(s, a, now, failing, authDown, true)
  }
}

=== FILE: login.dfy ===
/** `loginUser`: the status gate, the lockout after repeated failures, the
    attempt counters and the daily streak, all inside one transaction. */
module Login {
  import opened Values
  import opened Firestore
  import opened Registration

  /** Failed attempts that lock an account, and how long the lock lasts. */
  const MaxAttempts: int := 5
  const LockWindow: int := 15 * Minute

  /** At least five recorded failures, the last one inside the window. */
  predicate Locked(d: Doc, now: int) {
    CountOf(d, "loginAttempts") >= MaxAttempts
    && TimeOf(d, "lastLoginAttempt").Some?
    && TimeOf(d, "lastLoginAttempt").value > now - LockWindow
  }

  /** The stored password is exactly the one given. */
  predicate PasswordMatches(d: Doc, password: string) {
    "password" in d && d["password"] == Str(password)
  }

  /** The record names a uid a custom token can be minted for. */
  predicate TokenUid(d: Doc) {
    "uid" in d && IsUid(d["uid"])
  }

  /** The calendar day (UTC) of an instant. */
  function DayOf(t: int): int {
    t / Day
  }

  /** The streak a successful sign-in at `now` writes, or None when it
      leaves the field as it was. */
  function NextStreak(d: Doc, now: int): (r: Option<int>)
    ensures TimeOf(d, "lastLogin").None? ==> r == Some(1)
    ensures TimeOf(d, "lastLogin").Some? && TimeOf(d, "lastLogin").value < now - Day ==> r == Some(1)
    ensures r.None? ==> DayOf(TimeOf(d, "lastLogin").value) == DayOf(now)
  {
    match TimeOf(d, "lastLogin")
    case None => Some(1)
    case Some(t) =>
      if t < now - Day then Some(1)
      else if DayOf(t) != DayOf(now) then Some(CountOf(d, "loginStreak") + 1)
      else None
  }

  /** The update a wrong password queues. */
  function FailedAttempt(d: Doc, now: int): (f: Doc)
    ensures CountOf(f, "loginAttempts") == CountOf(d, "loginAttempts") + 1
    ensures forall k :: k in d && k !in {"loginAttempts", "lastLoginAttempt", "updatedAt"} ==> k in f && f[k] == d[k]
  {
    d + map[
      "loginAttempts" := Num(CountOf(d, "loginAttempts") + 1),
      "lastLoginAttempt" := Time(now),
      "updatedAt" := Time(now)]
  }

  /** A recorded failure counts one more attempt, stamps it, and keeps the
      address, status and password. */
  lemma FailedAttemptShape(d: Doc, now: int, key: string, password: string)
    ensures var f := FailedAttempt(d, now);
      && CountOf(f, "loginAttempts") == CountOf(d, "loginAttempts") + 1
      && TimeOf(f, "lastLoginAttempt") == Some(now)
      && (Matches(f, ByEmail(key)) <==> Matches(d, ByEmail(key)))
      && (StatusIs(f, "active") <==> StatusIs(d, "active"))
      && (PasswordMatches(f, password) <==> PasswordMatches(d, password))
  {
    MatchesOne(FailedAttempt(d, now), Eq("email", Str(key)));
    MatchesOne(d, Eq("email", Str(key)));
  }

  /** The record after a successful sign-in at `now`. */
  function SignedIn(d: Doc, now: int): Doc {
    var base := d + map[
      "lastLogin" := Time(now),
      "totalLogins" := Num(CountOf(d, "totalLogins") + 1),
      "loginAttempts" := Num(0),
      "lastLoginAttempt" := Null,
      "updatedAt" := Time(now)];
    match NextStreak(d, now)
    case Some(n) => base["loginStreak" := Num(n)]
    case None => base
  }

  /** What a successful sign-in reports besides the token. */
  datatype Session = Session(uid: Uid, email: string, loginStreak: Option<int>, totalLogins: int)

  /** The checks made on the record found, in order: status, lockout,
      password. The lockout is checked before the password, so a locked
      account is refused even the right one. */
  function Rejection(d: Doc, now: int, password: string): (e: Option<Error>)
    ensures e.None? <==> StatusIs(d, "active") && !Locked(d, now) && PasswordMatches(d, password)
    ensures (e.Some? && e.value.code == FailedPrecondition) <==> !StatusIs(d, "active")
    ensures (e.Some? && e.value.code == ResourceExhausted) <==> StatusIs(d, "active") && Locked(d, now)
    ensures (e.Some? && e.value.code == InvalidArgument) <==>
      StatusIs(d, "active") && !Locked(d, now) && !PasswordMatches(d, password)
    ensures e.Some? && e.value.code == InvalidArgument ==> e.value.message == BadCredentials
    ensures StatusIs(d, "pending") ==> e == Some(Error(FailedPrecondition, NotVerified))
  {
    if StatusIs(d, "pending") then Some(Error(FailedPrecondition, NotVerified))
    else if !StatusIs(d, "active") then Some(Error(FailedPrecondition, NotActive))
    else if Locked(d, now) then Some(Error(ResourceExhausted, TemporarilyLocked))
    else if !PasswordMatches(d, password) then Some(Error(InvalidArgument, BadCredentials))
    else None
  }

  /** The arguments pass the checks made before the store is read. */
  predicate ArgsOk(email: string, password: string) {
    email != "" && password != "" && IsEmailFormat(email)
  }

  /** The checks made before a record is chosen, then the record the
      transaction's `limit(1)` query returns. */
  ghost function Lookup(users: Coll, email: string, password: string): (r: Result<Key>)
    ensures r.Ok? ==> ArgsOk(email, password) && r.value in Select(users, ByEmail(Normalize(email)))
    ensures ArgsOk(email, password) ==> (r.Err? <==> Select(users, ByEmail(Normalize(email))) == {})
    ensures r.Err? ==> r.error.message in {CredentialsRequired, InvalidEmailFormat, BadCredentials}
  {
    if email == "" || password == "" then Err(Error(InvalidArgument, CredentialsRequired))
    else if !IsEmailFormat(email) then Err(Error(InvalidArgument, InvalidEmailFormat))
    else
      match First(users, ByEmail(Normalize(email)))
      case None => Err(Error(NotFound, BadCredentials))
      case Some(k) => Ok(k)
  }

  /** The rest of the transaction on the chosen record `k`. A wrong
      password queues `FailedAttempt` and then throws; `keepFailures` says
      whether that write survives the throw. */
  ghost function SignInOn(s: Store, a: Auth, now: int, k: Key, email: string, password: string,
                          tokenOk: bool, keepFailures: bool): (o: Step<Session>)
    requires k in Docs(s, Users)
    ensures o.auth == a
    ensures var e := Rejection(Docs(s, Users)[k], now, password);
      && (e.Some? ==> o.res == Err(e.value))
      && (e.None? ==> (o.res.Ok? <==> TokenUid(Docs(s, Users)[k]) && tokenOk))
    ensures o.res.Ok? ==> o.store == Put(s, Users, k, SignedIn(Docs(s, Users)[k], now))
    ensures (o.res.Err? && (!keepFailures || o.res.error.code != InvalidArgument)) ==> o.store == s
    ensures (o.res.Err? && keepFailures && o.res.error.code == InvalidArgument) ==>
      o.store == Put(s, Users, k, FailedAttempt(Docs(s, Users)[k], now))
  {
    var d := Docs(s, Users)[k];
    match Rejection(d, now, password)
    case Some(e) =>
      var queued := if e.code == InvalidArgument then Put(s, Users, k, FailedAttempt(d, now)) else s;
      var res: Result<Session> := Err(e);
      Step(if keepFailures then queued else Commit(s, queued, res), a, res)
    case None =>
      var res :=
        if TokenUid(d) && tokenOk
        then Ok(Session(d["uid"].s, Normalize(email), NextStreak(d, now), CountOf(d, "totalLogins") + 1))
        else Err(Error(Internal, LoginFailed));
      Step(Commit(s, Put(s, Users, k, SignedIn(d, now)), res), a, res)
  }

  /** The sign-in transaction. */
  ghost function SignIn(s: Store, a: Auth, now: int, email: string, password: string,
                        tokenOk: bool, keepFailures: bool): (o: Step<Session>)
    ensures o.auth == a
    ensures Lookup(Docs(s, Users), email, password).Err? ==>
      o.store == s && o.res == Err(Lookup(Docs(s, Users), email, password).error)
    ensures o.res.Ok? ==> Docs(o.store, Users).Keys == Docs(s, Users).Keys
  {
    match Lookup(Docs(s, Users), email, password)
    case Err(e) => Step(s, a, Err(e))
    case Ok(k) => SignInOn(s, a, now, k, email, password, tokenOk, keepFailures)
  }

  /** `loginUser` as written: the failed-attempt write is queued inside the
      transaction and discarded by the throw that follows it. */
  ghost function LoginUser(s: Store, a: Auth, now: int, email: string, password: string,
                           tokenOk: bool): (o: Step<Session>)
    ensures o.auth == a
    ensures o.res.Err? ==> o.store == s
    ensures (email == "" || password == "") ==> o.res == Err(Error(InvalidArgument, CredentialsRequired))
    ensures (email != "" && password != "" && !IsEmailFormat(email)) ==>
      o.res == Err(Error(InvalidArgument, InvalidEmailFormat))
    ensures o.res.Ok? ==> Docs(o.store, Users).Keys == Docs(s, Users).Keys
  {
    SignIn(s, a, now, email, password, tokenOk, false)
  }

  /** `loginUser` with the failed attempt recorded: the update is committed
      before the error is returned. */
  ghost function LoginUserCommitsFailures(s: Store, a: Auth, now: int, email: string, password: string,
                                          tokenOk: bool): (o: Step<Session>)
    ensures o.auth == a
    ensures (o.res.Err? && o.res.error.code != InvalidArgument) ==> o.store == s
    ensures (email == "" || password == "") ==> o.res == Err(Error(InvalidArgument, CredentialsRequired))
  {
    SignIn(s, a, now, email, password, tokenOk, true)
  }

  /** A successful sign-in found an active, unlocked record for the address
      whose password matched, and wrote exactly that record's sign-in
      update. */
  lemma LoginSuccessEffect(s: Store, a: Auth, now: int, email: string, password: string, tokenOk: bool)
    ensures var o := LoginUser(s, a, now, email, password, tokenOk);
      var users := Docs(s, Users);
      o.res.Ok? ==>
        && ArgsOk(email, password) && tokenOk
        && exists k :: k in users && Matches(users[k], ByEmail(Normalize(email)))
             && Rejection(users[k], now, password).None? && TokenUid(users[k])
             && o.res.value.uid == users[k]["uid"].s
             && Docs(o.store, Users) == users[k := SignedIn(users[k], now)]
  {
    var o := LoginUser(s, a, now, email, password, tokenOk);
    var users := Docs(s, Users);
    if o.res.Ok? {
      var k := First(users, ByEmail(Normalize(email))).value;
      assert Rejection(users[k], now, password).None? && TokenUid(users[k]);
      assert Docs(o.store, Users) == users[k := SignedIn(users[k], now)];
    }
  }

  /** With a single record for the address, the outcome is the record's
      first failing check, or success exactly when a token can be minted. */
  lemma SingleRecordOutcome(s: Store, a: Auth, now: int, email: string, password: string, tokenOk: bool, k: Key)
    requires ArgsOk(email, password)
    requires Select(Docs(s, Users), ByEmail(Normalize(email))) == {k}
    ensures var o := LoginUser(s, a, now, email, password, tokenOk);
      var d := Docs(s, Users)[k];
      && (Rejection(d, now, password).Some? ==> o.res == Err(Rejection(d, now, password).value))
      && (Rejection(d, now, password).None? ==> (o.res.Ok? <==> TokenUid(d) && tokenOk))
      && (o.res.Ok? ==> Docs(o.store, Users) == Docs(s, Users)[k := SignedIn(d, now)])
  {
    assert k in Select(Docs(s, Users), ByEmail(Normalize(email)));
  }

  /** An unknown address and a wrong password carry the same message but
      different error codes, so the code tells a caller whether the address
      is registered. */
  lemma UnknownAddressDistinguishable(s1: Store, s2: Store, a: Auth, now: int, email: string, password: string,
                                      tokenOk: bool, k: Key)
    requires ArgsOk(email, password)
    requires Select(Docs(s1, Users), ByEmail(Normalize(email))) == {}
    requires Select(Docs(s2, Users), ByEmail(Normalize(email))) == {k}
    requires StatusIs(Docs(s2, Users)[k], "active") && !Locked(Docs(s2, Users)[k], now)
    requires !PasswordMatches(Docs(s2, Users)[k], password)
    ensures LoginUser(s1, a, now, email, password, tokenOk).res == Err(Error(NotFound, BadCredentials))
    ensures LoginUser(s2, a, now, email, password, tokenOk).res == Err(Error(InvalidArgument, BadCredentials))
  {
    SingleRecordOutcome(s2, a, now, email, password, tokenOk, k);
  }

  // ---------------------------------------------------------------------
  // The lockout

  /** No record has reached the lockout threshold. Every record
      `createPendingUser` writes starts at zero attempts. */
  predicate BelowLockout(users: Coll) {
    forall k :: k in users ==> CountOf(users[k], "loginAttempts") < MaxAttempts
  }

  lemma SignedInBelowLockout(users: Coll, k: Key, now: int)
    requires BelowLockout(users) && k in users
    ensures BelowLockout(users[k := SignedIn(users[k], now)])
  {
    assert CountOf(SignedIn(users[k], now), "loginAttempts") == 0;
  }

  /** As written, no sign-in ever raises a counter: failures leave the
      store as it was and a success resets the counter. So from records
      below the threshold the lockout is never reported, whatever the
      sequence of calls. */
  lemma LockoutUnreachable(s: Store, a: Auth, now: int, email: string, password: string, tokenOk: bool)
    requires BelowLockout(Docs(s, Users))
    ensures var o := LoginUser(s, a, now, email, password, tokenOk);
      && BelowLockout(Docs(o.store, Users))
      && (o.res.Err? ==> o.res.error.code != ResourceExhausted)
  {
    var o := LoginUser(s, a, now, email, password, tokenOk);
    var users := Docs(s, Users);
    var r := Lookup(users, email, password);
    if r.Ok? {
      var k := r.value;
      assert !Locked(users[k], now);
      assert o == SignInOn(s, a, now, k, email, password, tokenOk, false);
      if o.res.Ok? {
        SignedInBelowLockout(users, k, now);
      }
    }
  }

  /** A run of sign-in calls with the same credentials at the given
      instants; a right password gets no token, so no call succeeds. */
  ghost function Attempts(s: Store, a: Auth, email: string, password: string, times: seq<int>,
                          keepFailures: bool): Store
    decreases |times|
  {
    if times == [] then s
    else Attempts(SignIn(s, a, times[0], email, password, false, keepFailures).store,
                  a, email, password, times[1..], keepFailures)
  }

  /** As written, a run of failed sign-ins leaves the store untouched. */
  lemma {:induction false} FailedAttemptsDiscarded(s: Store, a: Auth, email: string, password: string,
                                                   times: seq<int>)
    ensures Attempts(s, a, email, password, times, false) == s
    decreases |times|
  {
    if times != [] {
      FailedAttemptsDiscarded(s, a, email, password, times[1..]);
    }
  }

  /** As written, five wrong passwords in a row on an active account are
      followed by a sixth plain refusal, never by the lockout. */
  lemma SixthFailureNotLocked(s: Store, a: Auth, email: string, password: string, times: seq<int>,
                              now: int, tokenOk: bool, k: Key)
    requires ArgsOk(email, password)
    requires Select(Docs(s, Users), ByEmail(Normalize(email))) == {k}
    requires StatusIs(Docs(s, Users)[k], "active") && !PasswordMatches(Docs(s, Users)[k], password)
    requires CountOf(Docs(s, Users)[k], "loginAttempts") == 0
    requires |times| == MaxAttempts
    ensures LoginUser(Attempts(s, a, email, password, times, false), a, now, email, password, tokenOk).res
         == Err(Error(InvalidArgument, BadCredentials))
  {
    FailedAttemptsDiscarded(s, a, email, password, times);
    SingleRecordOutcome(s, a, now, email, password, tokenOk, k);
  }

  /** `k` is the single record for the address: active, with a password
      other than the one given, and `n` failures counted. */
  predicate FailingRecord(users: Coll, key: string, k: Key, password: string, n: int) {
    && Select(users, ByEmail(key)) == {k}
    && StatusIs(users[k], "active") && !PasswordMatches(users[k], password)
    && CountOf(users[k], "loginAttempts") == n
  }

  /** With failures recorded, one wrong password on the single record of
      an address counts one attempt and stamps it. */
  lemma CountedFailureStep(s: Store, a: Auth, now: int, email: string, password: string, k: Key, n: int)
    requires ArgsOk(email, password)
    requires FailingRecord(Docs(s, Users), Normalize(email), k, password, n) && n < MaxAttempts
    ensures var o := SignIn(s, a, now, email, password, false, true);
      && o.res == Err(Error(InvalidArgument, BadCredentials))
      && FailingRecord(Docs(o.store, Users), Normalize(email), k, password, n + 1)
      && TimeOf(Docs(o.store, Users)[k], "lastLoginAttempt") == Some(now)
  {
    var users := Docs(s, Users);
    var q := ByEmail(Normalize(email));
    assert k in Select(users, q);
    assert !Locked(users[k], now);
    FailedAttemptShape(users[k], now, Normalize(email), password);
    SelectPut(users, k, FailedAttempt(users[k], now), q);
  }

  /** With failures recorded, a run of wrong passwords on an active account
      that stays below the threshold counts every one of them. */
  lemma {:induction false} CountedAttempts(s: Store, a: Auth, email: string, password: string,
                                           times: seq<int>, k: Key, n: int)
    requires ArgsOk(email, password)
    requires FailingRecord(Docs(s, Users), Normalize(email), k, password, n)
    requires n + |times| <= MaxAttempts
    ensures var after := Docs(Attempts(s, a, email, password, times, true), Users);
      && FailingRecord(after, Normalize(email), k, password, n + |times|)
      && (times != [] ==> TimeOf(after[k], "lastLoginAttempt") == Some(times[|times| - 1]))
    decreases |times|
  {
    if times != [] {
      CountedFailureStep(s, a, times[0], email, password, k, n);
      var next := SignIn(s, a, times[0], email, password, false, true).store;
      assert Attempts(s, a, email, password, times, true) == Attempts(next, a, email, password, times[1..], true);
      CountedAttempts(next, a, email, password, times[1..], k, n + 1);
      if |times| > 1 {
        assert times[1..][|times[1..]| - 1] == times[|times| - 1];
      }
    }
  }

  /** With failures recorded, five wrong passwords lock the account: a sixth
      call within the window of the fifth is refused whatever password it
      carries. */
  lemma FifthFailureLocks(s: Store, a: Auth, email: string, wrong: string, times: seq<int>,
                          now: int, password: string, tokenOk: bool, k: Key)
    requires ArgsOk(email, wrong) && password != ""
    requires Select(Docs(s, Users), ByEmail(Normalize(email))) == {k}
    requires StatusIs(Docs(s, Users)[k], "active") && !PasswordMatches(Docs(s, Users)[k], wrong)
    requires CountOf(Docs(s, Users)[k], "loginAttempts") == 0
    requires |times| == MaxAttempts && now < times[MaxAttempts - 1] + LockWindow
    ensures LoginUserCommitsFailures(Attempts(s, a, email, wrong, times, true), a, now, email, password, tokenOk).res
         == Err(Error(ResourceExhausted, TemporarilyLocked))
  {
    CountedAttempts(s, a, email, wrong, times, k, 0);
    var s' := Attempts(s, a, email, wrong, times, true);
    var after := Docs(s', Users);
    assert k in Select(after, ByEmail(Normalize(email)));
    assert Lookup(after, email, password) == Ok(k);
    assert Locked(after[k], now);
    assert LoginUserCommitsFailures(s', a, now, email, password, tokenOk)
        == SignInOn(s', a, now, k, email, password, tokenOk, true);
  }

  // ---------------------------------------------------------------------
  // The streak

  /** For a sign-in after the previous one: a second sign-in the same day
      leaves the streak alone, two or more calendar days later resets it,
      and it only grows on the next calendar day. */
  lemma StreakRule(d: Doc, t: int, now: int)
    requires TimeOf(d, "lastLogin") == Some(t) && t <= now
    ensures DayOf(t) == DayOf(now) ==> NextStreak(d, now).None?
    ensures DayOf(now) >= DayOf(t) + 2 ==> NextStreak(d, now) == Some(1)
    ensures NextStreak(d, now) == Some(CountOf(d, "loginStreak") + 1) && CountOf(d, "loginStreak") != 0 ==>
      DayOf(now) == DayOf(t) + 1
  {
    var q, r := t / Day, t % Day;
    var q', r' := now / Day, now % Day;
    assert t == q * Day + r && 0 <= r < Day;
    assert now == q' * Day + r' && 0 <= r' < Day;
    if q' >= q + 2 {
      assert q' * Day >= q * Day + 2 * Day;
    }
  }

  /** Two sign-ins on the same calendar day: the second leaves the streak
      the first wrote and counts one more sign-in. */
  lemma SameDaySignInsKeepStreak(d: Doc, t1: int, t2: int)
    requires t1 <= t2 && DayOf(t1) == DayOf(t2)
    ensures var d1 := SignedIn(d, t1);
      var d2 := SignedIn(d1, t2);
      && CountOf(d2, "loginStreak") == CountOf(d1, "loginStreak")
      && CountOf(d2, "totalLogins") == CountOf(d, "totalLogins") + 2
      && CountOf(d2, "loginAttempts") == 0
  {
    var d1 := SignedIn(d, t1);
    assert TimeOf(d1, "lastLogin") == Some(t1);
    StreakRule(d1, t1, t2);
  }

  /** A sign-in on the calendar day after the previous one, within 24 hours
      of it, grows the streak by one. */
  lemma NextDaySignInGrowsStreak(d: Doc, t1: int, t2: int)
    requires t1 <= t2 && t2 - Day <= t1 && DayOf(t2) == DayOf(t1) + 1
    ensures var d1 := SignedIn(d, t1);
      var d2 := SignedIn(d1, t2);
      CountOf(d2, "loginStreak") == CountOf(d1, "loginStreak") + 1
  {
    var d1 := SignedIn(d, t1);
    assert TimeOf(d1, "lastLogin") == Some(t1);
    assert NextStreak(d1, t2) == Some(CountOf(d1, "loginStreak") + 1);
  }

  /** Consecutive calendar days do not always grow the streak: a sign-in
      just after midnight and the next one just before the following
      midnight are more than 24 hours apart, so the streak restarts. */
  lemma ConsecutiveDaysCanReset(d: Doc)
    requires TimeOf(d, "lastLogin") == Some(0)
    ensures DayOf(2 * Day - 1) == DayOf(0) + 1
    ensures NextStreak(d, 2 * Day - 1) == Some(1)
  {
  }

  // ---------------------------------------------------------------------
  // Records the other callables leave behind

  /** A record activated by `completeStudentRegistration` holds no password,
      so this sign-in refuses it with the wrong-password error. */
  lemma ActivatedAccountCannotSignIn(p: Doc, uid: Uid, email: string, t0: int, now: int, password: string)
    requires CountOf(p, "loginAttempts") < MaxAttempts
    ensures Rejection(ActiveRecord(p, uid, email, t0), now, password) == Some(Error(InvalidArgument, BadCredentials))
  {
    var d := ActiveRecord(p, uid, email, t0);
    ActiveRecordShape(p, uid, email, t0);
    assert "loginAttempts" !in SecretFields && "loginAttempts" !in ActivationFields;
    assert CountOf(d, "loginAttempts") == CountOf(p, "loginAttempts");
  }

  /** A record whose code was reissued is pending again, so sign-in refuses
      it as unverified. */
  lemma ReissuedCannotSignIn(d: Doc, code: nat, t0: int, now: int, password: string)
    ensures Rejection(Reissued(d, code, t0), now, password) == Some(Error(FailedPrecondition, NotVerified))
  {
  }
}

=== FILE: migration.dfy ===
/** The one-off migration from studentId-keyed account records to records
    keyed by the identity provider's uid (`UidMigration`), with the rewrite
    of the references other collections hold. */
module Migration {
  import opened Values
  import opened Firestore

  /** The (collection, field) pairs whose value is rewritten from the old
      record key to the uid, in order. */
  const MigrationRefs: Registry := [
    Ref("userAchievements", "userId"),
    Ref("studentQuizzes", "studentId"),
    Ref("studentModules", "studentId"),
    Ref("messages", "senderId"),
    Ref("messages", "recipientId"),
    Ref("assignmentSubmissions", "studentId"),
    Ref("enrollments", "userId"),
    Ref("userPreferences", "userId"),
    Ref("userActivity", "userId")]

  /** Entries naming a plain field outside the account records, none of
      them the timestamp the rewrite also sets, and no entry listed twice. */
  predicate FieldRegistry(reg: Registry) {
    && (forall i :: 0 <= i < |reg| ==> reg[i].Ref? && reg[i].coll != Users && reg[i].field != "updatedAt")
    && (forall i, j :: 0 <= i < j < |reg| ==> reg[i] != reg[j])
  }

  lemma MigrationRefsWellFormed()
    ensures FieldRegistry(MigrationRefs)
  {
  }

  // ---------------------------------------------------------------------
  // Rewriting references

  /** The entries of `reg` whose collection fails. */
  function FailedEntries(reg: Registry, failing: set<string>): (n: nat)
    ensures n <= |reg|
  {
    if reg == [] then 0
    else (if reg[0].coll in failing then 1 else 0) + FailedEntries(reg[1..], failing)
  }

  /** `migrateRelatedCollections`: for each entry, one batch setting the
      field to `to` on every document where it equals `from`. A failing
      collection is recorded as an error and the run goes on. Returns the
      store and the number of errors. */
  function RekeyRefs(s: Store, reg: Registry, from: string, to: string, now: int,
                     failing: set<string>): (r: (Store, nat))
    requires FieldRegistry(reg)
    ensures r.1 == FailedEntries(reg, failing)
    decreases |reg|
  {
    if reg == [] then (s, 0)
    else
      assert FieldRegistry(reg[1..]) by {
        forall i | 0 <= i < |reg[1..]| ensures reg[1..][i] == reg[i + 1] { }
      }
      if reg[0].coll in failing then
        var r := RekeyRefs(s, reg[1..], from, to, now, failing);
        (r.0, r.1 + 1)
      else
        RekeyRefs(RewriteRefs(s, reg[0].coll, reg[0].field, Str(from), Str(to), now), reg[1..], from, to, now, failing)
  }

  /** Rewriting one field never makes another field match a value it did
      not match. */
  lemma RewriteKeepsOtherField(s: Store, c': string, f': string, from: Value, to: Value, now: int,
                               c: string, f: string, v: Value)
    requires c' != c || f' != f
    requires f != "updatedAt"
    ensures Select(Docs(RewriteRefs(s, c', f', from, to, now), c), [Eq(f, v)]) <= Select(Docs(s, c), [Eq(f, v)])
  {
    var after := Docs(RewriteRefs(s, c', f', from, to, now), c);
    forall k | k in Select(after, [Eq(f, v)]) ensures k in Select(Docs(s, c), [Eq(f, v)]) {
      MatchesOne(after[k], Eq(f, v));
      MatchesOne(Docs(s, c)[k], Eq(f, v));
    }
  }

  /** A run that never names `(c, f)` never makes a document of `c` match
      `f == v`. */
  lemma {:induction false} RekeyKeepsAbsent(s: Store, reg: Registry, from: string, to: string, now: int,
                                            failing: set<string>, c: string, f: string, v: Value)
    requires FieldRegistry(reg) && f != "updatedAt"
    requires forall j :: 0 <= j < |reg| ==> reg[j] != Ref(c, f)
    ensures Select(Docs(RekeyRefs(s, reg, from, to, now, failing).0, c), [Eq(f, v)]) <= Select(Docs(s, c), [Eq(f, v)])
    decreases |reg|
  {
    if reg != [] {
      assert FieldRegistry(reg[1..]) by {
        forall i | 0 <= i < |reg[1..]| ensures reg[1..][i] == reg[i + 1] { }
      }
      assert forall j :: 0 <= j < |reg[1..]| ==> reg[1..][j] == reg[j + 1];
      if reg[0].coll in failing {
        RekeyKeepsAbsent(s, reg[1..], from, to, now, failing, c, f, v);
      } else {
        var s1 := RewriteRefs(s, reg[0].coll, reg[0].field, Str(from), Str(to), now);
        RewriteKeepsOtherField(s, reg[0].coll, reg[0].field, Str(from), Str(to), now, c, f, v);
        RekeyKeepsAbsent(s1, reg[1..], from, to, now, failing, c, f, v);
      }
    }
  }

  /** After the run no document of a non-failing entry still refers to the
      old key. */
  lemma {:induction false} RekeyClears(s: Store, reg: Registry, from: string, to: string, now: int,
                                       failing: set<string>, i: int)
    requires FieldRegistry(reg) && from != to
    requires 0 <= i < |reg| && reg[i].coll !in failing
    ensures Select(Docs(RekeyRefs(s, reg, from, to, now, failing).0, reg[i].coll), [Eq(reg[i].field, Str(from))]) == {}
    decreases |reg|
  {
    assert FieldRegistry(reg[1..]) by {
      forall j | 0 <= j < |reg[1..]| ensures reg[1..][j] == reg[j + 1] { }
    }
    if i == 0 {
      var s1 := RewriteRefs(s, reg[0].coll, reg[0].field, Str(from), Str(to), now);
      RewriteRemovesOld(s, reg[0].coll, reg[0].field, Str(from), Str(to), now);
      forall j | 0 <= j < |reg[1..]| ensures reg[1..][j] != Ref(reg[0].coll, reg[0].field) {
        assert reg[1..][j] == reg[j + 1];
      }
      RekeyKeepsAbsent(s1, reg[1..], from, to, now, failing, reg[0].coll, reg[0].field, Str(from));
    } else {
      assert reg[1..][i - 1] == reg[i];
      if reg[0].coll in failing {
        RekeyClears(s, reg[1..], from, to, now, failing, i - 1);
      } else {
        RekeyClears(RewriteRefs(s, reg[0].coll, reg[0].field, Str(from), Str(to), now), reg[1..], from, to, now,
                    failing, i - 1);
      }
    }
  }

  /** A document that refers to the old key in none of the run's fields is
      left exactly as it was. */
  lemma {:induction false} RekeyKeeps(s: Store, reg: Registry, from: string, to: string, now: int,
                                      failing: set<string>, c: string, k: Key)
    requires FieldRegistry(reg)
    requires k in Docs(s, c)
    requires forall j :: 0 <= j < |reg| && reg[j].coll == c ==> !Holds(Docs(s, c)[k], Eq(reg[j].field, Str(from)))
    ensures var after := Docs(RekeyRefs(s, reg, from, to, now, failing).0, c);
      k in after && after[k] == Docs(s, c)[k]
    decreases |reg|
  {
    if reg != [] {
      assert FieldRegistry(reg[1..]) by {
        forall i | 0 <= i < |reg[1..]| ensures reg[1..][i] == reg[i + 1] { }
      }
      assert forall j :: 0 <= j < |reg[1..]| ==> reg[1..][j] == reg[j + 1];
      if reg[0].coll in failing {
        RekeyKeeps(s, reg[1..], from, to, now, failing, c, k);
      } else {
        var s1 := RewriteRefs(s, reg[0].coll, reg[0].field, Str(from), Str(to), now);
        assert Docs(s1, c)[k] == Docs(s, c)[k];
        RekeyKeeps(s1, reg[1..], from, to, now, failing, c, k);
      }
    }
  }

  // ---------------------------------------------------------------------
  // Migrating one record

  /** How a record's migration is logged. */
  datatype Status = Skipped | AlreadyCorrect | Migrated

  /** The identity-provider account a record belongs to: looked up by its
      address first, then by its uid field. A lookup that throws (no such
      account, or an argument the provider rejects) counts as not found. */
  ghost function ResolveAuth(d: Doc, a: Auth): (r: Option<Uid>)
    ensures r.Some? ==> r.value in a
  {
    var byEmail := if Has(d, "email") && d["email"].Str? then UidByEmail(a, d["email"].s) else None;
    if byEmail.Some? then byEmail
    else if Has(d, "uid") && IsUid(d["uid"]) && d["uid"].s in a then Some(d["uid"].s)
    else None
  }

  /** The record written under the uid: the old data with the uid field. */
  function Rekeyed(d: Doc, uid: Uid, now: int): Doc {
    d + map["uid" := Str(uid), "updatedAt" := Time(now)]
  }

  /** The result of one `migrateUser` call: the store, the log entry (none
      when it threw), and the errors it recorded. */
  datatype Outcome = Outcome(store: Store, entry: Option<Status>, errors: nat)

  /** `migrateUser` for the record `d` read under key `k`. */
  ghost function MigrateUser(s: Store, a: Auth, reg: Registry, k: Key, d: Doc, now: int, failing: set<string>): (o: Outcome)
    requires FieldRegistry(reg)
    ensures ResolveAuth(d, a).None? ==> o == Outcome(s, Some(Skipped), 0)
    ensures ResolveAuth(d, a) == Some(k) ==>
      && (forall c :: c != Users ==> Docs(o.store, c) == Docs(s, c))
      && (o.entry.Some? ==> o.entry == Some(AlreadyCorrect) && o.errors == 0)
      && (o.entry.None? <==> !Has(d, "uid") && k !in Docs(s, Users))
      && ((Has(d, "uid") || k !in Docs(s, Users)) ==> o.store == s)
      && Docs(o.store, Users) - {k} == Docs(s, Users) - {k}
      && (k in Docs(s, Users) ==>
            k in Docs(o.store, Users)
            && (Docs(o.store, Users)[k] == Docs(s, Users)[k]
                || Docs(o.store, Users)[k] == Docs(s, Users)[k]["uid" := Str(k)]))
    ensures (ResolveAuth(d, a).Some? && ResolveAuth(d, a) != Some(k)) ==>
      var uid := ResolveAuth(d, a).value;
      && o.entry == Some(Migrated)
      && Docs(o.store, Users) == Docs(s, Users)[uid := Rekeyed(d, uid, now)] - {k}
      && o.errors == FailedEntries(reg, failing)
  {
    match ResolveAuth(d, a)
    case None => Outcome(s, Some(Skipped), 0)
    case Some(uid) =>
      if k == uid then
        if Has(d, "uid") then Outcome(s, Some(AlreadyCorrect), 0)
        // `update` of a record deleted since the snapshot throws
        else if uid !in Docs(s, Users) then Outcome(s, None, 1)
        else Outcome(Patch(s, Users, uid, map["uid" := Str(uid)]), Some(AlreadyCorrect), 0)
      else Move(s, reg, k, uid, d, now, failing)
  }

  /** The rekeying branch of `migrateUser`: the record is written under
      the uid, the old key is deleted, and the references are rewritten. */
  function Move(s: Store, reg: Registry, k: Key, uid: Uid, d: Doc, now: int, failing: set<string>): (o: Outcome)
    requires FieldRegistry(reg)
    ensures o.entry == Some(Migrated)
    ensures Docs(o.store, Users) == Docs(s, Users)[uid := Rekeyed(d, uid, now)] - {k}
    ensures o.errors == FailedEntries(reg, failing)
  {
    var s1 := Remove(Put(s, Users, uid, Rekeyed(d, uid, now)), Users, k);
    var r := RekeyRefs(s1, reg, k, uid, now, failing);
    assert Docs(r.0, Users) == Docs(s1, Users) by {
      RekeyUsersUntouched(s1, reg, k, uid, now, failing);
    }
    Outcome(r.0, Some(Migrated), r.1)
  }

  /** The reference rewrite never touches the account records. */
  lemma {:induction false} RekeyUsersUntouched(s: Store, reg: Registry, from: string, to: string, now: int,
                                               failing: set<string>)
    requires FieldRegistry(reg)
    ensures Docs(RekeyRefs(s, reg, from, to, now, failing).0, Users) == Docs(s, Users)
    decreases |reg|
  {
    if reg != [] {
      assert FieldRegistry(reg[1..]) by {
        forall i | 0 <= i < |reg[1..]| ensures reg[1..][i] == reg[i + 1] { }
      }
      assert forall j :: 0 <= j < |reg[1..]| ==> reg[1..][j] == reg[j + 1];
      if reg[0].coll in failing {
        RekeyUsersUntouched(s, reg[1..], from, to, now, failing);
      } else {
        RekeyUsersUntouched(RewriteRefs(s, reg[0].coll, reg[0].field, Str(from), Str(to), now),
                            reg[1..], from, to, now, failing);
      }
    }
  }

  /** A rekeyed record rewritten from `k` leaves no reference to `k` in the
      collections whose rewrite went through. */
  lemma MigrateUserClearsRefs(s: Store, a: Auth, reg: Registry, k: Key, d: Doc, now: int,
                               failing: set<string>, i: int)
    requires FieldRegistry(reg)
    requires ResolveAuth(d, a).Some? && ResolveAuth(d, a) != Some(k)
    requires 0 <= i < |reg| && reg[i].coll !in failing
    ensures Select(Docs(MigrateUser(s, a, reg, k, d, now, failing).store, reg[i].coll),
                   [Eq(reg[i].field, Str(k))]) == {}
  {
    var uid := ResolveAuth(d, a).value;
    var s1 := Remove(Put(s, Users, uid, Rekeyed(d, uid, now)), Users, k);
    RekeyClears(s1, reg, k, uid, now, failing, i);
  }

  /** Migrating is idempotent: the record a migration wrote resolves to the
      same account, so a second pass takes the already-correct branch and
      writes nothing. */
  lemma SecondPassRekeysNothing(s: Store, a: Auth, reg: Registry, k: Key, d: Doc, now: int, later: int,
                                failing: set<string>, s': Store)
    requires FieldRegistry(reg)
    requires ResolveAuth(d, a).Some? && ResolveAuth(d, a) != Some(k)
    requires forall u :: u in a ==> IsUid(Str(u))
    ensures var uid := ResolveAuth(d, a).value;
      var d' := Rekeyed(d, uid, now);
      MigrateUser(s', a, reg, uid, d', later, failing) == Outcome(s', Some(AlreadyCorrect), 0)
  {
    var uid := ResolveAuth(d, a).value;
    var d' := Rekeyed(d, uid, now);
    assert Has(d', "email") == Has(d, "email");
    assert Has(d', "email") ==> d'["email"] == d["email"];
    assert IsUid(Str(uid));
    assert ResolveAuth(d', a) == Some(uid);
  }

  // ---------------------------------------------------------------------
  // The whole run

  /** What a run leaves: the store, the log in processing order, and the
      errors recorded for records and for collections. */
  datatype Report = Report(store: Store, log: seq<Status>, recordErrors: nat, collectionErrors: nat)

  /** `migrateAllUsers` over the records listed in `keys`, read from the
      snapshot `snap`. Each record either logs one entry or records one
      error. */
  ghost function MigrateRecords(snap: Coll, keys: seq<Key>, s: Store, a: Auth, reg: Registry, now: int,
                                failing: set<string>): (r: Report)
    requires FieldRegistry(reg)
    requires forall i :: 0 <= i < |keys| ==> keys[i] in snap
    ensures |r.log| + r.recordErrors == |keys|
    decreases |keys|
  {
    if keys == [] then Report(s, [], 0, 0)
    else
      var o := MigrateUser(s, a, reg, keys[0], snap[keys[0]], now, failing);
      var rest := MigrateRecords(snap, keys[1..], o.store, a, reg, now, failing);
      match o.entry
      case Some(st) => rest.(log := [st] + rest.log, collectionErrors := rest.collectionErrors + o.errors)
      case None => rest.(recordErrors := rest.recordErrors + 1, collectionErrors := rest.collectionErrors + o.errors)
  }

  /** `migrateAllUsers`: every account record, in an unspecified order. */
  ghost function MigrateAllUsers(s: Store, a: Auth, now: int, failing: set<string>): (r: Report)
    ensures |r.log| + r.recordErrors == |Docs(s, Users)|
  {
    var keys := Enumerate(Docs(s, Users).Keys);
    MigrationRefsWellFormed();
    MigrateRecords(Docs(s, Users), keys, s, a, MigrationRefs, now, failing)
  }

  function CountOfStatus(log: seq<Status>, st: Status): (n: nat)
    ensures n <= |log|
  {
    if log == [] then 0 else (if log[0] == st then 1 else 0) + CountOfStatus(log[1..], st)
  }

  /** `printSummary`'s counts. */
  datatype Summary = Summary(total: nat, migrated: nat, alreadyCorrect: nat, skipped: nat, errors: nat)

  function Summarize(r: Report): (m: Summary)
    ensures m.migrated + m.alreadyCorrect + m.skipped == m.total == |r.log|
  {
    StatusCountsPartition(r.log);
    Summary(|r.log|, CountOfStatus(r.log, Migrated), CountOfStatus(r.log, AlreadyCorrect),
            CountOfStatus(r.log, Skipped), r.recordErrors + r.collectionErrors)
  }

  /** The three status counts partition the log. */
  lemma {:induction false} StatusCountsPartition(log: seq<Status>)
    ensures CountOfStatus(log, Migrated) + CountOfStatus(log, AlreadyCorrect) + CountOfStatus(log, Skipped) == |log|
  {
    if log != [] {
      StatusCountsPartition(log[1..]);
    }
  }

  /** The summary's counts add up: every processed record is migrated,
      already correct, skipped or an error. */
  lemma SummaryAddsUp(s: Store, a: Auth, now: int, failing: set<string>)
    ensures var r := MigrateAllUsers(s, a, now, failing);
      var sum := Summarize(r);
      && sum.migrated + sum.alreadyCorrect + sum.skipped == sum.total
      && sum.total + r.recordErrors == |Docs(s, Users)|
  {
    StatusCountsPartition(MigrateAllUsers(s, a, now, failing).log);
  }
}

=== FILE: registration.dfy ===
/** The registration callables of the account service: a pending record keyed
    by the normalised e-mail address, the verification step that turns it
    into an active account keyed by the identity provider's uid, and the two
    ways of issuing a fresh verification code. */
module Registration {
  import opened Values
  import opened Firestore

  /** A code from a new registration is valid for 15 minutes. */
  const PendingTtl: int := 15 * Minute
  /** A resent registration code is valid for 24 hours. */
  const ResendTtl: int := 24 * Hour
  /** A code from the uid-or-email resend is valid for 10 minutes. */
  const CodeTtl: int := 10 * Minute
  /** At most this many resends ... */
  const ResendQuota: int := 3
  /** ... while the last one lies within this window. */
  const ResendWindow: int := Hour
  const MinPassword: int := 6

  /** The profile fields a registration copies as given; an absent one is
      left out of the record. */
  const ProfileFields: set<string> :=
    {"age", "gender", "course", "section", "height", "weight", "BMI", "BMI_result"}

  /** A registration request. An absent string field is "", an absent `year`
      is `Null`. */
  datatype Request = Request(
    email: string, password: string,
    firstName: string, middleName: string, lastName: string,
    year: Value, profile: Doc)

  /** `year.toString()` is one of "1", "2", "3", "4". */
  predicate ValidYear(y: Value) {
    (y.Num? && 1 <= y.n <= 4) || (y.Str? && y.s in {"1", "2", "3", "4"})
  }

  /** The checks made before `year` is looked at. */
  predicate WellFormed(req: Request) {
    req.email != "" && req.password != "" && req.firstName != "" && req.lastName != ""
    && IsEmailFormat(req.email) && Utf16Length(req.password) >= MinPassword
  }

  predicate RequestValid(req: Request) {
    WellFormed(req) && ValidYear(req.year)
  }

  /** The text of a code the generator can draw. */
  predicate IsCode(v: Value) {
    exists c: nat | CodeLow <= c <= CodeHigh :: v == Str(Decimal(c))
  }

  /** A record a registration has just written for `email` at time `now`. */
  predicate IsFreshPending(d: Doc, email: string, now: int) {
    "email" in d && d["email"] == Str(email)
    && StatusIs(d, "pending")
    && "emailVerified" in d && d["emailVerified"] == Bool(false)
    && "loginAttempts" in d && d["loginAttempts"] == Num(0)
    && "verificationExpiry" in d && d["verificationExpiry"] == Time(now + PendingTtl)
    && "verificationCode" in d && IsCode(d["verificationCode"])
    && "uid" !in d
  }

  function FullName(first: string, middle: string, last: string): string {
    Trim(Trim(first) + " " + (if middle != "" then Trim(middle) + " " else "") + Trim(last))
  }

  datatype Names = Names(first: string, middle: string, last: string, full: string)

  /** The trimmed names and the display name built from them. */
  function CleanNames(req: Request): Names {
    Names(Trim(req.firstName), if req.middleName != "" then Trim(req.middleName) else "",
          Trim(req.lastName), FullName(req.firstName, req.middleName, req.lastName))
  }

  /** The request carries every profile field. The store rejects a
      document holding an undefined value, so a registration missing one of
      them fails when the record is written. */
  predicate ProfileComplete(req: Request) {
    ProfileFields <= req.profile.Keys
  }

  /** The fields of a pending record that carry the account's state. */
  function StateFields(key: string, password: string, code: nat, now: int): Doc {
    map[
      "email" := Str(key),
      "password" := Str(password),
      "accountStatus" := Str("pending"),
      "emailVerified" := Bool(false),
      "verificationCode" := Str(Decimal(code)),
      "verificationExpiry" := Time(now + PendingTtl),
      "loginAttempts" := Num(0)]
  }

  /** The names, the year and the starting values of the other fields. */
  function StartFields(names: Names, year: Value, now: int): Doc {
    map[
      "firstName" := Str(names.first),
      "middleName" := Str(names.middle),
      "lastName" := Str(names.last),
      "fullName" := Str(names.full),
      "year" := year,
      "isStudent" := Bool(true),
      "role" := Str("student"),
      "createdAt" := Time(now),
      "updatedAt" := Time(now),
      "profileCompleted" := Bool(true),
      "isActive" := Bool(false),
      "lastLogin" := Null,
      "loginStreak" := Num(0),
      "totalLogins" := Num(0),
      "lastLoginAttempt" := Null,
      "preferences.theme" := Str("light"),
      "preferences.notifications" := Bool(true),
      "preferences.language" := Str("en")]
  }

  function ProfileOf(req: Request): Doc
    requires ProfileComplete(req)
  {
    map f | f in ProfileFields :: req.profile[f]
  }

  /** The pending record of a registration, stored under the normalised
      address `key`. */
  function PendingRecord(req: Request, names: Names, key: string, code: nat, now: int): (d: Doc)
    requires ProfileComplete(req)
  {
    StartFields(names, req.year, now) + ProfileOf(req) + StateFields(key, req.password, code, now)
  }

  lemma NoUidField(req: Request, names: Names, key: string, code: nat, now: int)
    requires ProfileComplete(req)
    ensures "uid" !in StartFields(names, req.year, now)
    ensures "uid" !in ProfileOf(req)
    ensures "uid" !in StateFields(key, req.password, code, now)
  {
  }

  /** A record carries a registration request as given: its profile
      fields, the cleaned names, the year, and sign-in counters at zero. */
  predicate CarriesRequest(d: Doc, req: Request, names: Names) {
    && (forall f :: f in ProfileFields ==> f in d && f in req.profile && d[f] == req.profile[f])
    && "firstName" in d && d["firstName"] == Str(names.first)
    && "middleName" in d && d["middleName"] == Str(names.middle)
    && "lastName" in d && d["lastName"] == Str(names.last)
    && "fullName" in d && d["fullName"] == Str(names.full)
    && "year" in d && d["year"] == req.year
    && "loginStreak" in d && d["loginStreak"] == Num(0)
    && "totalLogins" in d && d["totalLogins"] == Num(0)
  }

  /** The fields of a pending record that hold the request's names, its
      year and the sign-in counters. */
  const RequestCopies: set<string> :=
    {"firstName", "middleName", "lastName", "fullName", "year", "loginStreak", "totalLogins"}

  /** The profile fields, the copied fields and the state fields are three
      apart sets. */
  lemma PartsApart(key: string, password: string, code: nat, now: int)
    ensures forall f :: f in ProfileFields ==> f !in StateFields(key, password, code, now)
    ensures forall f :: f in RequestCopies ==> f !in ProfileFields && f !in StateFields(key, password, code, now)
  {
  }

  /** The starting fields hold the names, the year and zero counters. */
  lemma StartFieldsHold(names: Names, year: Value, now: int)
    ensures var m := StartFields(names, year, now);
      && RequestCopies <= m.Keys
      && m["firstName"] == Str(names.first) && m["middleName"] == Str(names.middle)
      && m["lastName"] == Str(names.last) && m["fullName"] == Str(names.full)
      && m["year"] == year && m["loginStreak"] == Num(0) && m["totalLogins"] == Num(0)
  {
  }

  /** Three apart parts, the middle one the request's profile and the first
      one holding the copied fields, make a record carrying the request. */
  lemma CarriesParts(start: Doc, profile: Doc, state: Doc, req: Request, names: Names)
    requires profile.Keys == ProfileFields
    requires forall f :: f in ProfileFields ==> f in req.profile && profile[f] == req.profile[f]
    requires forall f :: f in ProfileFields ==> f !in state
    requires forall f :: f in RequestCopies ==> f in start && f !in ProfileFields && f !in state
    requires start["firstName"] == Str(names.first) && start["middleName"] == Str(names.middle)
    requires start["lastName"] == Str(names.last) && start["fullName"] == Str(names.full)
    requires start["year"] == req.year && start["loginStreak"] == Num(0) && start["totalLogins"] == Num(0)
    ensures CarriesRequest(start + profile + state, req, names)
  {
    var d := start + profile + state;
    forall f | f in RequestCopies ensures f in d && d[f] == start[f] {
      assert f !in profile;
    }
  }

  /** A pending record has the shape a fresh registration promises, and
      carries the request's profile fields, names and year as given, with
      the sign-in counters at zero. */
  lemma PendingRecordShape(req: Request, names: Names, key: string, code: nat, now: int)
    requires ProfileComplete(req)
    requires CodeLow <= code <= CodeHigh
    ensures IsFreshPending(PendingRecord(req, names, key, code, now), key, now)
    ensures CarriesRequest(PendingRecord(req, names, key, code, now), req, names)
  {
    PendingRecordFresh(req, names, key, code, now);
    PartsApart(key, req.password, code, now);
    StartFieldsHold(names, req.year, now);
    CarriesParts(StartFields(names, req.year, now), ProfileOf(req), StateFields(key, req.password, code, now), req, names);
  }

  /** The state part of a pending record. */
  lemma PendingRecordFresh(req: Request, names: Names, key: string, code: nat, now: int)
    requires ProfileComplete(req)
    requires CodeLow <= code <= CodeHigh
    ensures IsFreshPending(PendingRecord(req, names, key, code, now), key, now)
  {
    var d := PendingRecord(req, names, key, code, now);
    NoUidField(req, names, key, code, now);
    assert d["verificationCode"] == Str(Decimal(code));
  }

  /** A document that blocks a new registration for the same address. */
  predicate Blocking(d: Doc) {
    StatusIs(d, "active") || StatusIs(d, "pending")
  }

  datatype Pending = Pending(email: string, emailError: bool)

  /** The request checks, in the order they are made; `None` when all pass.
      An absent `year` makes `year.toString()` throw, which is reported as an
      internal error. */
  function CheckRequest(req: Request): (e: Option<Error>)
    ensures e.None? <==> RequestValid(req)
    ensures !WellFormed(req) ==> e.Some? && e.value.code == InvalidArgument
    ensures WellFormed(req) && req.year.Null? ==> e.Some? && e.value.code == Internal
    ensures (WellFormed(req) && !req.year.Null? && !ValidYear(req.year)) ==> e.Some? && e.value.code == InvalidArgument
  {
    if req.email == "" || req.password == "" || req.firstName == "" || req.lastName == "" then
      Some(Error(InvalidArgument, MissingRegistrationFields))
    else if !IsEmailFormat(req.email) then
      Some(Error(InvalidArgument, InvalidEmailFormat))
    else if Utf16Length(req.password) < MinPassword then
      Some(Error(InvalidArgument, ShortPassword))
    else if req.year.Null? then
      Some(Error(Internal, RegistrationFailed))
    else if !ValidYear(req.year) then
      Some(Error(InvalidArgument, InvalidYear))
    else None
  }

  /** The minimum is counted in UTF-16 code units: three characters
      outside the Basic Multilingual Plane make a long enough password. */
  lemma ThreeAstralCharactersAreLongEnough(req: Request)
    requires req.password == "\U{1F600}\U{1F600}\U{1F600}"
    ensures |req.password| < MinPassword
    ensures CheckRequest(req).None? <==>
      req.email != "" && req.firstName != "" && req.lastName != ""
      && IsEmailFormat(req.email) && ValidYear(req.year)
  {
    var p := req.password;
    assert p[1..][1..][1..] == [];
    assert Utf16Length(p[1..][1..]) == 2;
    assert Utf16Length(p[1..]) == 4;
    assert Utf16Length(p) == 6;
  }

  /** `createPendingUser`. `code` is the drawn verification code and
      `mailSent` whether the verification mail went out; a failed mail only
      sets the reply's flag. */
  ghost function CreatePendingUser(s: Store, a: Auth, now: int, req: Request, code: nat, mailSent: bool)
    : (o: Step<Pending>)
    requires CodeLow <= code <= CodeHigh
    ensures o.auth == a
    ensures o.res.Err? ==> o.store == s
    ensures !RequestValid(req) ==> o.res.Err? && Some(o.res.error) == CheckRequest(req)
    ensures o.res.Ok? ==>
      var key := Normalize(req.email);
      && RequestValid(req) && ProfileComplete(req)
      && o.res.value == Pending(key, !mailSent)
      && key in Docs(o.store, Users)
      && IsFreshPending(Docs(o.store, Users)[key], key, now)
      && CarriesRequest(Docs(o.store, Users)[key], req, CleanNames(req))
      && Docs(o.store, Users) == Docs(s, Users)[key := Docs(o.store, Users)[key]]
      && (forall c :: c != Users ==> Docs(o.store, c) == Docs(s, c))
  {
    var key := Normalize(req.email);
    var res := PendingOutcome(Docs(s, Users), req, mailSent);
    if res.Ok? then
      PendingRecordShape(req, CleanNames(req), key, code, now);
      Step(Put(s, Users, key, PendingRecord(req, CleanNames(req), key, code, now)), a, res)
    else Step(s, a, res)
  }

  /** The reply of `createPendingUser` given the account records it reads. */
  ghost function PendingOutcome(users: Coll, req: Request, mailSent: bool): (r: Result<Pending>)
    ensures r.Ok? ==> RequestValid(req) && ProfileComplete(req) && r.value == Pending(Normalize(req.email), !mailSent)
  {
    match CheckRequest(req)
    case Some(e) => Err(e)
    case None =>
      var key := Normalize(req.email);
      var existing := First(users, ByEmail(key));
      if existing.Some? && StatusIs(users[existing.value], "active") then
        Err(Error(AlreadyExists, ActiveAccountExists))
      else if existing.Some? && StatusIs(users[existing.value], "pending") then
        Err(Error(AlreadyExists, RegistrationInProgress))
      else if !ProfileComplete(req) then
        Err(Error(Internal, RegistrationFailed))
      else
        Ok(Pending(key, !mailSent))
  }

  /** The duplicate check of a valid registration: no record for the address
      lets it through, records that are all active or pending stop it, and a
      registration that goes through found no record or one in another
      state. */
  lemma CreatePendingDuplicates(s: Store, a: Auth, now: int, req: Request, code: nat, mailSent: bool)
    requires CodeLow <= code <= CodeHigh
    requires RequestValid(req)
    ensures var o := CreatePendingUser(s, a, now, req, code, mailSent);
      var found := Select(Docs(s, Users), ByEmail(Normalize(req.email)));
      && (found == {} ==> (o.res.Ok? <==> ProfileComplete(req)))
      && ((found != {} && forall k :: k in found ==> Blocking(Docs(s, Users)[k]))
          ==> o.res.Err? && o.res.error.code == AlreadyExists)
      && (o.res.Ok? ==> found == {} || exists j :: j in found && !Blocking(Docs(s, Users)[j]))
  {
  }

  /** The deletion blacklist plays no part in a registration: adding an entry
      to it changes nothing about the outcome. */
  lemma CreatePendingIgnoresBlacklist(s: Store, a: Auth, now: int, req: Request, code: nat, mailSent: bool,
                                      k: Key, entry: Doc)
    requires CodeLow <= code <= CodeHigh
    ensures CreatePendingUser(Put(s, "deletedAccounts", k, entry), a, now, req, code, mailSent).res
         == CreatePendingUser(s, a, now, req, code, mailSent).res
  {
    assert Docs(Put(s, "deletedAccounts", k, entry), Users) == Docs(s, Users);
  }

  // ---------------------------------------------------------------------
  // Verification

  /** The documents a verification attempt accepts: a pending record for the
      address with the given code that has not yet expired. */
  function PendingMatch(key: string, code: string, now: int): Query {
    [Eq("email", Str(key)), Eq("accountStatus", Str("pending")),
     Eq("verificationCode", Str(code)), After("verificationExpiry", now)]
  }

  function ActiveByEmail(key: string): Query {
    [Eq("email", Str(key)), Eq("accountStatus", Str("active"))]
  }

  /** The failure kinds of the identity provider's `createUser` that the
      callable tells apart; `OtherFailure` stands for every other error,
      including the ones it recognises only by their message. */
  datatype AuthFailure =
    | ConfigurationMessage  // a failure whose message names the provider's configuration problem
    | EmailAlreadyExists | InvalidEmail | WeakPassword | ConfigurationExists | OtherFailure

  /** What the identity provider's `createUser` answered. */
  datatype AuthCreate = Created(uid: Uid) | AuthError(failure: AuthFailure)

  /** How a `createUser` failure is reported to the caller: a taken address
      as a duplicate, a rejected address or password as a bad argument, and
      anything else as an internal error. */
  function CreateUserError(f: AuthFailure): (e: Error)
    ensures e.code == AlreadyExists <==> f == EmailAlreadyExists
    ensures e.code == InvalidArgument <==> f in {InvalidEmail, WeakPassword}
    ensures e.code == Internal <==> f in {ConfigurationMessage, ConfigurationExists, OtherFailure}
  {
    match f
    case ConfigurationMessage => Error(Internal, AuthConfigurationCheck)
    case EmailAlreadyExists => Error(AlreadyExists, EmailAlreadyRegistered)
    case InvalidEmail => Error(InvalidArgument, InvalidEmailFormat)
    case WeakPassword => Error(InvalidArgument, PasswordTooWeak)
    case ConfigurationExists =>
      Error(Internal, AuthConfiguration)
    case OtherFailure =>
      Error(Internal, AccountCreationFailed)
  }

  /** The fields verification sets on the account record. */
  const ActivationFields: set<string> :=
    {"uid", "email", "accountStatus", "emailVerified", "verifiedAt", "updatedAt",
     "createdAt", "isActive", "lastLogin", "loginStreak", "totalLogins"}

  /** The arguments pass the checks made before the store is read. */
  predicate VerifyArgsOk(email: string, code: string) {
    code != "" && email != "" && IsEmailFormat(email)
  }

  /** An account record as verification leaves it. */
  predicate IsActiveRecord(d: Doc, uid: Uid, email: string) {
    "uid" in d && d["uid"] == Str(uid)
    && "email" in d && d["email"] == Str(email)
    && StatusIs(d, "active")
    && "emailVerified" in d && d["emailVerified"] == Bool(true)
    && "loginStreak" in d && d["loginStreak"] == Num(0)
    && "totalLogins" in d && d["totalLogins"] == Num(0)
    && "password" !in d && "verificationCode" !in d && "verificationExpiry" !in d
  }

  /** The fields verification removes from the record. */
  const SecretFields: set<string> := {"verificationCode", "verificationExpiry", "password"}

  /** The pending record `p` rewritten as an active account. */
  function ActiveRecord(p: Doc, uid: Uid, email: string, now: int): (d: Doc)
    ensures forall f :: f in p && f !in SecretFields && f !in ActivationFields ==> f in d && d[f] == p[f]
  {
    (p - SecretFields) + map[
      "verifiedAt" := Time(now),
      "updatedAt" := Time(now),
      "createdAt" := Time(now),
      "isActive" := Bool(true),
      "lastLogin" := Null,
      "uid" := Str(uid),
      "email" := Str(email),
      "accountStatus" := Str("active"),
      "emailVerified" := Bool(true),
      "loginStreak" := Num(0),
      "totalLogins" := Num(0)]
  }

  lemma ActiveRecordShape(p: Doc, uid: Uid, email: string, now: int)
    ensures IsActiveRecord(ActiveRecord(p, uid, email, now), uid, email)
  {
  }

  /** The display name is built from both names; a record whose name is not a
      string makes that throw before `createUser` is called. */
  predicate NamesPresent(d: Doc) {
    "firstName" in d && d["firstName"].Str? && "lastName" in d && d["lastName"].Str?
  }

  datatype Registered = Registered(uid: Uid)

  /** The argument checks of `completeStudentRegistration`, made before
      the store is read. */
  function CheckVerifyArgs(email: string, code: string): (e: Option<Error>)
    ensures e.None? <==> VerifyArgsOk(email, code)
    ensures e.Some? ==> e.value.code == InvalidArgument
    ensures (code == "" || email == "") ==> e == Some(Error(InvalidArgument, MissingCodeOrEmail))
  {
    if code == "" || email == "" then Some(Error(InvalidArgument, MissingCodeOrEmail))
    else if !IsEmailFormat(email) then Some(Error(InvalidArgument, InvalidEmailFormat))
    else None
  }

  /** The checks of `completeStudentRegistration` up to the call of
      `createUser`: the key of the pending record to activate, or the error
      the caller sees. */
  ghost function VerifyOutcome(users: Coll, now: int, email: string, code: string): (r: Result<Key>)
    ensures !VerifyArgsOk(email, code) ==> r.Err? && r.error.code == InvalidArgument
    ensures (VerifyArgsOk(email, code) && Select(users, PendingMatch(Normalize(email), code, now)) == {})
      ==> r.Err? && r.error.code == InvalidArgument
    ensures (VerifyArgsOk(email, code) && Select(users, PendingMatch(Normalize(email), code, now)) != {}
             && Select(users, ActiveByEmail(Normalize(email))) != {})
      ==> r.Err? && r.error.code == AlreadyExists
    ensures r.Ok? ==>
      && VerifyArgsOk(email, code)
      && r.value in Select(users, PendingMatch(Normalize(email), code, now))
      && Select(users, ActiveByEmail(Normalize(email))) == {}
  {
    if CheckVerifyArgs(email, code).Some? then Err(CheckVerifyArgs(email, code).value)
    else
      var key := Normalize(email);
      match First(users, PendingMatch(key, code, now))
      case None => Err(Error(InvalidArgument, InvalidOrExpiredCode))
      case Some(p) =>
        if Select(users, ActiveByEmail(key)) != {} then
          Err(Error(AlreadyExists, ActiveAccountExists))
        else if !NamesPresent(users[p]) then
          Err(Error(Internal, AccountCreationFailed))
        else Ok(p)
  }

  /** The transaction's two writes: the active record at the uid, then the
      deletion of the pending record. When the two keys coincide the
      deletion wins. */
  function Activate(s: Store, p: Key, uid: Uid, email: string, now: int): (r: Store)
    requires p in Docs(s, Users)
    ensures p !in Docs(r, Users)
    ensures p != uid ==> uid in Docs(r, Users) && Docs(r, Users)[uid] == ActiveRecord(Docs(s, Users)[p], uid, email, now)
    ensures forall k :: k in Docs(s, Users) && k != p && k != uid ==> k in Docs(r, Users) && Docs(r, Users)[k] == Docs(s, Users)[k]
    ensures forall k :: k in Docs(r, Users) ==> k in Docs(s, Users) || k == uid
    ensures forall c :: c != Users ==> Docs(r, c) == Docs(s, c)
  {
    Remove(Put(s, Users, uid, ActiveRecord(Docs(s, Users)[p], uid, email, now)), Users, p)
  }

  /** `completeStudentRegistration`. `created` is the identity provider's
      answer and `tokenOk` whether the custom sign-in token was issued. The
      identity account is created inside the transaction callback, so it
      outlives a later failure that discards the document writes. */
  ghost function CompleteStudentRegistration(s: Store, a: Auth, now: int, email: string, code: string,
                                             created: AuthCreate, tokenOk: bool): (o: Step<Registered>)
    ensures o.res.Err? ==> o.store == s
    ensures o.auth == a || (created.Created? && o.auth == a[created.uid := Normalize(email)])
    ensures VerifyOutcome(Docs(s, Users), now, email, code).Err? ==>
      o.auth == a && o.res == Err(VerifyOutcome(Docs(s, Users), now, email, code).error)
    ensures o.res.Ok? ==>
      && VerifyOutcome(Docs(s, Users), now, email, code).Ok?
      && created == Created(o.res.value.uid)
      && o.auth == a[o.res.value.uid := Normalize(email)]
      && o.store == Activate(s, VerifyOutcome(Docs(s, Users), now, email, code).value, o.res.value.uid, Normalize(email), now)
  {
    match VerifyOutcome(Docs(s, Users), now, email, code)
    case Err(e) => Step(s, a, Err(e))
    case Ok(p) =>
      match created
      case AuthError(c) => Step(s, a, Err(CreateUserError(c)))
      case Created(uid) =>
        var key := Normalize(email);
        var a' := a[uid := key];
        if !tokenOk then
          Step(s, a', Err(Error(Internal, CompletionFailed)))
        else
          Step(Activate(s, p, uid, key, now), a', Ok(Registered(uid)))
  }

  /** A verification that goes through found an unexpired pending record
      with the code and no active account for the address; it replaces that
      record with an active one under the new uid and registers the uid for
      the address, leaving every other record alone. */
  lemma CompleteRegistrationEffect(s: Store, a: Auth, now: int, email: string, code: string,
                                   created: AuthCreate, tokenOk: bool)
    ensures var o := CompleteStudentRegistration(s, a, now, email, code, created, tokenOk);
      o.res.Ok? ==>
        var key := Normalize(email);
        var uid := o.res.value.uid;
        var before := Docs(s, Users);
        var after := Docs(o.store, Users);
        && o.auth == a[uid := key]
        && Select(before, ActiveByEmail(key)) == {}
        && (exists p :: p in Select(before, PendingMatch(key, code, now)) && p !in after
              && (p != uid ==> uid in after && IsActiveRecord(after[uid], uid, key))
              && (forall k :: k in before && k != p && k != uid ==> k in after && after[k] == before[k]))
        && (forall k :: k in after ==> k in before || k == uid)
        && (forall c :: c != Users ==> Docs(o.store, c) == Docs(s, c))
  {
    var o := CompleteStudentRegistration(s, a, now, email, code, created, tokenOk);
    if o.res.Ok? {
      var p := VerifyOutcome(Docs(s, Users), now, email, code).value;
      ActiveRecordShape(Docs(s, Users)[p], o.res.value.uid, Normalize(email), now);
      assert p in Select(Docs(s, Users), PendingMatch(Normalize(email), code, now));
    }
  }

  /** A sign-in token failure after the identity account was created leaves
      an identity account with no account record: the record writes are
      discarded but the identity account stays. */
  lemma TokenFailureOrphansIdentity(s: Store, a: Auth, now: int, email: string, code: string, uid: Uid)
    requires VerifyOutcome(Docs(s, Users), now, email, code).Ok?
    requires uid !in a && uid !in Docs(s, Users)
    ensures var o := CompleteStudentRegistration(s, a, now, email, code, Created(uid), false);
      o.res.Err? && o.res.error.code == Internal && o.store == s
      && uid in o.auth && uid !in Docs(o.store, Users)
  {
  }

  // As written, the callable never gets past its pending-record query:
  // the query compares `verificationExpiry` with the server-timestamp
  // sentinel, which the server SDK refuses as a filter value. And were the
  // query to compare with the current time, the account record would be
  // written by a `set` without merge whose data holds the field-delete
  // sentinel, which the SDK refuses too, after `createUser` has run.
  // `CompleteStudentRegistration` above is the callable with both
  // corrected: the query compares with `now` and the secret fields are
  // left out of the written record.

  /** `completeStudentRegistration` as written: every call with well-formed
      arguments throws while building the query, and the error is reported
      as an internal completion failure. */
  function CompleteStudentRegistrationAsWritten(s: Store, a: Auth, email: string, code: string): (o: Step<Registered>)
    ensures o.store == s && o.auth == a && o.res.Err?
    ensures !VerifyArgsOk(email, code) ==> o.res.error.code == InvalidArgument
    ensures VerifyArgsOk(email, code) ==> o.res == Err(Error(Internal, CompletionFailed))
  {
    match CheckVerifyArgs(email, code)
    case Some(e) => Step(s, a, Err(e))
    case None => Step(s, a, Err(Error(Internal, CompletionFailed)))
  }

  /** Where the corrected callable activates an account, the callable as
      written leaves the store and the identity provider as they were. */
  lemma SentinelQueryBlocksRegistration(s: Store, a: Auth, now: int, email: string, code: string, uid: Uid)
    requires VerifyOutcome(Docs(s, Users), now, email, code).Ok?
    ensures var o := CompleteStudentRegistration(s, a, now, email, code, Created(uid), true);
      o.res == Ok(Registered(uid)) && o.auth == a[uid := Normalize(email)]
    ensures var w := CompleteStudentRegistrationAsWritten(s, a, email, code);
      w.res == Err(Error(Internal, CompletionFailed)) && w.store == s && w.auth == a
  {
  }

  /** The callable with the query corrected but the record still written
      with the field-delete sentinel: once the checks pass and `createUser`
      answers, the `set` throws, the document writes are discarded and the
      new identity account stays. */
  ghost function CompleteWithSentinelSet(s: Store, a: Auth, now: int, email: string, code: string,
                                         created: AuthCreate): (o: Step<Registered>)
    ensures o.store == s && o.res.Err?
    ensures VerifyOutcome(Docs(s, Users), now, email, code).Err? ==>
      o.auth == a && o.res == Err(VerifyOutcome(Docs(s, Users), now, email, code).error)
    ensures (VerifyOutcome(Docs(s, Users), now, email, code).Ok? && created.Created?) ==>
      o.auth == a[created.uid := Normalize(email)] && o.res == Err(Error(Internal, CompletionFailed))
  {
    match VerifyOutcome(Docs(s, Users), now, email, code)
    case Err(e) => Step(s, a, Err(e))
    case Ok(_) =>
      match created
      case AuthError(c) => Step(s, a, Err(CreateUserError(c)))
      case Created(uid) => Step(s, a[uid := Normalize(email)], Err(Error(Internal, CompletionFailed)))
  }

  /** For a fresh uid, the sentinel `set` leaves an identity account with
      no account record, where the corrected callable leaves an active
      record under that uid. */
  lemma SentinelSetOrphansIdentity(s: Store, a: Auth, now: int, email: string, code: string, uid: Uid)
    requires VerifyOutcome(Docs(s, Users), now, email, code).Ok?
    requires uid !in a && uid !in Docs(s, Users)
    ensures var w := CompleteWithSentinelSet(s, a, now, email, code, Created(uid));
      w.res.Err? && uid in w.auth && uid !in Docs(w.store, Users)
    ensures var o := CompleteStudentRegistration(s, a, now, email, code, Created(uid), true);
      o.res.Ok? && uid in o.auth && uid in Docs(o.store, Users)
      && IsActiveRecord(Docs(o.store, Users)[uid], uid, Normalize(email))
  {
    var p := VerifyOutcome(Docs(s, Users), now, email, code).value;
    ActiveRecordShape(Docs(s, Users)[p], uid, Normalize(email), now);
  }

  /** At most one active account record per address. */
  predicate OneActivePerEmail(users: Coll) {
    forall j, k :: j in users && k in users && j != k
      && StatusIs(users[j], "active") && StatusIs(users[k], "active")
      && "email" in users[j] && "email" in users[k]
      ==> users[j]["email"] != users[k]["email"]
  }

  /** Activating a record for an address with no active account keeps at
      most one active account per address. */
  lemma ActivateKeepsOneActive(s: Store, p: Key, uid: Uid, key: string, now: int)
    requires p in Docs(s, Users)
    requires OneActivePerEmail(Docs(s, Users))
    requires Select(Docs(s, Users), ActiveByEmail(key)) == {}
    ensures OneActivePerEmail(Docs(Activate(s, p, uid, key, now), Users))
  {
    var before := Docs(s, Users);
    var after := Docs(Activate(s, p, uid, key, now), Users);
    if p != uid {
      ActiveRecordShape(before[p], uid, key, now);
    }
    forall j, k | j in after && k in after && j != k
        && StatusIs(after[j], "active") && StatusIs(after[k], "active")
        && "email" in after[j] && "email" in after[k]
      ensures after[j]["email"] != after[k]["email"]
    {
      if j == uid || k == uid {
        var other := if j == uid then k else j;
        assert after[other] == before[other];
        assert other !in Select(before, ActiveByEmail(key));
        MatchesTwo(before[other], Eq("email", Str(key)), Eq("accountStatus", Str("active")));
      }
    }
  }

  lemma CompleteKeepsOneActive(s: Store, a: Auth, now: int, email: string, code: string,
                               created: AuthCreate, tokenOk: bool)
    requires OneActivePerEmail(Docs(s, Users))
    ensures OneActivePerEmail(Docs(CompleteStudentRegistration(s, a, now, email, code, created, tokenOk).store, Users))
  {
    var o := CompleteStudentRegistration(s, a, now, email, code, created, tokenOk);
    if o.res.Ok? {
      var p := VerifyOutcome(Docs(s, Users), now, email, code).value;
      ActivateKeepsOneActive(s, p, o.res.value.uid, Normalize(email), now);
    }
  }

  /** A new registration only adds a pending record, so it cannot create a
      second active account for an address. */
  lemma CreatePendingKeepsOneActive(s: Store, a: Auth, now: int, req: Request, code: nat, mailSent: bool)
    requires CodeLow <= code <= CodeHigh
    requires OneActivePerEmail(Docs(s, Users))
    ensures OneActivePerEmail(Docs(CreatePendingUser(s, a, now, req, code, mailSent).store, Users))
  {
  }

  // ---------------------------------------------------------------------
  // Resending the registration code

  function PendingByEmail(key: string): Query {
    [Eq("email", Str(key)), Eq("accountStatus", Str("pending"))]
  }

  /** Three or more resends, the last of them within the past hour. The
      counter is never reset, so once it reaches three this only asks that
      an hour has passed since the last resend. */
  predicate QuotaSpent(d: Doc, now: int) {
    CountOf(d, "resendCount") >= ResendQuota
    && TimeOf(d, "lastResendTime").Some? && TimeOf(d, "lastResendTime").value > now - ResendWindow
  }

  /** The record after a resend at `now` that drew `code`. */
  function Resent(d: Doc, code: nat, now: int): Doc {
    d + map[
      "verificationCode" := Str(Decimal(code)),
      "verificationExpiry" := Time(now + ResendTtl),
      "updatedAt" := Time(now),
      "lastResendTime" := Time(now),
      "resendCount" := Num(CountOf(d, "resendCount") + 1)]
  }

  /** A resend counts itself, stamps its time, issues a code valid for 24
      hours, and keeps the record's address and status. */
  lemma ResentShape(d: Doc, code: nat, now: int)
    requires CodeLow <= code <= CodeHigh
    ensures CountOf(Resent(d, code, now), "resendCount") == CountOf(d, "resendCount") + 1
    ensures TimeOf(Resent(d, code, now), "lastResendTime") == Some(now)
    ensures Resent(d, code, now)["verificationExpiry"] == Time(now + ResendTtl)
    ensures IsCode(Resent(d, code, now)["verificationCode"])
    ensures forall e :: Matches(Resent(d, code, now), PendingByEmail(e)) <==> Matches(d, PendingByEmail(e))
  {
    var r := Resent(d, code, now);
    assert r["verificationCode"] == Str(Decimal(code));
    forall e ensures Matches(r, PendingByEmail(e)) <==> Matches(d, PendingByEmail(e)) {
      var q := PendingByEmail(e);
      assert Matches(r, q) <==> Holds(r, q[0]) && Holds(r, q[1]);
      assert Matches(d, q) <==> Holds(d, q[0]) && Holds(d, q[1]);
    }
  }

  /** The record `resendVerificationEmail` acts on, or the error the caller
      sees. */
  ghost function ResendTarget(users: Coll, now: int, email: string): (r: Result<Key>)
    ensures (email == "" || !IsEmailFormat(email)) ==> r.Err? && r.error.code == InvalidArgument
    ensures (email != "" && IsEmailFormat(email) && Select(users, PendingByEmail(Normalize(email))) == {})
      ==> r.Err? && r.error.code == NotFound
    ensures (forall k :: k in Select(users, PendingByEmail(Normalize(email))) ==> QuotaSpent(users[k], now))
      ==> r.Err?
    ensures r.Ok? ==> r.value in Select(users, PendingByEmail(Normalize(email))) && !QuotaSpent(users[r.value], now)
  {
    if email == "" then
      Err(Error(InvalidArgument, EmailRequired))
    else if !IsEmailFormat(email) then
      Err(Error(InvalidArgument, InvalidEmailFormat))
    else
      match First(users, PendingByEmail(Normalize(email)))
      case None => Err(Error(NotFound, NoPendingRegistration))
      case Some(k) =>
        if QuotaSpent(users[k], now) then
          Err(Error(ResourceExhausted, TooManyResends))
        else Ok(k)
  }

  /** `resendVerificationEmail`. */
  ghost function ResendVerificationEmail(s: Store, a: Auth, now: int, email: string, code: nat)
    : (o: Step<string>)
    requires CodeLow <= code <= CodeHigh
    ensures o.auth == a
    ensures o.res.Err? ==> o.store == s && ResendTarget(Docs(s, Users), now, email).Err?
    ensures o.res.Ok? ==>
      && ResendTarget(Docs(s, Users), now, email).Ok?
      && var k := ResendTarget(Docs(s, Users), now, email).value;
      && Docs(o.store, Users) == Docs(s, Users)[k := Resent(Docs(s, Users)[k], code, now)]
      && (forall c :: c != Users ==> Docs(o.store, c) == Docs(s, c))
  {
    match ResendTarget(Docs(s, Users), now, email)
    case Err(e) => Step(s, a, Err(e))
    case Ok(k) => Step(Put(s, Users, k, Resent(Docs(s, Users)[k], code, now)), a, Ok(email))
  }

  /** A resend to the single pending record of an address goes through
      exactly when the quota allows it, and leaves that record the single
      pending one, counted and stamped. */
  lemma ResendKeepsSingle(s: Store, a: Auth, now: int, email: string, code: nat, k: Key)
    requires CodeLow <= code <= CodeHigh
    requires email != "" && IsEmailFormat(email)
    requires Select(Docs(s, Users), PendingByEmail(Normalize(email))) == {k}
    ensures var o := ResendVerificationEmail(s, a, now, email, code);
      && (o.res.Ok? <==> !QuotaSpent(Docs(s, Users)[k], now))
      && (o.res.Ok? ==>
            && Select(Docs(o.store, Users), PendingByEmail(Normalize(email))) == {k}
            && CountOf(Docs(o.store, Users)[k], "resendCount") == CountOf(Docs(s, Users)[k], "resendCount") + 1
            && TimeOf(Docs(o.store, Users)[k], "lastResendTime") == Some(now))
  {
    var o := ResendVerificationEmail(s, a, now, email, code);
    var q := PendingByEmail(Normalize(email));
    var before := Docs(s, Users);
    if o.res.Ok? {
      var after := Docs(o.store, Users);
      ResentShape(before[k], code, now);
      assert k in Select(before, q);
      forall j | j in after ensures j in Select(after, q) <==> j == k {
        if j != k {
          assert after[j] == before[j];
          assert j !in Select(before, q);
        }
      }
    }
  }

  /** With a single pending record for an address that has never been
      resent, four resends within one hour: the first three go through and
      the fourth is refused. */
  lemma FourthResendWithinHourRefused(s: Store, a: Auth, email: string, k: Key,
                                      t1: int, t2: int, t3: int, t4: int, c1: nat, c2: nat, c3: nat, c4: nat)
    requires email != "" && IsEmailFormat(email)
    requires Select(Docs(s, Users), PendingByEmail(Normalize(email))) == {k}
    requires "resendCount" !in Docs(s, Users)[k]
    requires t1 <= t2 <= t3 <= t4 < t1 + Hour
    requires CodeLow <= c1 <= CodeHigh && CodeLow <= c2 <= CodeHigh
    requires CodeLow <= c3 <= CodeHigh && CodeLow <= c4 <= CodeHigh
    ensures var o1 := ResendVerificationEmail(s, a, t1, email, c1);
      var o2 := ResendVerificationEmail(o1.store, a, t2, email, c2);
      var o3 := ResendVerificationEmail(o2.store, a, t3, email, c3);
      var o4 := ResendVerificationEmail(o3.store, a, t4, email, c4);
      o1.res.Ok? && o2.res.Ok? && o3.res.Ok? && o4.res.Err?
  {
    var o1 := ResendVerificationEmail(s, a, t1, email, c1);
    ResendKeepsSingle(s, a, t1, email, c1, k);
    var o2 := ResendVerificationEmail(o1.store, a, t2, email, c2);
    ResendKeepsSingle(o1.store, a, t2, email, c2, k);
    var o3 := ResendVerificationEmail(o2.store, a, t3, email, c3);
    ResendKeepsSingle(o2.store, a, t3, email, c3, k);
    ResendKeepsSingle(o3.store, a, t4, email, c4, k);
  }

  // ---------------------------------------------------------------------
  // Resending a code by uid or address

  datatype CodeSent = CodeSent(key: Key, email: string, code: string)

  /** The record after `resendVerificationCode` at `now` that drew `code`:
      whatever its status was, it is pending again. */
  function Reissued(d: Doc, code: nat, now: int): (r: Doc)
    ensures StatusIs(r, "pending")
    ensures "verificationExpiry" in r && r["verificationExpiry"] == Time(now + CodeTtl)
    ensures "verificationCode" in r && r["verificationCode"] == Str(Decimal(code))
  {
    d + map[
      "updatedAt" := Time(now),
      "verificationExpiry" := Time(now + CodeTtl),
      "verificationCode" := Str(Decimal(code)),
      "accountStatus" := Str("pending")]
  }

  /** The record `resendVerificationCode` acts on: the one keyed by the uid
      when a uid is given, else one carrying the normalised address. */
  ghost function CodeTarget(users: Coll, uid: string, email: string): (r: Result<Key>)
    ensures (uid == "" && Normalize(email) == "") ==> r.Err? && r.error.code == InvalidArgument
    ensures uid != "" ==> (r.Ok? <==> uid in users) && (r.Ok? ==> r.value == uid)
    ensures (uid == "" && Normalize(email) != "") ==>
      (r.Ok? <==> Select(users, ByEmail(Normalize(email))) != {})
      && (r.Ok? ==> r.value in Select(users, ByEmail(Normalize(email))))
    ensures r.Err? ==> r.error.code in {InvalidArgument, NotFound}
  {
    var key := Normalize(email);
    if uid == "" && key == "" then
      Err(Error(InvalidArgument, UidOrEmailRequired))
    else if uid != "" then
      if uid in users then Ok(uid) else Err(Error(NotFound, NoUserWithUid))
    else
      match First(users, ByEmail(key))
      case None => Err(Error(NotFound, NoUserWithEmail))
      case Some(k) => Ok(k)
  }

  /** `resendVerificationCode`. The update is a plain write made before the
      mail is sent, so a failed mail still leaves it in place. */
  ghost function ResendVerificationCode(s: Store, a: Auth, now: int, uid: string, email: string,
                                        code: nat, mailSent: bool): (o: Step<CodeSent>)
    ensures o.auth == a
    ensures CodeTarget(Docs(s, Users), uid, email).Err? ==> o.store == s && o.res.Err? && o.res.error.code != Internal
    ensures CodeTarget(Docs(s, Users), uid, email).Ok? ==>
      var k := CodeTarget(Docs(s, Users), uid, email).value;
      && Docs(o.store, Users) == Docs(s, Users)[k := Reissued(Docs(s, Users)[k], code, now)]
      && (o.res.Ok? <==> mailSent)
      && (o.res.Ok? ==> o.res.value.key == k && o.res.value.code == Decimal(code))
      && (o.res.Err? ==> o.res.error.code == Internal)
    ensures forall c :: c != Users ==> Docs(o.store, c) == Docs(s, c)
  {
    var users := Docs(s, Users);
    match CodeTarget(users, uid, email)
    case Err(e) => Step(s, a, Err(e))
    case Ok(k) =>
      var r := Put(s, Users, k, Reissued(users[k], code, now));
      if !mailSent then
        Step(r, a, Err(Error(Internal, CodeResendFailed)))
      else
        var key := Normalize(email);
        Step(r, a, Ok(CodeSent(k, if key != "" then key else StrOf(users[k], "email"), Decimal(code))))
  }

  /** Asking for a code by uid turns an active account back into a pending
      one, even when the mail then fails. */
  lemma ResendCodeDemotesActive(s: Store, a: Auth, now: int, uid: string, email: string, code: nat, mailSent: bool)
    requires uid in Docs(s, Users) && uid != ""
    requires StatusIs(Docs(s, Users)[uid], "active")
    ensures StatusIs(Docs(ResendVerificationCode(s, a, now, uid, email, code, mailSent).store, Users)[uid], "pending")
  {
  }
}

=== FILE: uid_consistency.dfy ===
/** The consistency pass over the account records (`fixUidConsistency`):
    each record's address is looked up, a record whose `uid` field or key
    differs from the account's uid is listed for a fix, and each listed
    record then gets its key as its `uid` field. */
module UidConsistency {
  import opened Values
  import opened Firestore

  /** The account a record's address resolves to. `down` holds the records
      whose lookup throws for a reason other than a missing account; an
      address that is absent or not a string makes the lookup throw too. */
  ghost function AuthUidOf(k: Key, d: Doc, a: Auth, down: set<Key>): (r: Option<Uid>)
    ensures r.Some? ==> k !in down && "email" in d && d["email"].Str? && r.value in a && a[r.value] == d["email"].s
    ensures r.None? <==> k in down || !("email" in d && d["email"].Str?) || UidByEmail(a, d["email"].s).None?
  {
    if k in down || !("email" in d && d["email"].Str?) then None else UidByEmail(a, d["email"].s)
  }

  /** A record agrees with its account: both its `uid` field and its key
      are the account's uid. */
  predicate Consistent(k: Key, d: Doc, au: Uid) {
    "uid" in d && d["uid"] == Str(au) && k == au
  }

  datatype Action = UpdateFirestoreUid | NeedsManualReview | AuthUserNotFound

  datatype Entry = Entry(key: Key, authUid: Option<Uid>, action: Action)

  /** One record's entry, if any. The existence check reads the live
      store, which the pass has not written yet. */
  ghost function Check(s: Store, users: Coll, k: Key, a: Auth, down: set<Key>): (r: Option<Entry>)
    requires k in users
    ensures r.Some? ==> r.value.key == k
  {
    match AuthUidOf(k, users[k], a, down)
    case None => Some(Entry(k, None, AuthUserNotFound))
    case Some(au) =>
      if Consistent(k, users[k], au) then None
      else if k in Docs(s, Users) then Some(Entry(k, Some(au), UpdateFirestoreUid))
      else Some(Entry(k, Some(au), NeedsManualReview))
  }

  datatype Lists = Lists(fixes: seq<Entry>, conflicts: seq<Entry>)

  /** The classification loop over the snapshot's records in order. */
  ghost function Scan(s: Store, users: Coll, keys: seq<Key>, a: Auth, down: set<Key>): (r: Lists)
    requires forall i :: 0 <= i < |keys| ==> keys[i] in users
    ensures |r.fixes| + |r.conflicts| <= |keys|
    decreases |keys|
  {
    if keys == [] then Lists([], [])
    else
      var rest := Scan(s, users, keys[1..], a, down);
      match Check(s, users, keys[0], a, down)
      case None => rest
      case Some(e) =>
        if e.action == UpdateFirestoreUid then rest.(fixes := [e] + rest.fixes)
        else rest.(conflicts := [e] + rest.conflicts)
  }

  function KeysOf(es: seq<Entry>): set<Key> {
    set i | 0 <= i < |es| :: es[i].key
  }

  /** Over the store's own records, a record is listed for a fix exactly
      when its lookup succeeds and it disagrees with the account, and as a
      conflict exactly when its lookup fails. */
  lemma {:induction false} ScanMeaning(s: Store, keys: seq<Key>, a: Auth, down: set<Key>, k: Key)
    requires forall i :: 0 <= i < |keys| ==> keys[i] in Docs(s, Users)
    requires k in keys
    ensures var r, d := Scan(s, Docs(s, Users), keys, a, down), Docs(s, Users)[k];
      var au := AuthUidOf(k, d, a, down);
      && (k in KeysOf(r.fixes) <==> au.Some? && !Consistent(k, d, au.value))
      && (k in KeysOf(r.conflicts) <==> au.None?)
    decreases |keys|
  {
    var users := Docs(s, Users);
    var tail := keys[1..];
    assert forall i :: 0 <= i < |tail| ==> tail[i] == keys[i + 1];
    var rest := Scan(s, users, tail, a, down);
    var r := Scan(s, users, keys, a, down);
    if k in tail {
      ScanMeaning(s, tail, a, down, k);
    } else {
      ScanMisses(s, users, tail, a, down, k);
    }
    if keys[0] != k {
      ScanMisses(s, users, [keys[0]], a, down, k);
    }
    var e := Check(s, users, keys[0], a, down);
    assert e.Some? && e.value.action == UpdateFirestoreUid ==>
             (KeysOf(r.fixes) == {keys[0]} + KeysOf(rest.fixes) && KeysOf(r.conflicts) == KeysOf(rest.conflicts)) by {
      if e.Some? && e.value.action == UpdateFirestoreUid {
        assert r.fixes == [e.value] + rest.fixes;
        KeysCons(e.value, rest.fixes);
      }
    }
    assert e.Some? && e.value.action != UpdateFirestoreUid ==>
             (KeysOf(r.conflicts) == {keys[0]} + KeysOf(rest.conflicts) && KeysOf(r.fixes) == KeysOf(rest.fixes)) by {
      if e.Some? && e.value.action != UpdateFirestoreUid {
        assert r.conflicts == [e.value] + rest.conflicts;
        KeysCons(e.value, rest.conflicts);
      }
    }
  }

  lemma KeysCons(e: Entry, es: seq<Entry>)
    ensures KeysOf([e] + es) == {e.key} + KeysOf(es)
  {
    var l := [e] + es;
    forall x | x in KeysOf(es) ensures x in KeysOf(l) {
      var i :| 0 <= i < |es| && es[i].key == x;
      assert l[i + 1] == es[i];
    }
    assert l[0] == e;
  }

  /** A key the loop does not visit is in neither list. */
  lemma {:induction false} ScanMisses(s: Store, users: Coll, keys: seq<Key>, a: Auth, down: set<Key>, k: Key)
    requires forall i :: 0 <= i < |keys| ==> keys[i] in users
    requires k !in keys
    ensures var r := Scan(s, users, keys, a, down);
      k !in KeysOf(r.fixes) && k !in KeysOf(r.conflicts)
    decreases |keys|
  {
    if keys != [] {
      var tail := keys[1..];
      assert forall i :: 0 <= i < |tail| ==> tail[i] == keys[i + 1];
      ScanMisses(s, users, tail, a, down, k);
      var rest := Scan(s, users, tail, a, down);
      var e := Check(s, users, keys[0], a, down);
      if e.Some? {
        KeysCons(e.value, rest.fixes);
        KeysCons(e.value, rest.conflicts);
      }
    }
  }

  /** Every conflict the loop records over the store's own records is a
      failed lookup: no record is ever sent to manual review. */
  lemma {:induction false} ConflictsAreLookupFailures(s: Store, keys: seq<Key>, a: Auth, down: set<Key>, i: int)
    requires forall i :: 0 <= i < |keys| ==> keys[i] in Docs(s, Users)
    requires 0 <= i < |Scan(s, Docs(s, Users), keys, a, down).conflicts|
    ensures Scan(s, Docs(s, Users), keys, a, down).conflicts[i] == Entry(Scan(s, Docs(s, Users), keys, a, down).conflicts[i].key, None, AuthUserNotFound)
    decreases |keys|
  {
    var users := Docs(s, Users);
    var tail := keys[1..];
    assert forall j :: 0 <= j < |tail| ==> tail[j] == keys[j + 1];
    var e := Check(s, users, keys[0], a, down);
    if e.Some? && e.value.action != UpdateFirestoreUid && i == 0 {
    } else if e.Some? && e.value.action != UpdateFirestoreUid {
      ConflictsAreLookupFailures(s, tail, a, down, i - 1);
    } else {
      ConflictsAreLookupFailures(s, tail, a, down, i);
    }
  }

  /** One fix: `update({uid: key})`, which throws on a missing record. */
  function FixOne(s: Store, k: Key, failing: set<Key>): (r: Store)
    ensures Docs(r, Users).Keys == Docs(s, Users).Keys
    ensures forall c :: c != Users ==> Docs(r, c) == Docs(s, c)
    ensures forall j :: j in Docs(s, Users) && j != k ==> Docs(r, Users)[j] == Docs(s, Users)[j]
    ensures k in Docs(s, Users) && k !in failing ==> Docs(r, Users)[k] == Docs(s, Users)[k]["uid" := Str(k)]
    ensures k in failing ==> r == s
  {
    if k in failing || k !in Docs(s, Users) then s else Patch(s, Users, k, map["uid" := Str(k)])
  }

  /** The fix loop over the listed records; an update that throws is
      reported and the loop goes on. */
  function ApplyFixes(s: Store, fixes: seq<Entry>, failing: set<Key>): (r: Store)
    ensures Docs(r, Users).Keys == Docs(s, Users).Keys
    ensures forall c :: c != Users ==> Docs(r, c) == Docs(s, c)
    decreases |fixes|
  {
    if fixes == [] then s else ApplyFixes(FixOne(s, fixes[0].key, failing), fixes[1..], failing)
  }

  /** After the fix loop a listed record that did not fail has its key as
      its `uid` and is otherwise as it was; every other record is
      untouched. */
  lemma {:induction false} ApplyFixesEffect(s: Store, fixes: seq<Entry>, failing: set<Key>, k: Key)
    requires k in Docs(s, Users)
    ensures var before, after := Docs(s, Users)[k], Docs(ApplyFixes(s, fixes, failing), Users)[k];
      && (k in KeysOf(fixes) && k !in failing ==> after == before["uid" := Str(k)])
      && (k !in KeysOf(fixes) || k in failing ==> after == before)
    decreases |fixes|
  {
    if fixes != [] {
      var k0 := fixes[0].key;
      var s1 := FixOne(s, k0, failing);
      ApplyFixesEffect(s1, fixes[1..], failing, k);
      KeysCons(fixes[0], fixes[1..]);
      assert fixes == [fixes[0]] + fixes[1..];
      if k0 == k && k !in failing {
        assert Docs(s1, Users)[k]["uid" := Str(k)] == Docs(s1, Users)[k];
      }
    }
  }

  datatype Pass = Pass(store: Store, fixes: seq<Entry>, conflicts: seq<Entry>)

  /** `fixUidConsistency`: classify the snapshot's records in an unspecified
      order, then apply the fixes. */
  ghost function FixUidConsistency(s: Store, a: Auth, down: set<Key>, failing: set<Key>): (r: Pass)
    ensures |r.fixes| + |r.conflicts| <= |Docs(s, Users)|
  {
    var users := Docs(s, Users);
    var lists := Scan(s, users, Enumerate(users.Keys), a, down);
    Pass(ApplyFixes(s, lists.fixes, failing), lists.fixes, lists.conflicts)
  }

  /** The fix writes the record's key, not the account's uid, into `uid`,
      so a fixed record agrees with its account exactly when its key
      already was the account's uid; a record keyed by anything else is
      listed again by the next pass. */
  lemma FixedConsistentIff(k: Key, d: Doc, au: Uid)
    ensures Consistent(k, d["uid" := Str(k)], au) <==> k == au
  {
  }

  /** The whole pass on one record: a record whose lookup succeeds and
      whose update does not throw ends with its key as its `uid`, and it
      agrees with its account afterwards exactly when its key is the
      account's uid; a record whose lookup fails is untouched. */
  lemma FixUidConsistencyEffect(s: Store, a: Auth, down: set<Key>, failing: set<Key>, k: Key)
    requires k in Docs(s, Users) && k !in failing
    ensures var d, after := Docs(s, Users)[k], Docs(FixUidConsistency(s, a, down, failing).store, Users)[k];
      var au := AuthUidOf(k, d, a, down);
      && (au.Some? ==> "uid" in after && after["uid"] == Str(k) && (Consistent(k, after, au.value) <==> k == au.value))
      && (au.None? ==> after == d)
  {
    var users := Docs(s, Users);
    var keys := Enumerate(users.Keys);
    var lists := Scan(s, users, keys, a, down);
    ScanMeaning(s, keys, a, down, k);
    ApplyFixesEffect(s, lists.fixes, failing, k);
  }
}

=== FILE: uid_only.dfy ===
/** The clean-up that rewrites every account record to the uid-only
    shape (`updateToUIDOnly`): a fixed set of fields, the key as the uid,
    and defaults for the profile fields that are missing. */
module UidOnly {
  import opened Values
  import opened Firestore

  /** The fields of a rewritten record; everything else, the student id
      included, is dropped. */
  const UidOnlyFields: set<string> := {"uid", "email", "firstName", "lastName", "course", "year", "section",
                                       "role", "accountStatus", "updatedAt"}

  /** The number of characters of the key used as the default last name. */
  const LastNameChars: nat := 8

  /** `uid.substring(0, 8)`. */
  function KeyPrefix(k: Key): (r: string)
    ensures |r| <= LastNameChars && r <= k
  {
    if |k| <= LastNameChars then k else k[..LastNameChars]
  }

  /** The profile fields, each kept when truthy and defaulted otherwise. */
  const ProfileFields: set<string> := {"firstName", "lastName", "course", "year", "section", "role", "accountStatus"}

  /** The default of a profile field for the record under key `k`. */
  function Default(f: string, k: Key): Value {
    if f == "firstName" then Str("Student")
    else if f == "lastName" then Str(KeyPrefix(k))
    else if f == "course" then Str("BSIT")
    else if f == "year" then Str("4")
    else if f == "section" then Str("A")
    else if f == "role" then Str("student")
    else Str("active")
  }

  function Profile(d: Doc, k: Key): (p: Doc)
    ensures p.Keys == ProfileFields
  {
    map f | f in ProfileFields :: Or(d, f, Default(f, k))
  }

  /** The record written for key `k`. The store rejects a field whose value
      is `undefined`, so a record without an address cannot be rewritten. */
  function UidOnlyRecord(k: Key, d: Doc, now: int): (r: Option<Doc>)
    ensures r.Some? <==> "email" in d
  {
    if "email" !in d then None
    else Some(Profile(d, k) + map["uid" := Str(k), "email" := d["email"], "updatedAt" := Time(now)])
  }

  /** The fields a rewritten record adds to the profile. */
  lemma IdentityFieldsApart()
    ensures "uid" !in ProfileFields && "email" !in ProfileFields && "updatedAt" !in ProfileFields
    ensures UidOnlyFields == ProfileFields + {"uid", "email", "updatedAt"}
  {
  }

  /** A rewritten record has exactly the uid-only fields, its key as its
      uid, the old address, each truthy profile field unchanged and each
      falsy one replaced by its default. */
  lemma UidOnlyShape(k: Key, d: Doc, now: int)
    requires "email" in d
    ensures var r := UidOnlyRecord(k, d, now).value;
      && r.Keys == UidOnlyFields
      && r["uid"] == Str(k) && r["email"] == d["email"] && r["updatedAt"] == Time(now)
      && "studentId" !in r
      && (forall f :: f in ProfileFields && Has(d, f) ==> r[f] == d[f])
      && (forall f :: f in ProfileFields && !Has(d, f) ==> r[f] == Default(f, k))
  {
    IdentityFieldsApart();
  }

  /** Rewriting is idempotent: a rewritten record rewritten again differs at
      most in its timestamp. */
  lemma UidOnlyIdempotent(k: Key, d: Doc, t1: int, t2: int)
    requires "email" in d
    ensures var r1 := UidOnlyRecord(k, d, t1).value;
      UidOnlyRecord(k, r1, t2) == UidOnlyRecord(k, d, t2)
  {
    var r1 := UidOnlyRecord(k, d, t1).value;
    IdentityFieldsApart();
    forall f | f in ProfileFields ensures Profile(r1, k)[f] == Profile(d, k)[f] {
      assert r1[f] == Profile(d, k)[f];
    }
    assert Profile(r1, k) == Profile(d, k);
  }

  /** The loop over the records in snapshot order: the store, the keys
      rewritten, and the keys that failed. */
  datatype Run = Run(store: Store, updated: seq<Key>, errors: seq<Key>)

  function RewriteRecords(snap: Coll, keys: seq<Key>, s: Store, now: int): (r: Run)
    requires forall i :: 0 <= i < |keys| ==> keys[i] in snap
    ensures |r.updated| + |r.errors| == |keys|
    ensures forall c :: c != Users ==> Docs(r.store, c) == Docs(s, c)
    decreases |keys|
  {
    if keys == [] then Run(s, [], [])
    else
      var k := keys[0];
      match UidOnlyRecord(k, snap[k], now)
      case None =>
        var rest := RewriteRecords(snap, keys[1..], s, now);
        rest.(errors := [k] + rest.errors)
      case Some(r) =>
        var rest := RewriteRecords(snap, keys[1..], Put(s, Users, k, r), now);
        rest.(updated := [k] + rest.updated)
  }

  /** `updateToUIDOnly`: every record of the snapshot, in an unspecified
      order. Each record is rewritten exactly when it has an address;
      the others are left as they were. */
  ghost function UpdateToUidOnly(s: Store, now: int): (r: Run)
    ensures |r.updated| + |r.errors| == |Docs(s, Users)|
  {
    var snap := Docs(s, Users);
    RewriteRecords(snap, Enumerate(snap.Keys), s, now)
  }

  /** The loop's effect on each record: a record with an address is
      replaced by its uid-only form; one without is untouched; no record is
      added or removed. */
  lemma {:induction false} RewriteRecordsEffect(snap: Coll, keys: seq<Key>, s: Store, now: int, k: Key)
    requires forall i :: 0 <= i < |keys| ==> keys[i] in snap && keys[i] in Docs(s, Users)
    requires forall i, j :: 0 <= i < j < |keys| ==> keys[i] != keys[j]
    ensures var after := Docs(RewriteRecords(snap, keys, s, now).store, Users);
      && after.Keys == Docs(s, Users).Keys
      && (k in keys && "email" in snap[k] ==> after[k] == UidOnlyRecord(k, snap[k], now).value)
      && (k in Docs(s, Users) && (k !in keys || "email" !in snap[k]) ==> after[k] == Docs(s, Users)[k])
    decreases |keys|
  {
    if keys != [] {
      var tail := keys[1..];
      assert forall i :: 0 <= i < |tail| ==> tail[i] == keys[i + 1];
      var k0 := keys[0];
      match UidOnlyRecord(k0, snap[k0], now)
      case None =>
        RewriteRecordsEffect(snap, tail, s, now, k);
      case Some(r) =>
        var s1 := Put(s, Users, k0, r);
        RewriteRecordsEffect(snap, tail, s1, now, k);
        assert k == k0 ==> k !in tail;
    }
  }

  /** After the run every record with an address is in uid-only form, every
      record without one is as it was, and no record is added or removed. */
  lemma UpdateToUidOnlyEffect(s: Store, now: int, k: Key)
    requires k in Docs(s, Users)
    ensures var users, after := Docs(s, Users), Docs(UpdateToUidOnly(s, now).store, Users);
      && after.Keys == users.Keys
      && ("email" in users[k] ==> after[k] == UidOnlyRecord(k, users[k], now).value)
      && ("email" !in users[k] ==> after[k] == users[k])
  {
    var snap := Docs(s, Users);
    RewriteRecordsEffect(snap, Enumerate(snap.Keys), s, now, k);
  }
}

=== FILE: uid_users.dfy ===
/** The back-fill that creates an account and a uid-keyed record for
    every student id found in the progress collections, then points those
    collections at the new uids (`createUIDUsers`). */
module UidUsers {
  import opened Values
  import opened Firestore
  import Verification

  const StudentQuizzes: string := "studentQuizzes"
  const StudentModules: string := "studentModules"

  // ---------------------------------------------------------------------
  // The ids

  /** The truthy student ids of one collection. */
  function IdsOf(c: Coll): (r: set<Value>)
    ensures forall v :: v in r ==> Truthy(v)
  {
    set k | k in c && Has(c[k], "studentId") :: c[k]["studentId"]
  }

  /** The duplicate-free union of the student ids of both collections. */
  function StudentIds(s: Store): set<Value> {
    IdsOf(Docs(s, StudentQuizzes)) + IdsOf(Docs(s, StudentModules))
  }

  /** A value is an id exactly when some quiz or module document holds it
      as a truthy student id. */
  lemma StudentIdsMeaning(s: Store, v: Value)
    ensures v in StudentIds(s) <==>
      Truthy(v) && (exists c, k :: c in {StudentQuizzes, StudentModules} && k in Docs(s, c)
                                   && "studentId" in Docs(s, c)[k] && Docs(s, c)[k]["studentId"] == v)
  {
    if Truthy(v) && (exists c, k :: c in {StudentQuizzes, StudentModules} && k in Docs(s, c)
                                    && "studentId" in Docs(s, c)[k] && Docs(s, c)[k]["studentId"] == v) {
      var c, k :| c in {StudentQuizzes, StudentModules} && k in Docs(s, c)
        && "studentId" in Docs(s, c)[k] && Docs(s, c)[k]["studentId"] == v;
      assert v in IdsOf(Docs(s, c));
    }
  }

  /** The text a template literal makes of an id. A timestamp is rendered
      by its milliseconds. */
  function IdText(v: Value): string {
    match v
    case Str(s) => s
    case Num(n) => if n < 0 then "-" + Decimal(-n) else Decimal(n)
    case Bool(b) => if b then "true" else "false"
    case Time(ms) => if ms < 0 then "-" + Decimal(-ms) else Decimal(ms)
    case Null => "null"
  }

  const EmailPrefix: string := "student."
  const EmailDomain: string := "@pathfit.edu"

  /** The address of the account made for an id. */
  function SyntheticEmail(text: string): (e: string)
    ensures |e| == |EmailPrefix| + |text| + |EmailDomain|
  {
    EmailPrefix + text + EmailDomain
  }

  /** Distinct texts give distinct addresses, so distinct ids with distinct
      texts get distinct accounts. */
  lemma SyntheticEmailInjective(x: string, y: string)
    requires SyntheticEmail(x) == SyntheticEmail(y)
    ensures x == y
  {
    var e := SyntheticEmail(x);
    assert |x| == |y|;
    assert x == e[|EmailPrefix|..|EmailPrefix| + |x|];
    assert y == SyntheticEmail(y)[|EmailPrefix|..|EmailPrefix| + |y|];
  }

  /** An id stored as a number and the same digits stored as a string share
      one address, hence one account. */
  lemma NumericIdSharesAddress()
    ensures Num(7) != Str("7")
    ensures SyntheticEmail(IdText(Num(7))) == SyntheticEmail(IdText(Str("7")))
  {
    assert Decimal(7) == [Digit(7)];
  }

  // ---------------------------------------------------------------------
  // Accounts and records

  /** The account used for an id: reused when one has the address, created
      otherwise with the uid the provider assigns (`minted`). `rejected`
      stands for a provider error other than "not found", on the lookup or
      on the creation. */
  datatype Account = Account(uid: Uid, created: bool)

  ghost function Acquire(a: Auth, email: string, minted: Uid, rejected: bool): (r: Option<Account>)
    ensures r.None? <==> rejected
    ensures r.Some? && !r.value.created ==> r.value.uid in a && a[r.value.uid] == email
    ensures r.Some? && r.value.created ==> r.value.uid == minted && forall u :: u in a ==> a[u] != email
  {
    if rejected then None
    else match UidByEmail(a, email)
      case Some(u) => Some(Account(u, false))
      case None => Some(Account(minted, true))
  }

  /** The profile the record gets, whatever the id. */
  const FixedProfile: Doc := map[
    "firstName" := Str("Student"), "course" := Str("BSIT"), "year" := Str("4"), "section" := Str("A"),
    "role" := Str("student"), "accountStatus" := Str("active")]

  /** The record written under the account's uid. */
  function UserRecord(uid: Uid, id: Value, email: string, now: int): Doc {
    FixedProfile + map["uid" := Str(uid), "email" := Str(email), "studentId" := id, "lastName" := id,
                       "createdAt" := Time(now), "updatedAt" := Time(now)]
  }

  /** The record is keyed by its own uid and keeps the id it was made for. */
  lemma UserRecordShape(uid: Uid, id: Value, email: string, now: int)
    requires uid != ""
    ensures var d := UserRecord(uid, id, email, now);
      && Verification.UidKeyed(uid, d)
      && d["email"] == Str(email) && d["studentId"] == id && d["lastName"] == id
      && d["role"] == Str("student") && StatusIs(d, "active")
  {
  }

  /** An id turned into an account. */
  datatype Made = Made(studentId: Value, uid: Uid, email: string)

  datatype Accounts = Accounts(store: Store, auth: Auth, made: seq<Made>, errors: seq<Value>)

  /** The loop over the ids in order. */
  ghost function CreateAccounts(ids: seq<Value>, s: Store, a: Auth, mint: map<Value, Uid>,
                                rejected: set<Value>, now: int): (r: Accounts)
    requires forall i :: 0 <= i < |ids| ==> ids[i] in mint
    ensures |r.made| + |r.errors| == |ids|
    decreases |ids|
  {
    if ids == [] then Accounts(s, a, [], [])
    else
      var id := ids[0];
      var email := SyntheticEmail(IdText(id));
      match Acquire(a, email, mint[id], id in rejected)
      case None =>
        var rest := CreateAccounts(ids[1..], s, a, mint, rejected, now);
        rest.(errors := [id] + rest.errors)
      case Some(acc) =>
        var a1 := a[acc.uid := email];
        var s1 := Put(s, Users, acc.uid, UserRecord(acc.uid, id, email, now));
        var rest := CreateAccounts(ids[1..], s1, a1, mint, rejected, now);
        rest.(made := [Made(id, acc.uid, email)] + rest.made)
  }

  /** The provider assigns each remaining id its own uid, unused so far. */
  ghost predicate FreshUids(ids: seq<Value>, mint: map<Value, Uid>, a: Auth) {
    && (forall i :: 0 <= i < |ids| ==> ids[i] in mint && mint[ids[i]] !in a)
    && (forall i, j :: 0 <= i < j < |ids| ==> mint[ids[i]] != mint[ids[j]])
  }

  /** The user record under `u` holds `u` as its uid and carries `email`. */
  ghost predicate RecordFor(s: Store, u: Uid, email: string) {
    && u in Docs(s, Users)
    && "uid" in Docs(s, Users)[u] && Docs(s, Users)[u]["uid"] == Str(u)
    && "email" in Docs(s, Users)[u] && Docs(s, Users)[u]["email"] == Str(email)
  }

  /** Every id made into an account ends with an account holding its
      address. */
  lemma {:induction false} MadeAccountsExist(ids: seq<Value>, s: Store, a: Auth, mint: map<Value, Uid>,
                                             rejected: set<Value>, now: int, i: int)
    requires FreshUids(ids, mint, a)
    requires 0 <= i < |CreateAccounts(ids, s, a, mint, rejected, now).made|
    ensures var r := CreateAccounts(ids, s, a, mint, rejected, now);
      var m := r.made[i];
      && m.email == SyntheticEmail(IdText(m.studentId))
      && m.uid in r.auth && r.auth[m.uid] == m.email
    decreases |ids|
  {
    var id := ids[0];
    var email := SyntheticEmail(IdText(id));
    var tail := ids[1..];
    assert forall j :: 0 <= j < |tail| ==> tail[j] == ids[j + 1];
    match Acquire(a, email, mint[id], id in rejected)
    case None =>
      MadeAccountsExist(tail, s, a, mint, rejected, now, i);
    case Some(acc) =>
      var a1 := a[acc.uid := email];
      var s1 := Put(s, Users, acc.uid, UserRecord(acc.uid, id, email, now));
      assert FreshUids(tail, mint, a1);
      if i == 0 {
        AuthKept(tail, s1, a1, mint, rejected, now, acc.uid);
      } else {
        MadeAccountsExist(tail, s1, a1, mint, rejected, now, i - 1);
      }
  }

  /** The loop never removes an account nor changes its address. */
  lemma {:induction false} AuthKept(ids: seq<Value>, s: Store, a: Auth, mint: map<Value, Uid>,
                                    rejected: set<Value>, now: int, u: Uid)
    requires FreshUids(ids, mint, a)
    requires u in a
    ensures var r := CreateAccounts(ids, s, a, mint, rejected, now);
      u in r.auth && r.auth[u] == a[u]
    decreases |ids|
  {
    if ids != [] {
      var id := ids[0];
      var email := SyntheticEmail(IdText(id));
      var tail := ids[1..];
      assert forall j :: 0 <= j < |tail| ==> tail[j] == ids[j + 1];
      match Acquire(a, email, mint[id], id in rejected)
      case None =>
        AuthKept(tail, s, a, mint, rejected, now, u);
      case Some(acc) =>
        var a1 := a[acc.uid := email];
        var s1 := Put(s, Users, acc.uid, UserRecord(acc.uid, id, email, now));
        assert FreshUids(tail, mint, a1);
        AuthKept(tail, s1, a1, mint, rejected, now, u);
    }
  }

  /** Such a record is keyed by its own uid, in the sense of the migration
      check, when the uid is non-empty; it survives any rewrite that leaves
      the user records alone. */
  lemma RecordForKeyed(s: Store, u: Uid, e: string)
    requires RecordFor(s, u, e)
    ensures u != "" ==> Verification.UidKeyed(u, Docs(s, Users)[u])
    ensures forall t: Store :: Docs(t, Users) == Docs(s, Users) ==> RecordFor(t, u, e)
  {
  }

  /** Writing an id's record under `uid` gives `uid` its record and keeps
      every other uid's. */
  lemma PutRecordFor(s: Store, uid: Uid, id: Value, email: string, now: int, u: Uid, e: string)
    requires (u == uid && e == email) || (u != uid && RecordFor(s, u, e))
    ensures RecordFor(Put(s, Users, uid, UserRecord(uid, id, email, now)), u, e)
  {
    var d := UserRecord(uid, id, email, now);
    assert d["uid"] == Str(uid) && d["email"] == Str(email);
  }

  /** Every id made into an account ends with a user record under its uid
      that carries its address. */
  lemma {:induction false} MadeRecordsWritten(ids: seq<Value>, s: Store, a: Auth, mint: map<Value, Uid>,
                                              rejected: set<Value>, now: int, i: int)
    requires FreshUids(ids, mint, a)
    requires 0 <= i < |CreateAccounts(ids, s, a, mint, rejected, now).made|
    ensures var r := CreateAccounts(ids, s, a, mint, rejected, now);
      RecordFor(r.store, r.made[i].uid, r.made[i].email)
    decreases |ids|
  {
    var id := ids[0];
    var email := SyntheticEmail(IdText(id));
    var tail := ids[1..];
    assert forall j :: 0 <= j < |tail| ==> tail[j] == ids[j + 1];
    match Acquire(a, email, mint[id], id in rejected)
    case None =>
      MadeRecordsWritten(tail, s, a, mint, rejected, now, i);
    case Some(acc) =>
      var a1 := a[acc.uid := email];
      var s1 := Put(s, Users, acc.uid, UserRecord(acc.uid, id, email, now));
      assert FreshUids(tail, mint, a1);
      if i == 0 {
        PutRecordFor(s, acc.uid, id, email, now, acc.uid, email);
        RecordKept(tail, s1, a1, mint, rejected, now, acc.uid);
      } else {
        MadeRecordsWritten(tail, s1, a1, mint, rejected, now, i - 1);
      }
  }

  /** A record keyed by an account's uid and carrying its address keeps
      both through the rest of the loop: a later id writes under that uid
      only when it reuses the account, hence with the same address. */
  lemma {:induction false} RecordKept(ids: seq<Value>, s: Store, a: Auth, mint: map<Value, Uid>,
                                      rejected: set<Value>, now: int, u: Uid)
    requires FreshUids(ids, mint, a)
    requires u in a && RecordFor(s, u, a[u])
    ensures RecordFor(CreateAccounts(ids, s, a, mint, rejected, now).store, u, a[u])
    decreases |ids|
  {
    if ids != [] {
      var id := ids[0];
      var email := SyntheticEmail(IdText(id));
      var tail := ids[1..];
      assert forall j :: 0 <= j < |tail| ==> tail[j] == ids[j + 1];
      match Acquire(a, email, mint[id], id in rejected)
      case None =>
        RecordKept(tail, s, a, mint, rejected, now, u);
      case Some(acc) =>
        var a1 := a[acc.uid := email];
        var s1 := Put(s, Users, acc.uid, UserRecord(acc.uid, id, email, now));
        assert FreshUids(tail, mint, a1);
        assert a1[u] == a[u];
        PutRecordFor(s, acc.uid, id, email, now, u, a[u]);
        RecordKept(tail, s1, a1, mint, rejected, now, u);
    }
  }

  // ---------------------------------------------------------------------
  // References

  /** One id's batch: both collections' documents holding the id get the
      uid. */
  function RewriteOne(s: Store, m: Made, now: int): (r: Store)
    ensures forall c :: c != StudentQuizzes && c != StudentModules ==> Docs(r, c) == Docs(s, c)
  {
    var s1 := RewriteRefs(s, StudentQuizzes, "studentId", m.studentId, Str(m.uid), now);
    RewriteRefs(s1, StudentModules, "studentId", m.studentId, Str(m.uid), now)
  }

  /** After an id's batch neither collection refers to the id, and each
      document that did refers to the uid. */
  lemma RewriteOneClears(s: Store, m: Made, now: int, c: string)
    requires m.studentId != Str(m.uid)
    requires c == StudentQuizzes || c == StudentModules
    ensures Select(Docs(RewriteOne(s, m, now), c), [Eq("studentId", m.studentId)]) == {}
    ensures Select(Docs(s, c), [Eq("studentId", m.studentId)])
      <= Select(Docs(RewriteOne(s, m, now), c), [Eq("studentId", Str(m.uid))])
  {
    var s1 := RewriteRefs(s, StudentQuizzes, "studentId", m.studentId, Str(m.uid), now);
    RewriteRemovesOld(s, StudentQuizzes, "studentId", m.studentId, Str(m.uid), now);
    RewriteRemovesOld(s1, StudentModules, "studentId", m.studentId, Str(m.uid), now);
  }

  /** The batches in creation order. */
  function RewriteAll(s: Store, made: seq<Made>, now: int): (r: Store)
    ensures forall c :: c != StudentQuizzes && c != StudentModules ==> Docs(r, c) == Docs(s, c)
    decreases |made|
  {
    if made == [] then s else RewriteAll(RewriteOne(s, made[0], now), made[1..], now)
  }

  /** A document holding no made id keeps its contents through every
      batch. */
  lemma {:induction false} RewriteAllKeeps(s: Store, made: seq<Made>, now: int, c: string, k: Key)
    requires k in Docs(s, c)
    requires forall i :: 0 <= i < |made| ==> !Holds(Docs(s, c)[k], Eq("studentId", made[i].studentId))
    ensures k in Docs(RewriteAll(s, made, now), c) && Docs(RewriteAll(s, made, now), c)[k] == Docs(s, c)[k]
    decreases |made|
  {
    if made != [] {
      assert forall i :: 0 <= i < |made[1..]| ==> made[1..][i] == made[i + 1];
      var m := made[0];
      var s1 := RewriteRefs(s, StudentQuizzes, "studentId", m.studentId, Str(m.uid), now);
      assert Docs(s1, c)[k] == Docs(s, c)[k];
      assert Docs(RewriteOne(s, m, now), c)[k] == Docs(s, c)[k];
      RewriteAllKeeps(RewriteOne(s, m, now), made[1..], now, c, k);
    }
  }

  // ---------------------------------------------------------------------
  // The whole run

  datatype Backfill = Backfill(store: Store, auth: Auth, created: nat, errors: nat)

  /** `createUIDUsers`: the ids in an unspecified order, then one batch per
      account made. */
  ghost function CreateUidUsers(s: Store, a: Auth, mint: map<Value, Uid>, rejected: set<Value>, now: int): (r: Backfill)
    requires forall v :: v in StudentIds(s) ==> v in mint
    ensures r.created + r.errors == |StudentIds(s)|
  {
    var ids := Enumerate(StudentIds(s));
    var accs := CreateAccounts(ids, s, a, mint, rejected, now);
    Backfill(RewriteAll(accs.store, accs.made, now), accs.auth, |accs.made|, |accs.errors|)
  }

  /** With a fresh uid per id, every account the run reports holds the
      address made from its id. */
  lemma CreateUidUsersAccounts(s: Store, a: Auth, mint: map<Value, Uid>, rejected: set<Value>, now: int, i: int)
    requires forall v :: v in StudentIds(s) ==> v in mint && mint[v] !in a
    requires forall v, w :: v in StudentIds(s) && w in StudentIds(s) && v != w ==> mint[v] != mint[w]
    requires 0 <= i < |CreateAccounts(Enumerate(StudentIds(s)), s, a, mint, rejected, now).made|
    ensures var m := CreateAccounts(Enumerate(StudentIds(s)), s, a, mint, rejected, now).made[i];
      && m.studentId in StudentIds(s)
      && m.uid in CreateUidUsers(s, a, mint, rejected, now).auth
      && CreateUidUsers(s, a, mint, rejected, now).auth[m.uid] == SyntheticEmail(IdText(m.studentId))
  {
    var ids := Enumerate(StudentIds(s));
    MadeAccountsExist(ids, s, a, mint, rejected, now, i);
    MadeFromIds(ids, s, a, mint, rejected, now, i);
  }

  /** With a fresh uid per id, every account the run reports has a user
      record under its uid carrying the address made from its id; the
      reference batches leave the user records alone. */
  lemma CreateUidUsersRecords(s: Store, a: Auth, mint: map<Value, Uid>, rejected: set<Value>, now: int, i: int)
    requires forall v :: v in StudentIds(s) ==> v in mint && mint[v] !in a
    requires forall v, w :: v in StudentIds(s) && w in StudentIds(s) && v != w ==> mint[v] != mint[w]
    requires 0 <= i < |CreateAccounts(Enumerate(StudentIds(s)), s, a, mint, rejected, now).made|
    ensures var m := CreateAccounts(Enumerate(StudentIds(s)), s, a, mint, rejected, now).made[i];
      var users := Docs(CreateUidUsers(s, a, mint, rejected, now).store, Users);
      && RecordFor(CreateUidUsers(s, a, mint, rejected, now).store, m.uid, m.email)
      && (m.uid != "" ==> Verification.UidKeyed(m.uid, users[m.uid]))
  {
    var ids := Enumerate(StudentIds(s));
    var accs := CreateAccounts(ids, s, a, mint, rejected, now);
    var m := accs.made[i];
    EnumeratedFresh(s, a, mint);
    MadeRecordsWritten(ids, s, a, mint, rejected, now, i);
    var after := CreateUidUsers(s, a, mint, rejected, now).store;
    assert after == RewriteAll(accs.store, accs.made, now);
    RecordForKeyed(after, m.uid, m.email);
  }

  /** A fresh, distinct uid per collected id makes the run's id order fresh. */
  lemma EnumeratedFresh(s: Store, a: Auth, mint: map<Value, Uid>)
    requires forall v :: v in StudentIds(s) ==> v in mint && mint[v] !in a
    requires forall v, w :: v in StudentIds(s) && w in StudentIds(s) && v != w ==> mint[v] != mint[w]
    ensures FreshUids(Enumerate(StudentIds(s)), mint, a)
  {
    var ids := Enumerate(StudentIds(s));
    assert forall i :: 0 <= i < |ids| ==> ids[i] in StudentIds(s);
  }

  /** Each account made comes from one of the ids. */
  lemma {:induction false} MadeFromIds(ids: seq<Value>, s: Store, a: Auth, mint: map<Value, Uid>,
                                       rejected: set<Value>, now: int, i: int)
    requires forall i :: 0 <= i < |ids| ==> ids[i] in mint
    requires 0 <= i < |CreateAccounts(ids, s, a, mint, rejected, now).made|
    ensures CreateAccounts(ids, s, a, mint, rejected, now).made[i].studentId in ids
    decreases |ids|
  {
    var id := ids[0];
    var email := SyntheticEmail(IdText(id));
    var tail := ids[1..];
    assert forall j :: 0 <= j < |tail| ==> tail[j] == ids[j + 1];
    match Acquire(a, email, mint[id], id in rejected)
    case None =>
      MadeFromIds(tail, s, a, mint, rejected, now, i);
    case Some(acc) =>
      if i > 0 {
        MadeFromIds(tail, Put(s, Users, acc.uid, UserRecord(acc.uid, id, email, now)),
                    a[acc.uid := email], mint, rejected, now, i - 1);
      }
  }
}

=== FILE: values.dfy ===
/** Document values, JavaScript truthiness, and the string helpers the
    account code applies to e-mail addresses and verification codes. */
module Values {

  datatype Option<+T> = None | Some(value: T)

  /** A document field value. Timestamps are integer milliseconds; nested
      objects are flattened into dotted field names ("preferences.theme"). */
  datatype Value = Null | Bool(b: bool) | Num(n: int) | Str(s: string) | Time(ms: int)

  type Doc = map<string, Value>

  /** Time is measured in milliseconds. */
  const Second: int := 1000
  const Minute: int := 60 * Second
  const Hour: int := 60 * Minute
  const Day: int := 24 * Hour

  /** JavaScript truthiness of a stored value. */
  predicate Truthy(v: Value) {
    match v
    case Null => false
    case Bool(b) => b
    case Num(n) => n != 0
    case Str(s) => s != ""
    case Time(_) => true
  }

  /** `d.f` used as a condition: an absent field reads as `undefined`. */
  predicate Has(d: Doc, f: string) {
    f in d && Truthy(d[f])
  }

  /** `d.f || fallback`. */
  function Or(d: Doc, f: string, fallback: Value): (v: Value)
    ensures Has(d, f) ==> v == d[f]
    ensures !Has(d, f) ==> v == fallback
  {
    if Has(d, f) then d[f] else fallback
  }

  /** A string field, or "" when the field is absent or not a string. */
  function StrOf(d: Doc, f: string): string {
    if f in d && d[f].Str? then d[f].s else ""
  }

  /** `(d.f || 0)` for a counter field. */
  function CountOf(d: Doc, f: string): int {
    if f in d && d[f].Num? then d[f].n else 0
  }

  /** A timestamp field, if the field holds one. */
  function TimeOf(d: Doc, f: string): Option<int> {
    if f in d && d[f].Time? then Some(d[f].ms) else None
  }

  // ---------------------------------------------------------------------
  // Strings

  /** The characters JavaScript's `trim` and the regular-expression class
      `\s` treat as white space. */
  predicate IsSpace(c: char) {
    c == ' ' || c == '\t' || c == '\n' || c == '\r' || c == '\U{000B}' || c == '\U{000C}'
    || c == '\U{00A0}' || c == '\U{1680}' || ('\U{2000}' <= c <= '\U{200A}')
    || c == '\U{2028}' || c == '\U{2029}' || c == '\U{202F}' || c == '\U{205F}'
    || c == '\U{3000}' || c == '\U{FEFF}'
  }

  function LowerChar(c: char): char {
    if 'A' <= c <= 'Z' then (c as int + 32) as char else c
  }

  /** `toLowerCase`, restricted to the ASCII letters. */
  function Lower(s: string): (r: string)
    ensures |r| == |s|
    ensures forall i :: 0 <= i < |s| ==> r[i] == LowerChar(s[i])
  {
    seq(|s|, i requires 0 <= i < |s| => LowerChar(s[i]))
  }

  function TrimStart(s: string): string {
    if |s| > 0 && IsSpace(s[0]) then TrimStart(s[1..]) else s
  }

  function TrimEnd(s: string): string {
    if |s| > 0 && IsSpace(s[|s| - 1]) then TrimEnd(s[..|s| - 1]) else s
  }

  /** `TrimStart` drops a white-space prefix and stops at the first other
      character. */
  lemma {:induction false} TrimStartShape(s: string)
    ensures |TrimStart(s)| <= |s| && TrimStart(s) == s[|s| - |TrimStart(s)|..]
    ensures TrimStart(s) == [] || !IsSpace(TrimStart(s)[0])
    ensures forall i :: 0 <= i < |s| - |TrimStart(s)| ==> IsSpace(s[i])
  {
    if |s| > 0 && IsSpace(s[0]) {
      TrimStartShape(s[1..]);
    }
  }

  /** `TrimEnd` drops a white-space suffix and stops at the last other
      character. */
  lemma {:induction false} TrimEndShape(s: string)
    ensures |TrimEnd(s)| <= |s| && TrimEnd(s) == s[..|TrimEnd(s)|]
    ensures TrimEnd(s) == [] || !IsSpace(TrimEnd(s)[|TrimEnd(s)| - 1])
    ensures forall i :: |TrimEnd(s)| <= i < |s| ==> IsSpace(s[i])
  {
    if |s| > 0 && IsSpace(s[|s| - 1]) {
      TrimEndShape(s[..|s| - 1]);
    }
  }

  /** `trim`: drop leading and trailing white space. */
  function Trim(s: string): string {
    TrimEnd(TrimStart(s))
  }

  /** `email.toLowerCase().trim()`, the key every account query uses. */
  function Normalize(email: string): string {
    Trim(Lower(email))
  }

  predicate NoSpace(s: string) {
    forall i :: 0 <= i < |s| ==> !IsSpace(s[i])
  }

  /** A character of the class `[^\s@]`. */
  predicate Plain(c: char) {
    !IsSpace(c) && c != '@'
  }

  predicate PlainExcept(s: string, a: int) {
    forall i | 0 <= i < |s| && i != a :: Plain(s[i])
  }

  /** The address check `/^[^\s@]+@[^\s@]+\.[^\s@]+$/`: one '@' with a
      non-empty local part, and a '.' in the domain that is neither its
      first nor its last character; no white space anywhere. */
  predicate IsEmailFormat(s: string) {
    exists a, p | 0 < a && a + 1 < p < |s| - 1 ::
      s[a] == '@' && s[p] == '.' && PlainExcept(s, a)
  }

  lemma {:induction false} TrimNoSpace(s: string)
    requires NoSpace(s)
    ensures Trim(s) == s
  {
    if |s| > 0 {
      assert !IsSpace(s[0]) && !IsSpace(s[|s| - 1]);
    }
  }

  lemma LowerCharKeeps(c: char)
    ensures IsSpace(LowerChar(c)) == IsSpace(c)
    ensures Plain(LowerChar(c)) == Plain(c)
    ensures (LowerChar(c) == '@') == (c == '@') && (LowerChar(c) == '.') == (c == '.')
    ensures LowerChar(LowerChar(c)) == LowerChar(c)
  {
  }

  /** An address that passes the format check has no white space, so the
      `trim` in the normalisation never changes it: normalising such an
      address only lower-cases it, and the result passes the check too. */
  lemma NormalizeFormatted(s: string)
    requires IsEmailFormat(s)
    ensures Normalize(s) == Lower(s)
    ensures IsEmailFormat(Normalize(s))
  {
    var a, p :| 0 < a && a + 1 < p < |s| - 1 && s[a] == '@' && s[p] == '.' && PlainExcept(s, a);
    var l := Lower(s);
    forall i | 0 <= i < |l|
      ensures !IsSpace(l[i])
      ensures i != a ==> Plain(l[i])
    {
      LowerCharKeeps(s[i]);
    }
    assert NoSpace(l);
    TrimNoSpace(l);
    LowerCharKeeps(s[a]);
    LowerCharKeeps(s[p]);
    assert l[a] == '@' && l[p] == '.' && PlainExcept(l, a);
  }

  lemma LowerIdempotent(s: string)
    ensures Lower(Lower(s)) == Lower(s)
  {
    var l := Lower(s);
    forall i | 0 <= i < |l| ensures Lower(l)[i] == l[i] {
      LowerCharKeeps(s[i]);
    }
  }

  /** Normalising twice is normalising once, so a stored normalised address
      is found again by the same query. */
  lemma NormalizeIdempotent(s: string)
    requires IsEmailFormat(s)
    ensures Normalize(Normalize(s)) == Normalize(s)
  {
    NormalizeFormatted(s);
    NormalizeFormatted(Lower(s));
    LowerIdempotent(s);
  }

  function StartsWithS(s: string): bool {
    |s| > 0 && s[0] == 'S'
  }

  // ---------------------------------------------------------------------
  // String length: `s.length` counts UTF-16 code units

  /** A character outside the Basic Multilingual Plane takes two code
      units (a surrogate pair). */
  predicate Astral(c: char) {
    c >= '\U{10000}'
  }

  /** `s.length`. */
  function Utf16Length(s: string): (n: nat)
    ensures |s| <= n <= 2 * |s|
  {
    if s == [] then 0 else (if Astral(s[0]) then 2 else 1) + Utf16Length(s[1..])
  }

  /** The length counts characters exactly when no character is astral. */
  lemma {:induction false} Utf16LengthCountsChars(s: string)
    ensures Utf16Length(s) == |s| <==> forall i :: 0 <= i < |s| ==> !Astral(s[i])
  {
    if s != [] {
      var tail := s[1..];
      assert forall i :: 0 <= i < |tail| ==> tail[i] == s[i + 1];
      Utf16LengthCountsChars(tail);
    }
  }

  // ---------------------------------------------------------------------
  // Verification codes: `Math.floor(100000 + Math.random() * 900000).toString()`

  const CodeLow: nat := 100000
  const CodeHigh: nat := 999999

  function Digit(d: nat): char
    requires d < 10
  {
    ('0' as int + d) as char
  }

  predicate IsDigit(c: char) {
    '0' <= c <= '9'
  }

  /** `n.toString()` for a natural number. */
  function Decimal(n: nat): (r: string)
    ensures |r| > 0
    ensures forall i :: 0 <= i < |r| ==> IsDigit(r[i])
  {
    if n < 10 then [Digit(n)] else Decimal(n / 10) + [Digit(n % 10)]
  }

  function ParseDecimal(s: string): nat
    requires forall i :: 0 <= i < |s| ==> IsDigit(s[i])
  {
    if s == [] then 0
    else
      var d := s[|s| - 1] as int - '0' as int;
      assert IsDigit(s[|s| - 1]);
      ParseDecimal(s[..|s| - 1]) * 10 + d
  }

  /** Reading the decimal text of a code back gives the code: distinct codes
      have distinct texts. */
  lemma {:induction false} DecimalRoundTrip(n: nat)
    ensures ParseDecimal(Decimal(n)) == n
  {
    if n >= 10 {
      var prefix := Decimal(n / 10);
      var s := prefix + [Digit(n % 10)];
      assert s[..|s| - 1] == prefix;
      DecimalRoundTrip(n / 10);
    }
  }

  lemma {:induction false} DecimalLength(n: nat, k: nat)
    requires Pow10(k) <= n < Pow10(k + 1)
    ensures |Decimal(n)| == k + 1
  {
    if k > 0 {
      DecimalLength(n / 10, k - 1);
    }
  }

  function Pow10(k: nat): nat {
    if k == 0 then 1 else 10 * Pow10(k - 1)
  }

  /** Every code the generator can draw is six digits long. */
  lemma CodeIsSixDigits(code: nat)
    requires CodeLow <= code <= CodeHigh
    ensures |Decimal(code)| == 6
  {
    assert Pow10(5) == 100000 && Pow10(6) == 1000000;
    DecimalLength(code, 5);
  }
}

=== FILE: verification.dfy ===
/** The read-only consistency check run after the uid migration
    (`MigrationVerifier`). It reads the store and the identity provider and
    reports counts; it writes nothing, so every operation here is a
    function of the state it reads. */
module Verification {
  import opened Values
  import opened Firestore
  import Migration

  /** The collections whose references are classified, in order. */
  const RelatedCollections: seq<string> := [
    "userAchievements", "studentQuizzes", "studentModules", "assignmentSubmissions",
    "courseEnrollments", "notifications", "quizAttempts"]

  // ---------------------------------------------------------------------
  // Account records (`verifyUserDocuments`)

  /** A record stored under its own uid: its truthy uid field is the key. */
  predicate UidKeyed(k: Key, d: Doc) {
    Has(d, "uid") && d["uid"] == Str(k)
  }

  function UidBased(users: Coll): (r: set<Key>)
    ensures r <= users.Keys
  {
    set k | k in users && UidKeyed(k, users[k])
  }

  function StudentIdBased(users: Coll): (r: set<Key>)
    ensures r <= users.Keys
  {
    set k | k in users && !UidKeyed(k, users[k])
  }

  /** Every record is counted once: the two counts add up to the number of
      records, and there are no student-id based records exactly when every
      record carries its own key as its uid. */
  lemma UserCountsPartition(users: Coll)
    ensures |UidBased(users)| + |StudentIdBased(users)| == |users|
    ensures StudentIdBased(users) == {} <==> forall k :: k in users ==> UidKeyed(k, users[k])
    ensures |UidBased(users)| == |users| <==> StudentIdBased(users) == {}
  {
    var u, t := UidBased(users), StudentIdBased(users);
    assert u + t == users.Keys;
    assert u * t == {};
    if |u| == |users| {
      assert |t| == 0;
    }
  }

  /** A record the migration rekeyed is counted as uid based, and the key
      it came from is gone. */
  lemma MigratedRecordIsUidBased(s: Store, a: Auth, reg: Registry, k: Key, d: Doc, now: int,
                                 failing: set<string>)
    requires Migration.FieldRegistry(reg)
    requires Migration.ResolveAuth(d, a).Some? && Migration.ResolveAuth(d, a) != Some(k)
    requires forall u :: u in a ==> IsUid(Str(u))
    ensures var users := Docs(Migration.MigrateUser(s, a, reg, k, d, now, failing).store, Users);
      && Migration.ResolveAuth(d, a).value in UidBased(users)
      && k !in users
  {
    var uid := Migration.ResolveAuth(d, a).value;
    assert IsUid(Str(uid));
    assert UidKeyed(uid, Migration.Rekeyed(d, uid, now));
  }

  /** The migration's already-correct branch only checks that a uid field
      is present, not that it names the key: a record keyed by its account
      whose uid field holds something else is reported correct by the
      migration, left unchanged, and still counted as student-id based
      here. */
  lemma StaleUidFieldSurvivesMigration(s: Store, a: Auth, reg: Registry, k: Key, now: int,
                                       failing: set<string>)
    requires Migration.FieldRegistry(reg)
    requires k in Docs(s, Users)
    requires var d := Docs(s, Users)[k];
      Migration.ResolveAuth(d, a) == Some(k) && Has(d, "uid") && d["uid"] != Str(k)
    ensures var d := Docs(s, Users)[k];
      && Migration.MigrateUser(s, a, reg, k, d, now, failing) == Migration.Outcome(s, Some(Migration.AlreadyCorrect), 0)
      && k in StudentIdBased(Docs(s, Users))
  {
  }

  // ---------------------------------------------------------------------
  // References (`verifyRelatedCollections`)

  /** Where a referring document is counted. `Unreadable` is a truthy
      `userId` that is not a string: calling `startsWith` on it throws. */
  datatype RefKind = UidRef | StudentIdRef | MissingRef | Unreadable

  function Classify(d: Doc): (k: RefKind)
    ensures k == Unreadable <==> Has(d, "userId") && !d["userId"].Str?
    ensures k == MissingRef <==> !Has(d, "userId") && !Has(d, "studentId")
    ensures k == UidRef ==> Has(d, "userId") && d["userId"].Str? && !StartsWithS(d["userId"].s)
  {
    if Has(d, "userId") then
      if !d["userId"].Str? then Unreadable
      else if StartsWithS(d["userId"].s) then StudentIdRef
      else UidRef
    else if Has(d, "studentId") then StudentIdRef
    // the last `else if (!data.userId)` always holds here
    else MissingRef
  }

  /** The documents of `docs` of one kind. */
  function Count(docs: seq<Doc>, kind: RefKind): (n: nat)
    ensures n <= |docs|
  {
    if docs == [] then 0 else (if Classify(docs[0]) == kind then 1 else 0) + Count(docs[1..], kind)
  }

  /** The counts of one collection's scan; `threw` when a document stopped
      it. */
  datatype Buckets = Buckets(uidRefs: nat, studentIdRefs: nat, missing: nat, threw: bool)

  /** The loop over one collection's documents, in snapshot order. The
      counts made before a throw are kept. */
  function Scan(docs: seq<Doc>): (b: Buckets)
    ensures b.uidRefs + b.studentIdRefs + b.missing <= |docs|
    ensures !b.threw ==> b.uidRefs + b.studentIdRefs + b.missing == |docs|
  {
    if docs == [] then Buckets(0, 0, 0, false)
    else
      var rest := Scan(docs[1..]);
      match Classify(docs[0])
      case Unreadable => Buckets(0, 0, 0, true)
      case UidRef => rest.(uidRefs := rest.uidRefs + 1)
      case StudentIdRef => rest.(studentIdRefs := rest.studentIdRefs + 1)
      case MissingRef => rest.(missing := rest.missing + 1)
  }

  /** The position of the first unreadable document, or the length. */
  function FirstUnreadable(docs: seq<Doc>): (n: nat)
    ensures n <= |docs|
    ensures forall j :: 0 <= j < n ==> Classify(docs[j]) != Unreadable
    ensures n < |docs| ==> Classify(docs[n]) == Unreadable
  {
    if docs == [] || Classify(docs[0]) == Unreadable then 0 else 1 + FirstUnreadable(docs[1..])
  }

  /** The four kinds partition any run of documents. */
  lemma {:induction false} CountsPartition(docs: seq<Doc>)
    ensures Count(docs, UidRef) + Count(docs, StudentIdRef) + Count(docs, MissingRef) + Count(docs, Unreadable) == |docs|
  {
    if docs != [] {
      CountsPartition(docs[1..]);
    }
  }

  /** A scan counts every document before the first unreadable one in
      exactly one bucket, and throws exactly when there is an unreadable
      one. */
  lemma {:induction false} ScanCounts(docs: seq<Doc>)
    ensures var b, n := Scan(docs), FirstUnreadable(docs);
      && (b.threw <==> n < |docs|)
      && b.uidRefs == Count(docs[..n], UidRef)
      && b.studentIdRefs == Count(docs[..n], StudentIdRef)
      && b.missing == Count(docs[..n], MissingRef)
      && b.uidRefs + b.studentIdRefs + b.missing == n
  {
    var n := FirstUnreadable(docs);
    if docs != [] {
      if Classify(docs[0]) == Unreadable {
        assert docs[..n] == [];
      } else {
        ScanCounts(docs[1..]);
        assert docs[..n][1..] == docs[1..][..n - 1];
        CountsPartition(docs[..n]);
        assert Count(docs[..n], Unreadable) == 0 by {
          UnreadableFree(docs[..n]);
        }
      }
    }
  }

  lemma {:induction false} UnreadableFree(docs: seq<Doc>)
    requires forall j :: 0 <= j < |docs| ==> Classify(docs[j]) != Unreadable
    ensures Count(docs, Unreadable) == 0
  {
    if docs != [] {
      UnreadableFree(docs[1..]);
    }
  }

  /** The migration rewrites `studentId` in `studentQuizzes` but this check
      reads `userId` there, so a quiz document the migration rewrote still
      counts as a student-id reference, and as an issue. */
  lemma RewrittenQuizStillFlagged(s: Store, from: Key, uid: Uid, now: int, key: Key)
    requires key in Docs(s, "studentQuizzes")
    requires var d := Docs(s, "studentQuizzes")[key];
      !Has(d, "userId") && "studentId" in d && d["studentId"] == Str(from)
    requires uid != ""
    ensures var after := Docs(RewriteRefs(s, "studentQuizzes", "studentId", Str(from), Str(uid), now), "studentQuizzes");
      key in after && Classify(after[key]) == StudentIdRef
  {
    var d := Docs(s, "studentQuizzes")[key];
    assert Holds(d, Eq("studentId", Str(from)));
  }

  /** One collection's documents in snapshot order. */
  ghost function Listing(c: Coll): (docs: seq<Doc>)
    ensures |docs| == |c|
  {
    var ks := Enumerate(c.Keys);
    seq(|ks|, i requires 0 <= i < |ks| => c[ks[i]])
  }

  /** The issues and errors the loop over `colls` adds. A collection that
      cannot be read records an error; one whose scan throws records an
      error and keeps the issues counted before the throw. */
  ghost function ScanCollections(s: Store, colls: seq<string>, failing: set<string>): (r: (nat, nat))
    ensures r.1 <= |colls|
    ensures (forall i :: 0 <= i < |colls| ==> colls[i] in failing) ==> r == (0, |colls|)
  {
    if colls == [] then (0, 0)
    else
      var rest := ScanCollections(s, colls[1..], failing);
      if colls[0] in failing then (rest.0, rest.1 + 1)
      else
        var b := Scan(Listing(Docs(s, colls[0])));
        (rest.0 + b.studentIdRefs, rest.1 + (if b.threw then 1 else 0))
  }

  /** A collection whose scan flags no reference: no student-id reference
      before its first unreadable document. */
  ghost predicate FlagsNone(s: Store, c: string) {
    var docs := Listing(Docs(s, c));
    Count(docs[..FirstUnreadable(docs)], StudentIdRef) == 0
  }

  /** A collection whose scan reaches its end. */
  ghost predicate ReadsThrough(s: Store, c: string) {
    var docs := Listing(Docs(s, c));
    FirstUnreadable(docs) == |docs|
  }

  lemma ScanOne(s: Store, c: string)
    ensures Scan(Listing(Docs(s, c))).studentIdRefs == 0 <==> FlagsNone(s, c)
    ensures Scan(Listing(Docs(s, c))).threw <==> !ReadsThrough(s, c)
  {
    ScanCounts(Listing(Docs(s, c)));
  }

  /** Every collection that could be read flags no reference. */
  ghost predicate CleanRefs(s: Store, colls: seq<string>, failing: set<string>) {
    forall i :: 0 <= i < |colls| && colls[i] !in failing ==> FlagsNone(s, colls[i])
  }

  /** Every collection is read and scanned to its end. */
  ghost predicate ReadableRefs(s: Store, colls: seq<string>, failing: set<string>) {
    forall i :: 0 <= i < |colls| ==> colls[i] !in failing && ReadsThrough(s, colls[i])
  }

  /** No issue is counted exactly when no collection flags a reference. */
  lemma {:induction false} ScanIssuesMeaning(s: Store, colls: seq<string>, failing: set<string>)
    ensures ScanCollections(s, colls, failing).0 == 0 <==> CleanRefs(s, colls, failing)
  {
    if colls != [] {
      ScanIssuesMeaning(s, colls[1..], failing);
      ScanOne(s, colls[0]);
      if CleanRefs(s, colls[1..], failing) && (colls[0] !in failing ==> FlagsNone(s, colls[0])) {
        forall i | 0 <= i < |colls| && colls[i] !in failing ensures FlagsNone(s, colls[i]) {
          if i > 0 {
            assert colls[i] == colls[1..][i - 1];
          }
        }
      }
      if CleanRefs(s, colls, failing) {
        forall i | 0 <= i < |colls[1..]| && colls[1..][i] !in failing ensures FlagsNone(s, colls[1..][i]) {
          assert colls[1..][i] == colls[i + 1];
        }
      }
    }
  }

  /** No error is recorded exactly when every collection is read through. */
  lemma {:induction false} ScanErrorsMeaning(s: Store, colls: seq<string>, failing: set<string>)
    ensures ScanCollections(s, colls, failing).1 == 0 <==> ReadableRefs(s, colls, failing)
  {
    if colls != [] {
      ScanErrorsMeaning(s, colls[1..], failing);
      ScanOne(s, colls[0]);
      if ReadableRefs(s, colls[1..], failing) && colls[0] !in failing && ReadsThrough(s, colls[0]) {
        forall i | 0 <= i < |colls| ensures colls[i] !in failing && ReadsThrough(s, colls[i]) {
          if i > 0 {
            assert colls[i] == colls[1..][i - 1];
          }
        }
      }
      if ReadableRefs(s, colls, failing) {
        forall i | 0 <= i < |colls[1..]| ensures colls[1..][i] !in failing && ReadsThrough(s, colls[1..][i]) {
          assert colls[1..][i] == colls[i + 1];
        }
      }
    }
  }

  // ---------------------------------------------------------------------
  // Orphans (`checkOrphanedDocuments`) and synchronisation (`verifyAuthSync`)

  /** Records keyed by something that is not an account. */
  function Orphaned(users: Coll, a: Auth): set<Key> {
    users.Keys - a.Keys
  }

  /** Accounts with no record under their uid. */
  function MissingRecords(users: Coll, a: Auth): set<Uid> {
    a.Keys - users.Keys
  }

  /** The two differences balance: orphans minus missing records is the
      difference in size, and both vanish exactly when the record keys are
      the account uids. */
  lemma OrphanBalance(users: Coll, a: Auth)
    ensures |Orphaned(users, a)| + |users.Keys * a.Keys| == |users|
    ensures |MissingRecords(users, a)| + |users.Keys * a.Keys| == |a|
    ensures Orphaned(users, a) == {} && MissingRecords(users, a) == {} <==> users.Keys == a.Keys
  {
    SplitCard(users.Keys, a.Keys);
    SplitCard(a.Keys, users.Keys);
    assert a.Keys * users.Keys == users.Keys * a.Keys;
  }

  /** Removing a set's overlap with another leaves the rest. */
  lemma SplitCard<T>(x: set<T>, y: set<T>)
    ensures |x - y| + |x * y| == |x|
  {
    assert (x - y) + (x * y) == x;
    assert (x - y) * (x * y) == {};
  }

  /** The issues `verifyAuthSync` finds for one account: one for a missing
      record, otherwise one for each of a differing address and a differing
      uid field. */
  function SyncIssuesOf(users: Coll, u: Uid, email: string): (n: nat)
    ensures n <= 2
  {
    if u !in users then 1
    else
      var d := users[u];
      (if "email" in d && d["email"] == Str(email) then 0 else 1)
      + (if "uid" in d && d["uid"] == Str(u) then 0 else 1)
  }

  /** A record in step with its account. */
  predicate InSync(users: Coll, u: Uid, email: string) {
    u in users && "email" in users[u] && users[u]["email"] == Str(email)
    && "uid" in users[u] && users[u]["uid"] == Str(u)
  }

  /** The issues over the accounts in listing order. */
  function SyncIssues(users: Coll, a: Auth, listing: seq<Uid>): (n: nat)
    requires forall i :: 0 <= i < |listing| ==> listing[i] in a
  {
    if listing == [] then 0
    else SyncIssuesOf(users, listing[0], a[listing[0]]) + SyncIssues(users, a, listing[1..])
  }

  /** No issue is reported exactly when every listed account has a record in
      step with it; and a missing record is always an issue. */
  lemma {:induction false} SyncIssuesMeaning(users: Coll, a: Auth, listing: seq<Uid>)
    requires forall i :: 0 <= i < |listing| ==> listing[i] in a
    ensures SyncIssues(users, a, listing) == 0 <==>
      forall i :: 0 <= i < |listing| ==> InSync(users, listing[i], a[listing[i]])
    ensures SyncIssues(users, a, listing) <= 2 * |listing|
    ensures (exists i :: 0 <= i < |listing| && listing[i] !in users) ==> SyncIssues(users, a, listing) > 0
  {
    if listing != [] {
      SyncIssuesMeaning(users, a, listing[1..]);
      assert forall i :: 0 <= i < |listing[1..]| ==> listing[1..][i] == listing[i + 1];
      if forall i :: 0 <= i < |listing| ==> InSync(users, listing[i], a[listing[i]]) {
        assert InSync(users, listing[0], a[listing[0]]);
      }
      if exists i :: 0 <= i < |listing| && listing[i] !in users {
        var i :| 0 <= i < |listing| && listing[i] !in users;
        if i > 0 {
          assert listing[1..][i - 1] == listing[i];
        }
      }
    }
  }

  // ---------------------------------------------------------------------
  // The report

  datatype Results = Results(totalUsers: nat, uidBasedUsers: nat, studentIdBasedUsers: nat,
                             orphanedDocuments: nat, missingAuthUsers: nat,
                             relatedCollectionIssues: nat, errors: nat)

  /** `verifyMigration`. `failing` names the collections whose reads fail;
      `authDown` makes the account listing fail. */
  ghost function VerifyMigration(s: Store, a: Auth, failing: set<string>, authDown: bool): (r: Results)
    ensures r.uidBasedUsers + r.studentIdBasedUsers == r.totalUsers
    ensures Users in failing ==> r.totalUsers == 0 && r.errors >= 2
    ensures authDown ==> r.orphanedDocuments == 0 && r.missingAuthUsers == 0 && r.errors >= 2
    ensures Users !in failing && !authDown ==>
      (r.orphanedDocuments == 0 && r.missingAuthUsers == 0 <==> Docs(s, Users).Keys == a.Keys)
  {
    var users := Docs(s, Users);
    UserCountsPartition(users);
    OrphanBalance(users, a);
    var usersOk := Users !in failing;
    var refs := ScanCollections(s, RelatedCollections, failing);
    var listing := Enumerate(a.Keys);
    Results(
      if usersOk then |users| else 0,
      if usersOk then |UidBased(users)| else 0,
      if usersOk then |StudentIdBased(users)| else 0,
      if usersOk && !authDown then |Orphaned(users, a)| else 0,
      if usersOk && !authDown then |MissingRecords(users, a)| else 0,
      refs.0,
      (if usersOk then 0 else 1) + refs.1 + (if usersOk && !authDown then 0 else 1)
      // `verifyAuthSync`: the listing fails, or the first record read does
      + (if authDown || (!usersOk && |listing| > 0) then 1 else 0))
  }

  /** `generateReport`'s rate, `uidBased / total * 100` rounded half up
      in exact arithmetic, or 0 when there are no records. */
  function SuccessRate(uidBased: nat, total: nat): (p: nat)
    ensures total == 0 ==> p == 0
    ensures total > 0 ==> 2 * total * p <= 200 * uidBased + total < 2 * total * (p + 1)
  {
    if total > 0 then (200 * uidBased + total) / (2 * total) else 0
  }

  /** The rate is a percentage, 100 for a complete migration and 0 for none,
      and never above 100 unless more records are uid based than exist. */
  lemma SuccessRateBounds(uidBased: nat, total: nat)
    requires uidBased <= total
    ensures SuccessRate(uidBased, total) <= 100
    ensures total > 0 && uidBased == total ==> SuccessRate(uidBased, total) == 100
    ensures uidBased == 0 ==> SuccessRate(uidBased, total) == 0
  {
    if total > 0 {
      assert 200 * uidBased + total < 2 * total * 101;
    }
  }

  /** The rate rounds: a run can show 100 percent while the verdict still
      asks for attention. */
  lemma HundredPercentIsNotComplete()
    ensures SuccessRate(996, 1000) == 100
    ensures !Verdict(Results(1000, 996, 4, 0, 0, 0, 0))
  {
  }

  /** The "100% successful" verdict. */
  predicate Verdict(r: Results) {
    r.uidBasedUsers == r.totalUsers && r.errors == 0
  }

  /** The verdict holds exactly when every read succeeds, every record is
      uid based and no reference is unreadable; orphans, missing records,
      synchronisation issues and student-id references do not enter it. */
  lemma VerdictMeaning(s: Store, a: Auth, failing: set<string>, authDown: bool)
    ensures Verdict(VerifyMigration(s, a, failing, authDown)) <==>
      && Users !in failing && !authDown
      && ReadableRefs(s, RelatedCollections, failing)
      && forall k :: k in Docs(s, Users) ==> UidKeyed(k, Docs(s, Users)[k])
  {
    UserCountsPartition(Docs(s, Users));
    ScanErrorsMeaning(s, RelatedCollections, failing);
  }

  /** A verdict of success says nothing of the references: with every read
      succeeding and every record uid based, a readable student-id reference
      leaves the verdict standing while counting as an issue. */
  lemma VerdictIgnoresReferences(s: Store, a: Auth)
    requires ReadableRefs(s, RelatedCollections, {})
    requires forall k :: k in Docs(s, Users) ==> UidKeyed(k, Docs(s, Users)[k])
    requires !CleanRefs(s, RelatedCollections, {})
    ensures Verdict(VerifyMigration(s, a, {}, false))
    ensures VerifyMigration(s, a, {}, false).relatedCollectionIssues > 0
  {
    VerdictMeaning(s, a, {}, false);
    ScanIssuesMeaning(s, RelatedCollections, {});
  }
}
